=== FILE: README.md ===
# Subtitle version store of unisubs, in Dafny

This project models the part of unisubs (the Amara subtitle platform) that
stores subtitles as versions. The store works like a small version-control
system:

- a `SubtitleLanguage` of a video is a branch;
- a `SubtitleVersion` is an immutable changeset with:
  - a per-language `version_number`;
  - parent versions, possibly in other languages;
  - a lineage map from language code to the highest ancestor version number;
  - a `visibility` and a `visibility_override`.

The model is functional. A `Store` holds the languages (id = position) and the
version table (pk = position). Every operation is a pure function of the store
that returns a new store or a `Result` carrying the exception the Python code
would raise. The clock is an integer `now` in microseconds. Team membership,
permissions and display names are parameters.

Files:

- `wrappers.dfy`: `Option`, `Result`, `Outcome` and the error taxonomy.
- `writelock.dfy`: the 30-second writelock of `SubtitleLanguage`, and the
  legacy `videos.SubtitleLanguage.writelock`.
- `signoff.dfy`: collaborators and the denormalised signoff counters.
- `versions.dfy`: the version record, the visibility decision table, the
  filters behind the three views, and `clean`/`full_clean`.
- `lineage.dfy`: `get_lineage` and its order-free characterisation.
- `store.dfy`: languages, views, tips, `next_version`/`previous_version`,
  rollback sources and the language-level existence filters.
- `gateway.dfy`: the write path: `ensure_stringy`, `_sanity_check_parents`,
  `add_version`, the `save()` assertions and the store invariants they keep.
- `ancestry.dfy`:
  - the parent graph and what a lineage means in terms of it;
  - the translation-source walk;
  - the dependent languages;
  - `in_progress`.
- `moderation.dfy`: `publish`, `unpublish` and `nuke_language`.
- `videos.dfy`:
  - the `Video` writelock;
  - the metadata-type registry;
  - `title_display`;
  - the action type chosen by `create_caption_handler`.
- `editor_views.dfy`: the lock gating and task selection of the subtitle editor
  views, and which versions the editor receives with content.
- `video_views.dfy`:
  - the language list of the video page;
  - the rollback precondition chain;
  - the history view choice;
  - the diff swap;
  - the widget parameters.
- `scenarios.dfy`: the lineage of the common single-parent cases.

Where the code and its documentation disagree, the model follows the code.

- `get_lineage` records each parent's own language. A language's second
  version therefore has lineage `{'en': 1}`, not `{}`. See
  `Scenarios.SecondVersionRemembersFirst`.
- `publish()` only sets `visibility`. It cannot undo a `visibility_override`.
  See `Moderation.PublishKeepsOverride`.

## Model

| member | source | states |
|---|---|---|
| Writelock.ElapsedSeconds | apps/subtitles/models.py:385-386 | the elapsed time is counted in whole seconds, rounded down, as `days*86400 + seconds` of a timedelta does |
| Writelock.IsWritelocked | apps/subtitles/models.py:381-387 | a language is locked iff a lock time is set and less than 30 s (in microseconds) have passed since it |
| Writelock.CanWritelock | apps/subtitles/models.py:389-391 | a session may lock iff it holds the stored key or the lock has lapsed; refusal means another key holds a live lock |
| Writelock.Acquire | apps/subtitles/models.py:393-417 | the owner is recorded only for authenticated users; the new lock is held at every instant of the next 30 s and at none after |
| Writelock.Release | apps/subtitles/models.py:419-431 | a released lock has no owner or time, is never held, and any session may lock it |
| Writelock.ExclusiveWithinExpiration | apps/subtitles/models.py:381-417 | within 30 s of a lock taken with key k, a key may lock iff it is k |
| Writelock.ExpiresAfterThirtySeconds | apps/subtitles/models.py:381-391 | from 30 s after the lock was taken, it is not held and any key may lock |
| Writelock.TruncationBoundary | apps/subtitles/models.py:385-387 | the lock is still held one microsecond before 30 s and released at exactly 30 s |
| Writelock.LegacyWritelock | apps/videos/models.py:1019-1025 | as written: an authenticated request sets only the owner; only anonymous requests record key and time |
| Writelock.LegacyAuthenticatedLockIsNotHeld | apps/videos/models.py:1005-1025 | as written, a released lock "taken" by an authenticated user is not held and any other session may lock it at once |
| Writelock.LegacyWritelockIntended | apps/videos/models.py:1019-1025 | corrected: key and time are recorded for every user, so no other key can lock at that instant |
| Signoff.CountWhere | apps/subtitles/models.py:675-690 | a count never exceeds the roster; it is 0 iff no collaborator matches and the roster size iff all do |
| Signoff.UpdateSignoffCounts | apps/subtitles/models.py:672-692 | official + unofficial + pending equals the roster size; pending equals expired + unexpired; pending is 0 iff everyone signed off |
| Signoff.CountsPartitionRoster | apps/subtitles/models.py:677-690 | the five predicates split the roster: the three signoff classes partition it and the pending class splits by expiry |
| Signoff.CountWherePermutation | apps/subtitles/models.py:675-690 | the counters depend only on the roster as a multiset, not on the queryset's order |
| Signoff.CountWhereInsert | apps/subtitles/models.py:675-690 | adding one collaborator anywhere in the roster raises exactly the counters whose predicate it satisfies, by one |
| Signoff.CountWhereAppend | apps/subtitles/models.py:675-690 | counting over a roster made of two parts adds the parts' counts, so a count does not depend on how the queryset is split |
| Signoff.SaveCollaborator | apps/subtitles/models.py:1615-1636 | inserting a row for a user already on the roster is an IntegrityError; otherwise the collaborator is on the roster as the only entry for its user, others are kept, one row per user is preserved, and the recount satisfies the counter identities |
| Signoff.Upsert | apps/subtitles/models.py:1615-1620 | a new row (`not self.pk`) for a user on the roster fails with IntegrityError; otherwise the saved row replaces the user's row or is added at the end, nothing else changes, and a roster with one row per user keeps one row per user |
| Signoff.Replace | apps/subtitles/models.py:1615-1616 | an update rewrites exactly the rows of that user and keeps the roster length |
| Store.CollaboratorSave | apps/subtitles/models.py:1615-1636 | a duplicate insert is an IntegrityError; otherwise saving a collaborator changes only that language: the collaborator is on its roster, uniqueness per user is kept, and its counters equal a recount of that roster |
| Versions.VisibilityPartition | apps/subtitles/models.py:1340-1357 | for valid visibility and override, exactly one of public, private and deleted holds; a non-empty override decides, else `visibility` does |
| Versions.InvalidVisibilityIsNothing | apps/subtitles/models.py:1340-1357 | with no override and a visibility outside the choices, none of the three predicates holds |
| Versions.ViewsMatchPredicates | apps/subtitles/models.py:983-997 | the public filter holds iff `is_public`, the extant filter iff not `is_deleted`, and public implies extant |
| Versions.Clean | apps/subtitles/models.py:1234-1239 | `clean` passes iff a rollback's source number is below the version's own number; otherwise a ValidationError |
| Versions.CleanFields | apps/subtitles/models.py:1060-1103 | `clean_fields` passes iff language code, title and note fit their `max_length` (16, 2048, 512), the visibility fields hold valid choices and the origin is blank or one of the eight origins; a length failure is reported as TooLong |
| Versions.FullClean | apps/subtitles/models.py:1234-1239 | `full_clean` (without its `validate_unique` step) passes iff `clean_fields` and `clean` both pass; failures are ValidationErrors, and a passing origin fits its 255-character bound |
| Lineage.Bump | apps/subtitles/models.py:130-133 | the map gains the key if missing and its value becomes the larger of the old value and the new number; other keys are untouched |
| Lineage.MergeMax | apps/subtitles/models.py:135-137 | the merged map has the union of keys, bounds both inputs, and each value comes from one of them |
| Lineage.AbsorbPointwise | apps/subtitles/models.py:129-137 | after one parent, a language is present iff it was present or the parent contributes it, with the larger value |
| Lineage.GetLineageIsMaxMerge | apps/subtitles/models.py:122-139 | the fold over parents yields the pointwise maximum of what the parents contribute: their own numbers and their lineage entries |
| Lineage.MaxMergeUnique | apps/subtitles/models.py:122-139 | the pointwise maximum of a set of parents is unique |
| Lineage.LineageOrderIndependent | apps/subtitles/models.py:122-139 | lineages of two parent lists with the same members are equal, whatever the order or repetition |
| Lineage.LineageDominatesParents | apps/subtitles/models.py:122-139 | the result records each parent's language at least at its number and dominates each parent's lineage pointwise |
| Lineage.LineageNamesOnlyParentLanguages | apps/subtitles/models.py:122-139 | every language in the result is a parent's language or in a parent's lineage |
| Store.Select | apps/subtitles/models.py:983-997 | a view contains exactly the language's versions that pass the view's filter, in table order |
| Store.ViewsNest | apps/subtitles/models.py:983-997 | public is within extant, extant within full, and full holds only the language's versions |
| Store.ViewsMatchVisibility | apps/subtitles/models.py:983-997 | in a valid store, a version is in the public view iff `is_public` and in the extant view iff not `is_deleted` |
| Store.VersionSet | apps/subtitles/models.py:983-1001 | naming a view gives that language's versions; the non-full views hold no deleted version; plain `all()` is an assertion failure |
| Store.HighestNumbered | apps/subtitles/models.py:494-501 | the tip is absent iff the view is empty; otherwise it is a member whose number bounds every member's |
| Store.GetTip | apps/subtitles/models.py:474-501 | public and full together is an assertion failure; otherwise the highest-numbered version of the chosen view, or None |
| Store.TipsNest | apps/subtitles/models.py:474-501 | public tip ≤ extant tip ≤ full tip, and a narrower view with a tip makes every wider one have a tip |
| Store.LowestAbove | apps/subtitles/models.py:1468-1472 | the closest later sibling: above the number and not above any other sibling that is above it |
| Store.HighestBelow | apps/subtitles/models.py:1483-1487 | the closest earlier sibling: below the number and not below any other sibling that is below it |
| Store.NextPreviousInverse | apps/subtitles/models.py:1461-1488 | w is the next version of v iff v is the previous version of w, both in the same view |
| Store.SameNumberSameVersion | apps/subtitles/models.py:1189-1191 | with unique (language, number) pairs, a number identifies a version within a view |
| Store.FindNumber | apps/subtitles/models.py:1376-1378 | the lookup by number finds a member with that number, or none exists |
| Store.GetRollbackSource | apps/subtitles/models.py:1364-1382 | no source for non-rollbacks and legacy 0 rollbacks; else the sibling with the source number, None when it is not in the view |
| Store.RollbackSourcePrecedes | apps/subtitles/models.py:1234-1239 | in a valid store a rollback source is an earlier version of the same language |
| Store.HavingVersions | apps/subtitles/models.py:160-177 | the SQL existence test holds iff the extant view is non-empty |
| Store.HavingNonemptyVersions | apps/subtitles/models.py:199-210 | the SQL existence test holds iff some extant version has subtitles |
| Store.HavingNonemptyTipMeansTipHasSubtitles | apps/subtitles/models.py:226-243 | with unique numbers, the tip filter holds iff the extant tip exists and has subtitles |
| Store.HavingPublicVersions | apps/subtitles/models.py:265-284 | the SQL existence test holds iff the public view is non-empty |
| Store.HavingPublicVersionsMeansSomePublic | apps/subtitles/models.py:265-284 | in a valid store the public filter holds iff some version of the language `is_public` |
| Store.WithLanguage | apps/subtitles/models.py:462-472 | saving a language replaces that row and leaves versions and other languages alone |
| Store.WithLanguageKeepsValid | apps/subtitles/models.py:462-472 | a language update that keeps id, code and video keeps the store valid |
| Gateway.EnsureStringy | apps/subtitles/models.py:70-84 | an absent or string value passes; anything else is a ValidationError |
| Gateway.CodeSetSize | apps/subtitles/models.py:583-585 | the parents' codes form a set as large as the list iff no two parents share a language |
| Gateway.SanityCheckParents | apps/subtitles/models.py:541-592 | passes iff parent languages are distinct and no parent falls below the lineage; the first rule's failure is reported first |
| Gateway.SanityPassPinsParents | apps/subtitles/models.py:583-592 | after a passing check, each parent's language maps exactly to that parent's number |
| Gateway.SaveChecks | apps/subtitles/models.py:1247-1255 | the save assertions pass iff code and video match the language and visibility is public or private |
| Gateway.NextNumber | apps/subtitles/models.py:608-611 | the new number exceeds every number in the full view, including deleted versions; 1 for the first version |
| Gateway.ParentsWithTip | apps/subtitles/models.py:613-616 | the explicit parents keep their order and the full-view tip is appended when there is one |
| Gateway.ParentPks | apps/subtitles/models.py:613-637 | the stored parent edges are the explicit ones plus the full-view tip |
| Gateway.AddVersion | apps/subtitles/models.py:595-640 | succeeds iff every validation passes (stringy title and description, parent sanity, field lengths and choices, rollback source); failures are ValidationErrors; success appends one version numbered above all full-view versions with the merged lineage, parent edges and every given field (title, description, note, author, origin, visibility, override, rollback source, count, sync flag), and the save assertions hold |
| Gateway.AddVersionLineage | apps/subtitles/models.py:613-618 | the new lineage records each parent at least at its number and dominates each parent's lineage |
| Gateway.SameLanguageParentsRejected | apps/subtitles/models.py:583-585 | two explicit parents in one language always make `add_version` fail |
| Gateway.LateRollbackSourceRejected | apps/subtitles/models.py:1234-1239 | a rollback source not below the new number makes `add_version` fail |
| Gateway.AddVersionKeepsValid | apps/subtitles/models.py:595-640 | a successful `add_version` keeps the store valid, including unique numbers per language |
| Gateway.AddVersionKeepsDense | apps/subtitles/models.py:608-611 | if each language's versions are numbered 1..n, the new version gets n + 1 and the numbering stays dense |
| Ancestry.AncestorBelow | apps/subtitles/models.py:1268-1282 | an ancestor always has a smaller pk than its descendant |
| Ancestry.AncestorAppend | apps/subtitles/models.py:1268-1282 | appending a version does not change the ancestry of existing versions |
| Ancestry.AncestorOfAppended | apps/subtitles/models.py:1279-1282 | the ancestors of a new version are its parents and their ancestors |
| Ancestry.EmptyStoreLineage | apps/subtitles/models.py:122-139 | a store without versions satisfies both lineage invariants |
| Ancestry.LineageIsAncestorMaximum | apps/subtitles/models.py:122-139 | under the invariants, a language is in a lineage iff an ancestor is in it, and its value is the highest ancestor number there |
| Ancestry.AddVersionKeepsLineageMeaning | apps/subtitles/models.py:595-640 | `add_version` keeps the store valid and keeps both lineage invariants: every entry names an ancestor and every ancestor is recorded |
| Ancestry.AppendKeepsSound | apps/subtitles/models.py:122-139 | appending a version whose lineage merges its parents keeps every lineage entry backed by an ancestor with that language and number |
| Ancestry.AppendKeepsComplete | apps/subtitles/models.py:1279-1282 | appending such a version keeps every ancestor recorded in each descendant's lineage at least at its number |
| Ancestry.MaxOf | apps/subtitles/models.py:819-823 | the `-pk` ordering's first element: a member not below any other, absent only for an empty list |
| Ancestry.ForeignParents | apps/subtitles/models.py:819-821 | the parents outside the language, empty iff every parent is in it |
| Ancestry.WalkToSource | apps/subtitles/models.py:814-834 | the walk returns, if anything, an ancestor of the start in another language with a smaller pk; when the start has a parent in another language the result is the newest such parent; with none and number 1 or no parents the result is None |
| Ancestry.WalkNoneIffSourcelessChain | apps/subtitles/models.py:816-834 | the walk finds nothing exactly when no version on the newest-parent chain from the start has a parent in another language |
| Ancestry.RootHasNoSource | apps/subtitles/models.py:825-834 | a version numbered 1 with only same-language parents has no translation source |
| Ancestry.TranslationSourceVersion | apps/subtitles/models.py:802-834 | None for a fork unless forking is ignored and None without an extant tip; otherwise an ancestor of the tip in another language, the tip's newest foreign parent when it has one, and None exactly when the tip's newest-parent chain has no foreign parent |
| Ancestry.TranslationSourceLanguageCode | apps/subtitles/models.py:765-799 | the source code exists iff a source version does and is that version's language code |
| Ancestry.SourceInTipLineage | apps/subtitles/models.py:802-834 | under the invariants, the source's language is in the tip's lineage at least at the source's number |
| Ancestry.IdsBelow | apps/subtitles/models.py:869-877 | the candidates kept by the filter, each once, in increasing id order |
| Ancestry.DependentLanguages | apps/subtitles/models.py:837-886 | excludes the language itself, keeps only unforked languages of the same video, and holds exactly the selected candidates |
| Ancestry.DependentsDescend | apps/subtitles/models.py:837-886 | under the invariants, l is a dependent iff l is another unforked language of the video whose extant tip descends from a version in this language |
| Ancestry.InProgress | apps/subtitles/models.py:922-942 | moderated: in progress iff the extant tip is private; unmoderated: iff not complete and the tip has subtitles; a missing tip is an AttributeError except where `subtitles_complete` short-circuits |
| Ancestry.InProgressAsWritten | apps/videos/models.py:790-800 | as written: the moderated branch is always taken |
| Ancestry.InProgressAsWrittenMissesUnmoderated | apps/videos/models.py:790-800 | a store where the as-written result is false and the intended unmoderated result is true |
| Moderation.EditKeepsInvariants | apps/subtitles/models.py:1509-1528 | changing only visibility fields keeps validity, dense numbering and both lineage invariants |
| Moderation.Publish | apps/subtitles/models.py:1509-1517 | fails with an assertion without a team video; otherwise sets only `visibility` to public, keeping the override and every other version |
| Moderation.Unpublish | apps/subtitles/models.py:1519-1528 | sets only the override, to deleted or private, keeping `visibility` and every other version |
| Moderation.PublishKeepsOverride | apps/subtitles/models.py:1509-1517 | publishing a privately or deleted-overridden version leaves it not public |
| Moderation.PublishWithoutOverride | apps/subtitles/models.py:1509-1517 | publishing a version without override makes it public |
| Moderation.UnpublishHides | apps/subtitles/models.py:1519-1528 | after `unpublish` the version is not public; after `unpublish(delete=True)` it is deleted and outside the extant view |
| Moderation.NukeTargets | apps/subtitles/models.py:664 | the language itself first, then exactly its dependents |
| Moderation.NukeLanguage | apps/subtitles/models.py:659-670 | every version of the language and its dependents becomes deleted, all others stay as they were, the store stays valid, and no target has an extant tip |
| Moderation.DeleteLanguage | apps/subtitles/models.py:665-667 | one round of the nuke: every row of the language ends deleted with its `visibility` kept, rows of other languages are untouched, and the store stays valid |
| Moderation.NukeLanguageClears | apps/subtitles/models.py:659-670 | after the nuke, no target has extant versions but each keeps its full history, and all store invariants survive |
| Videos.VideoIsWritelocked | apps/videos/models.py:690-697 | a video is locked iff a lock time is set and less than 30 s have passed |
| Videos.VideoCanWritelock | apps/videos/models.py:699-703 | a session may lock iff it holds the key or the video is not locked |
| Videos.VideoWritelock | apps/videos/models.py:705-715 | records the owner only for authenticated users, always key and time, and changes nothing else on the video |
| Videos.VideoReleaseWritelock | apps/videos/models.py:717-721 | resets owner, key and time and changes nothing else |
| Videos.VideoLockExclusive | apps/videos/models.py:690-715 | within 30 s of locking a video with key k, a key may lock iff it is k |
| Videos.VideoReleaseFrees | apps/videos/models.py:690-721 | after release the video is not locked and any session may lock it |
| Videos.VarName | apps/videos/models.py:106-107 | same length, spaces become '_', ASCII capitals become lower case, and no space or capital remains |
| Videos.UpdateMetadataChoices | apps/videos/models.py:93-108 | the name and variable maps share their keys, each variable is the name's variable form, and the keys are exactly the choices' numbers |
| Videos.NamesOfFunctional | apps/videos/models.py:93-108 | when no number has two names, every choice's number maps to its own name |
| Videos.AddMetadataType | apps/videos/models.py:899-925 | ValueError iff the first choice with that number has another name; an existing number leaves the registry unchanged; a new pair is appended and the maps rebuilt |
| Videos.AddMetadataTypeFunctional | apps/videos/models.py:899-925 | on a registry where no number has two names, the result never gives a number two names |
| Videos.AddMetadataTypeIdempotent | apps/videos/models.py:913-919 | adding the same pair twice is the same as adding it once |
| Videos.InitialRegistry | apps/videos/models.py:84-109 | the initial choices (1 Author, 2 Creation Date) give the expected name, variable and id maps |
| Videos.TrimStart | apps/videos/models.py:243 | the result is a suffix of the input, everything removed is the stripped character, and it does not start with it |
| Videos.TrimEnd | apps/videos/models.py:243 | the result is a prefix of the input, everything removed is the stripped character, and it does not end with it |
| Videos.Strip | apps/videos/models.py:231-243 | the result is a slice of the input that neither starts nor ends with the stripped character |
| Videos.Split | apps/videos/models.py:248 | at least one part, no part contains the separator, and there are several parts iff the separator occurs |
| Videos.SplitJoin | apps/videos/models.py:248 | joining the parts with the separator gives the input back |
| Videos.TitleDisplay | apps/videos/models.py:228-257 | a non-blank version title wins, then a non-blank video title, then 'No title' without a URL, else the title derived from the first URL; with truncation the result is at most 38 characters |
| Videos.TruncationKeepsPrefix | apps/videos/models.py:254-255 | truncation keeps titles of up to 35 characters and turns longer ones into their first 35 characters plus '...' |
| Videos.UrlTitleKeepsEnds | apps/videos/models.py:243-252 | a multi-segment path shows as first/.../last of the stripped URL, a single segment as itself |
| Videos.CaptionActionType | apps/videos/models.py:1621-1631 | ADD_TRANSLATION (6) iff the version number is 0, else ADD_VERSION (4) |
| Videos.AddVersionRecordsAddVersion | apps/videos/models.py:1621-1631 | versions created by `add_version` are numbered from 1, so the action recorded is always ADD_VERSION |
| EditorViews.RegainLock | apps/subtitles/views.py:96-104 | ok is false iff the browser may not lock, and then nothing changes; otherwise the lock is taken for that browser |
| EditorViews.ReleaseLock | apps/subtitles/views.py:106-115 | the lock is released iff the browser may lock; otherwise the language is unchanged |
| EditorViews.RegainThenExclusive | apps/subtitles/views.py:96-115 | within 30 s of a regain, another browser can neither regain nor release, while the holder can do both |
| EditorViews.FirstWhere | apps/subtitles/views.py:121-122 | the position of the first matching task, or none matches |
| EditorViews.AssignTaskForEditor | apps/subtitles/views.py:117-132 | nothing happens without a team video or open task; only the first open task may change, becoming the user's iff unassigned and assignable; an error iff its assignee is then not the user |
| EditorViews.AssignRespectsHolder | apps/subtitles/views.py:117-132 | a task held by someone else is never taken over and yields the error; a task held or takeable by the user is theirs, without error |
| EditorViews.GetTaskForEditor | apps/subtitles/views.py:135-159 | None without a team video; any result is the first open Review or Approve task for the language in task order (`[:1]`); None means no such task |
| EditorViews.SubtitleEditor | apps/subtitles/views.py:161-193 | renders iff the lock check, the task check and `can_add_version` all pass; each refusal happens exactly when the earlier checks pass and its own fails; any refusal leaves the language and its lock untouched; a lock refusal happens before any task is saved, and once the lock check passes the task assignment is saved whatever follows |
| EditorViews.EditorHoldsLock | apps/subtitles/views.py:161-193 | after the editor renders, no other browser can lock for 30 s and the lock names the user |
| EditorViews.Entries | apps/subtitles/views.py:60-76 | one entry per version with its number and visibility; content is attached iff it is the edited version, the source, or the last version of the base language |
| EditorViews.LanguageData | apps/subtitles/views.py:52-76 | one entry for every full-view version, deleted ones included |
| EditorViews.LanguageDataShipsWhatIsEdited | apps/subtitles/views.py:60-76 | the edited version and the translation source always carry content in their language, as does the last version of the base language |
| EditorViews.LanguageDataShipsNothingElse | apps/subtitles/views.py:60-76 | outside the base language, no other version carries content |
| VideoViews.LexLeTotal | apps/videos/views.py:105-106 | the name order compares any two names |
| VideoViews.LexLeTrans | apps/videos/views.py:105-106 | the name order is transitive |
| VideoViews.CalcStatus | apps/videos/views.py:110-120 | complete with a public version: 'complete'; complete without: 'needs-review'; incomplete: 'incomplete' or 'needs-timing' by whether the extant tip is synced; AttributeError iff incomplete without an extant tip |
| VideoViews.ListedLanguagesHaveStatus | apps/videos/views.py:96-120 | every language the list shows gets a status without error |
| VideoViews.ShownIds | apps/videos/views.py:96 | the languages iterated are exactly the video's languages with a non-empty extant version, each once, in increasing id order |
| VideoViews.WorkflowTag | apps/videos/views.py:137-147 | a Review task gives 'needs review', an Approve task 'needs approval', anything else 'needs editing' |
| VideoViews.CalcTags | apps/videos/views.py:122-148 | at most two tags; 'original' iff primary, and then first; 'incomplete' iff not complete, excluding workflow tags; at most one workflow tag, present iff complete, a team video and an open task exist, and set by the first task |
| VideoViews.Insert | apps/videos/views.py:105-106 | inserting adds exactly the item, as a multiset |
| VideoViews.InsertSorted | apps/videos/views.py:105-106 | inserting into a name-sorted list keeps it sorted |
| VideoViews.SortByName | apps/videos/views.py:105-106 | the result is a permutation of the input sorted by name |
| VideoViews.Partition | apps/videos/views.py:102-104 | the items split into exactly those of the primary audio language and the others |
| VideoViews.LanguageList | apps/videos/views.py:90-107 | every item is a shown language's item, every shown language appears exactly once (no language twice, as many items as shown languages), primary-audio items come first, and each group is sorted by name |
| VideoViews.PartitionSplits | apps/videos/views.py:102-104 | the two groups together are a permutation of the items |
| VideoViews.UniqueIdsPermutation | apps/videos/views.py:102-106 | sorting and regrouping keep a list free of repeated languages |
| VideoViews.LanguageListOnce | apps/videos/views.py:96-107 | the final list names each shown language once and has one item per shown language |
| VideoViews.RollbackView | apps/videos/views.py:599-620 | permission is checked first, then the writelock, then a later extant version: each refusal happens exactly when the earlier checks pass and its own fails (the last-version refusal when no extant version is numbered higher), and the rollback runs iff all three pass |
| VideoViews.RollbackRespectsEditor | apps/videos/views.py:602-609 | while anyone holds a live lock on the language, no rollback runs |
| VideoViews.RolledBackHasLaterVersion | apps/videos/views.py:610-612 | a rollback runs only to a version followed by a later extant version |
| VideoViews.HistoryKind | apps/videos/views.py:500-505 | the public view iff the video is a team video and the user is not a member; otherwise the extant view |
| VideoViews.HistoryRevisions | apps/videos/views.py:500-522 | the revision list holds exactly the versions of the chosen view |
| VideoViews.HistoryVisibility | apps/videos/views.py:500-505 | outsiders see a version iff it is public; everyone else sees it iff it is not deleted |
| VideoViews.Diffing | apps/videos/views.py:622-638 | NotFound iff the second pk is not an extant version of the first's language; the pair is the two versions, larger pk first |
| VideoViews.DiffingSymmetric | apps/videos/views.py:622-638 | in a valid store, diffing two extant versions of a language succeeds and gives the same pair in either order |
| VideoViews.Without | apps/videos/views.py:582-583 | exactly the URLs that differ from the primary one |
| VideoViews.WidgetParams | apps/videos/views.py:580-597 | the given URL or the video's own; every other effective URL as alternate; a revision only for a non-zero number; language code and pk iff a language is given; the size as given |
| VideoViews.WidgetUrlsPartition | apps/videos/views.py:580-584 | each effective URL is either the primary URL or an alternate, never both |
| Scenarios.SingleParentLineage | apps/subtitles/models.py:122-139 | with one parent the lineage is the parent's lineage raised by the parent's own language and number |
| Scenarios.SecondVersionRemembersFirst | apps/subtitles/models.py:608-618 | a language's second version maps its own code to the first version's number |
| Scenarios.FirstTranslationInheritsSource | apps/subtitles/models.py:613-618 | a translation's first version inherits the source's lineage and adds the source's own language and number |

## Left out

- Subtitle payloads (compression, DFXP through babelsubs) and lineage JSON are
  opaque; only `subtitle_count` and the `fully_synced` flag are kept.
- Diffing of subtitle contents (`get_changes`, `time_change`, `text_change`)
  uses floats and an external diff. It is not modelled.
- Metadata storage (`update_metadata`), signals, followers, Celery tasks, cache
  invalidation, search indexing, thumbnails, feeds, URL ingestion and template
  rendering are I/O or external collaborators.
- `add_version` saves the video's metadata before the sanity check runs. The
  model does not claim all-or-nothing behaviour for that metadata.
- Concurrency and transactions are not modelled; calls are sequential. The
  wall clock is the integer `now`.
- Teams, permissions (`can_assign_task`, `can_add_version`,
  `can_rollback_language`), membership, display names and
  `visibility_display` come from other apps and are parameters.
- `rollback_to`, `base_widget_params` and the `get_video_revision` decorator
  are not part of this model.
- Moderation.Publish and Moderation.Unpublish require a valid store whose pk
  exists; the Python methods act on an already loaded row.
- VideoViews.HistoryRevisions: lists the view newest pk first. The source orders
  by `-version_number` or a user-chosen column; the ordering is not stated.
- VideoViews.SortByName: sortedness and permutation are proved; the stability of
  Python's sort among equal names is not stated.
- VideoViews.LexLe: compares code points; no locale collation.
- Videos.TitleDisplay: `strip()` is modelled on ASCII whitespace only; Python's
  unicode whitespace set is larger.
- Videos.VarName: lower-cases ASCII letters only; Python's `lower()` covers all
  of Unicode.
- Versions.CleanFields: does not check `language_code` against the
  `ALL_LANGUAGES` choices, because that list comes from the deployment
  settings (`settings.ALL_LANGUAGES`); the code is copied from the language row.
- Versions.FullClean: inherits the `ALL_LANGUAGES` gap of `clean_fields`.
  Django reports every failing field in one ValidationError; the model records
  a single reason.
- Versions.FullClean: Django's `validate_unique` step, run on the two
  `unique_together` triples of `SubtitleVersion` (video, language, number and
  video, code, number), is not modelled. From `add_version` it cannot fire: the
  new number is one past the full-view tip of its language, and the
  `unique_together` on (video, language code) of `SubtitleLanguage` makes the
  second triple follow from the first. That per-video code uniqueness is not
  part of `Store.Valid`, so the model does not prove the second half.
- Gateway.AddVersion: inherits the `ALL_LANGUAGES` gap of `full_clean`, and the
  non-blank check on `serialized_subtitles` is not modelled because payloads are
  opaque.
- Gateway.AddVersion: a caller's non-empty `parents` list is extended with the
  full-view tip in place (`parents.append(tip)` on the caller's own list; an
  empty list is replaced by a fresh one). The model takes the explicit parents
  by value and does not represent this change to the argument.
- Querysets without an `order_by` or a Meta `ordering`
  (`subtitleversion_set.full()`, `newsubtitlelanguage_set`) are taken in
  primary-key order, the table order of the store; the database's own default
  order is assumed to be that one. In particular, "the last version of the base
  language" in `_language_data` is the newest only under that assumption.
- Signoff.Upsert: rows are identified by user, not by primary key, so an update
  that moves an existing row to another user is not modelled.
- EditorViews.RegainLock: `video.subtitle_language(code)` returning None (an
  AttributeError in the view) is not modelled; the language is given.

## Findings

| source | as written | input that shows it | evidently intended | confidence | as-written member | corrected member |
|---|---|---|---|---|---|---|
| apps/videos/models.py:790-800 | `is_moderated` returns the cache attribute's name, a non-empty string, so `in_progress` always takes the moderated branch | an unmoderated, incomplete language whose public extant tip has 3 subtitles: reported not in progress | return the cached `moderates_videos()` value | not executed | Ancestry.InProgressAsWritten | Ancestry.InProgress |
| apps/videos/models.py:1019-1025 | the legacy `writelock` records session key and time only in the anonymous branch | an authenticated user locks a released language: the lock is not held and another session may lock at once | record key and time for every user, as `Video._make_writelock` does | not executed | Writelock.LegacyWritelock | Writelock.LegacyWritelockIntended |

=== FILE: ancestry.dfy ===
/** Ancestry queries over the parent graph: the ancestor relation, the meaning
    of a lineage map in terms of it, `get_translation_source_version`,
    `get_dependent_subtitle_languages` and `in_progress`. */
module Ancestry {
  import opened Wrappers
  import opened Versions
  import opened Lineage
  import opened Store
  import opened Gateway
  import Writelock
  import Signoff

  // ---------------------------------------------------------------------------
  // The ancestor relation

  /** Version `a` is reachable from version `d` through parent edges, the
      relation `get_ancestors` enumerates. Parents are saved before their
      children, so the walk goes down in pk. */
  ghost predicate Ancestor(st: Store, a: nat, d: nat)
    requires Valid(st) && d < |st.versions|
    decreases d
  {
    assert VersionWellFormed(st, d);
    exists k | 0 <= k < |st.versions[d].parents| ::
      st.versions[d].parents[k] == a || Ancestor(st, a, st.versions[d].parents[k])
  }

  lemma {:induction false} AncestorBelow(st: Store, a: nat, d: nat)
    requires Valid(st) && d < |st.versions| && Ancestor(st, a, d)
    ensures a < d
    decreases d
  {
    assert VersionWellFormed(st, d);
    var k :| 0 <= k < |st.versions[d].parents|
             && (st.versions[d].parents[k] == a || Ancestor(st, a, st.versions[d].parents[k]));
    if st.versions[d].parents[k] != a {
      AncestorBelow(st, a, st.versions[d].parents[k]);
    }
  }

  /** Appending a version does not change the ancestry of the versions already there. */
  lemma {:induction false} AncestorAppend(st: Store, v: Version, a: nat, d: nat)
    requires Valid(st) && Valid(Store(st.languages, st.versions + [v])) && d < |st.versions|
    ensures Ancestor(st, a, d) <==> Ancestor(Store(st.languages, st.versions + [v]), a, d)
    decreases d
  {
    var st' := Store(st.languages, st.versions + [v]);
    assert st'.versions[d] == st.versions[d];
    assert VersionWellFormed(st, d);
    var ps := st.versions[d].parents;
    forall k | 0 <= k < |ps|
      ensures Ancestor(st, a, ps[k]) <==> Ancestor(st', a, ps[k])
    {
      AncestorAppend(st, v, a, ps[k]);
    }
    if Ancestor(st, a, d) {
      var k :| 0 <= k < |ps| && (ps[k] == a || Ancestor(st, a, ps[k]));
      assert ps[k] == a || Ancestor(st', a, ps[k]);
    }
    if Ancestor(st', a, d) {
      var k :| 0 <= k < |ps| && (ps[k] == a || Ancestor(st', a, ps[k]));
      assert ps[k] == a || Ancestor(st, a, ps[k]);
    }
  }

  /** The ancestors of an appended version: its parents and their ancestors. */
  lemma AncestorOfAppended(st: Store, v: Version, a: nat)
    requires Valid(st) && Valid(Store(st.languages, st.versions + [v]))
    requires forall k | 0 <= k < |v.parents| :: v.parents[k] < |st.versions|
    ensures Ancestor(Store(st.languages, st.versions + [v]), a, |st.versions|) <==>
              exists k | 0 <= k < |v.parents| :: v.parents[k] == a || Ancestor(st, a, v.parents[k])
  {
    var st' := Store(st.languages, st.versions + [v]);
    var n := |st.versions|;
    assert st'.versions[n] == v;
    assert VersionWellFormed(st', n);
    forall k | 0 <= k < |v.parents|
      ensures Ancestor(st, a, v.parents[k]) <==> Ancestor(st', a, v.parents[k])
    {
      AncestorAppend(st, v, a, v.parents[k]);
    }
  }

  // ---------------------------------------------------------------------------
  // What a lineage map means

  /** Every entry of a lineage names an ancestor in that language at that number. */
  ghost predicate LineageSound(st: Store)
    requires Valid(st)
  {
    forall j, k | 0 <= j < |st.versions| && k in st.versions[j].lineage ::
      exists x | 0 <= x < |st.versions| ::
        && Ancestor(st, x, j)
        && st.versions[x].languageCode == k
        && st.versions[x].versionNumber == st.versions[j].lineage[k]
  }

  /** Every ancestor's language is in the lineage, at least at the ancestor's number. */
  ghost predicate LineageComplete(st: Store)
    requires Valid(st)
  {
    forall j, x | 0 <= j < |st.versions| && 0 <= x < |st.versions| && Ancestor(st, x, j) ::
      && st.versions[x].languageCode in st.versions[j].lineage
      && st.versions[x].versionNumber <= st.versions[j].lineage[st.versions[x].languageCode]
  }

  /** A store without versions has nothing to account for. */
  lemma EmptyStoreLineage(languages: seq<SubtitleLanguage>)
    requires Valid(Store(languages, []))
    ensures LineageSound(Store(languages, [])) && LineageComplete(Store(languages, []))
  {
  }

  /** With both invariants a lineage entry is exactly the highest number among
      the ancestors in that language, and a language is absent iff no ancestor
      is in it. */
  lemma LineageIsAncestorMaximum(st: Store, j: nat, k: string)
    requires Valid(st) && LineageSound(st) && LineageComplete(st) && j < |st.versions|
    ensures k in st.versions[j].lineage <==>
              exists x | 0 <= x < |st.versions| :: Ancestor(st, x, j) && st.versions[x].languageCode == k
    ensures k in st.versions[j].lineage ==>
              && (exists x | 0 <= x < |st.versions| :: Ancestor(st, x, j) && st.versions[x].languageCode == k
                                                     && st.versions[x].versionNumber == st.versions[j].lineage[k])
              && (forall x | 0 <= x < |st.versions| && Ancestor(st, x, j) && st.versions[x].languageCode == k ::
                    st.versions[x].versionNumber <= st.versions[j].lineage[k])
  {
  }

  /** The stored parent edges of `add_version` point at exactly the parent records it merged. */
  lemma ParentEdges(st: Store, lid: nat, explicit: seq<nat>)
    requires Valid(st) && lid < |st.languages| && PksExist(st, explicit)
    ensures var pks := ParentPks(st, lid, explicit);
            var ps := ParentsWithTip(st, lid, explicit);
            && |pks| == |ps|
            && forall i | 0 <= i < |pks| :: pks[i] < |st.versions| && st.versions[pks[i]] == ps[i]
  {
    var pks := ParentPks(st, lid, explicit);
    var ps := ParentsWithTip(st, lid, explicit);
    if View(st, lid, Full) != [] {
      var t := TipOf(st, lid, Full).value;
      var k :| 0 <= k < |st.versions| && st.versions[k] == t;
      assert VersionWellFormed(st, k);
      assert pks[|explicit|] == t.pk == k;
    }
  }

  /** An ancestor of a parent of the appended version is its ancestor. */
  lemma ThroughParent(st: Store, v: Version, i: nat, x: nat)
    requires Valid(st) && Valid(Store(st.languages, st.versions + [v]))
    requires forall k | 0 <= k < |v.parents| :: v.parents[k] < |st.versions|
    requires i < |v.parents| && (v.parents[i] == x || Ancestor(st, x, v.parents[i]))
    ensures Ancestor(Store(st.languages, st.versions + [v]), x, |st.versions|)
  {
    AncestorOfAppended(st, v, x);
  }

  /** One step of the soundness argument for the appended version: the witness
      ancestor for entry `k` of its lineage. */
  lemma NewEntrySound(st: Store, v: Version, parents: seq<Version>, k: string) returns (x: nat)
    requires Valid(st) && Valid(Store(st.languages, st.versions + [v])) && LineageSound(st)
    requires |v.parents| == |parents|
    requires forall i | 0 <= i < |parents| :: v.parents[i] < |st.versions| && st.versions[v.parents[i]] == parents[i]
    requires v.lineage == GetLineage(parents) && k in v.lineage
    ensures x < |st.versions|
    ensures Ancestor(Store(st.languages, st.versions + [v]), x, |st.versions|)
    ensures st.versions[x].languageCode == k && st.versions[x].versionNumber == v.lineage[k]
  {
    GetLineageIsMaxMerge(parents);
    assert ValuesAttained(ParentSet(parents), v.lineage);
    var p :| p in ParentSet(parents) && Contributes(p, k) && Contribution(p, k) == v.lineage[k];
    var i :| 0 <= i < |parents| && parents[i] == p;
    var pk := v.parents[i];
    if k == p.languageCode && Contribution(p, k) == p.versionNumber {
      x := pk;
    } else {
      assert k in p.lineage && Contribution(p, k) == p.lineage[k];
      assert k in st.versions[pk].lineage;
      x :| 0 <= x < |st.versions| && Ancestor(st, x, pk)
           && st.versions[x].languageCode == k && st.versions[x].versionNumber == st.versions[pk].lineage[k];
    }
    ThroughParent(st, v, i, x);
  }

  /** One step of the completeness argument for the appended version. */
  lemma NewEntryComplete(st: Store, v: Version, parents: seq<Version>, x: nat)
    requires Valid(st) && Valid(Store(st.languages, st.versions + [v])) && LineageComplete(st)
    requires |v.parents| == |parents|
    requires forall i | 0 <= i < |parents| :: v.parents[i] < |st.versions| && st.versions[v.parents[i]] == parents[i]
    requires v.lineage == GetLineage(parents)
    requires x < |st.versions| && Ancestor(Store(st.languages, st.versions + [v]), x, |st.versions|)
    ensures st.versions[x].languageCode in v.lineage
    ensures st.versions[x].versionNumber <= v.lineage[st.versions[x].languageCode]
  {
    AncestorOfAppended(st, v, x);
    var i :| 0 <= i < |v.parents| && (v.parents[i] == x || Ancestor(st, x, v.parents[i]));
    LineageDominatesParents(parents);
    assert parents[i] in parents;
    if v.parents[i] != x {
      assert st.versions[v.parents[i]] == parents[i];
    }
  }

  /** What a new version needs for the lineage invariants to extend to it: its
      parent edges point at the merged parents and its lineage is their merge. */
  ghost predicate MergesParents(st: Store, v: Version, parents: seq<Version>) {
    && |v.parents| == |parents|
    && (forall i | 0 <= i < |parents| :: v.parents[i] < |st.versions| && st.versions[v.parents[i]] == parents[i])
    && v.lineage == GetLineage(parents)
  }

  /** One lineage entry of the store after an append is backed by an ancestor. */
  lemma AppendSoundAt(st: Store, v: Version, parents: seq<Version>, j: nat, k: string) returns (x: nat)
    requires Valid(st) && Valid(Store(st.languages, st.versions + [v])) && LineageSound(st)
    requires MergesParents(st, v, parents)
    requires j <= |st.versions| && k in (st.versions + [v])[j].lineage
    ensures x < |st.versions| + 1
    ensures Ancestor(Store(st.languages, st.versions + [v]), x, j)
    ensures (st.versions + [v])[x].languageCode == k
    ensures (st.versions + [v])[x].versionNumber == (st.versions + [v])[j].lineage[k]
  {
    var st' := Store(st.languages, st.versions + [v]);
    var n := |st.versions|;
    if j < n {
      assert st'.versions[j] == st.versions[j];
      x :| 0 <= x < n && Ancestor(st, x, j)
           && st.versions[x].languageCode == k && st.versions[x].versionNumber == st.versions[j].lineage[k];
      AncestorAppend(st, v, x, j);
    } else {
      assert st'.versions[n] == v;
      x := NewEntrySound(st, v, parents, k);
    }
    assert st'.versions[x] == st.versions[x];
  }

  /** Appending a version whose lineage merges its parents keeps every lineage
      entry backed by an ancestor. */
  lemma AppendKeepsSound(st: Store, v: Version, parents: seq<Version>)
    requires Valid(st) && Valid(Store(st.languages, st.versions + [v])) && LineageSound(st)
    requires MergesParents(st, v, parents)
    ensures LineageSound(Store(st.languages, st.versions + [v]))
  {
    var st' := Store(st.languages, st.versions + [v]);
    forall j, k | 0 <= j < |st'.versions| && k in st'.versions[j].lineage
      ensures exists x | 0 <= x < |st'.versions| ::
                && Ancestor(st', x, j)
                && st'.versions[x].languageCode == k
                && st'.versions[x].versionNumber == st'.versions[j].lineage[k]
    {
      var x := AppendSoundAt(st, v, parents, j, k);
    }
  }

  /** One ancestor pair of the store after an append is recorded in the lineage. */
  lemma AppendCompleteAt(st: Store, v: Version, parents: seq<Version>, j: nat, x: nat)
    requires Valid(st) && Valid(Store(st.languages, st.versions + [v])) && LineageComplete(st)
    requires MergesParents(st, v, parents)
    requires j <= |st.versions| && x <= |st.versions| && Ancestor(Store(st.languages, st.versions + [v]), x, j)
    ensures (st.versions + [v])[x].languageCode in (st.versions + [v])[j].lineage
    ensures (st.versions + [v])[x].versionNumber <= (st.versions + [v])[j].lineage[(st.versions + [v])[x].languageCode]
  {
    var st' := Store(st.languages, st.versions + [v]);
    var n := |st.versions|;
    AncestorBelow(st', x, j);
    assert st'.versions[x] == st.versions[x];
    if j < n {
      assert st'.versions[j] == st.versions[j];
      AncestorAppend(st, v, x, j);
    } else {
      assert st'.versions[n] == v;
      NewEntryComplete(st, v, parents, x);
    }
  }

  /** Appending a version whose lineage merges its parents keeps every ancestor
      recorded in its descendants' lineages. */
  lemma AppendKeepsComplete(st: Store, v: Version, parents: seq<Version>)
    requires Valid(st) && Valid(Store(st.languages, st.versions + [v])) && LineageComplete(st)
    requires MergesParents(st, v, parents)
    ensures LineageComplete(Store(st.languages, st.versions + [v]))
  {
    var st' := Store(st.languages, st.versions + [v]);
    forall j, x | 0 <= j < |st'.versions| && 0 <= x < |st'.versions| && Ancestor(st', x, j)
      ensures && st'.versions[x].languageCode in st'.versions[j].lineage
              && st'.versions[x].versionNumber <= st'.versions[j].lineage[st'.versions[x].languageCode]
    {
      AppendCompleteAt(st, v, parents, j, x);
    }
  }

  /** `add_version` keeps every lineage equal to the ancestor maximum. */
  lemma AddVersionKeepsLineageMeaning(st: Store, lid: nat, explicit: seq<nat>, args: VersionArgs)
    requires Valid(st) && lid < |st.languages| && PksExist(st, explicit)
    requires LineageSound(st) && LineageComplete(st)
    requires AddVersion(st, lid, explicit, args).Ok?
    ensures Valid(AddVersion(st, lid, explicit, args).value.store)
    ensures LineageSound(AddVersion(st, lid, explicit, args).value.store)
    ensures LineageComplete(AddVersion(st, lid, explicit, args).value.store)
  {
    var v := AddVersion(st, lid, explicit, args).value.version;
    var parents := ParentsWithTip(st, lid, explicit);
    AddVersionKeepsValid(st, lid, explicit, args);
    ParentEdges(st, lid, explicit);
    AppendKeepsSound(st, v, parents);
    AppendKeepsComplete(st, v, parents);
  }

  // ---------------------------------------------------------------------------
  // get_translation_source_version

  /** The largest element, the head of an `order_by('-pk')`. */
  function MaxOf(s: seq<nat>): (r: Option<nat>)
    ensures r.None? <==> s == []
    ensures r.Some? ==> r.value in s && forall x | x in s :: x <= r.value
  {
    if s == [] then None
    else
      var last := s[|s| - 1];
      match MaxOf(s[..|s| - 1])
      case None => Some(last)
      case Some(m) =>
        assert forall x | x in s :: x in s[..|s| - 1] || x == last;
        Some(if m < last then last else m)
  }

  /** `parents.exclude(subtitle_language=self)`. */
  function ForeignParents(st: Store, pks: seq<nat>, lid: nat): (r: seq<nat>)
    requires forall i | 0 <= i < |pks| :: pks[i] < |st.versions|
    ensures forall x :: x in r <==> x in pks && st.versions[x].languageId != lid
    ensures r == [] <==> forall i | 0 <= i < |pks| :: st.versions[pks[i]].languageId == lid
  {
    if pks == [] then []
    else
      var last := pks[|pks| - 1];
      ForeignParents(st, pks[..|pks| - 1], lid) + (if st.versions[last].languageId != lid then [last] else [])
  }

  /** Version `k` has a parent in a language other than `lid`. */
  predicate HasForeignParent(st: Store, k: nat, lid: nat)
    requires k < |st.versions|
  {
    exists p | p in st.versions[k].parents :: p < |st.versions| && st.versions[p].languageId != lid
  }

  /** `p` is the newest (highest pk) parent of version `k` outside language `lid`. */
  predicate NewestForeignParent(st: Store, k: nat, lid: nat, p: nat)
    requires k < |st.versions|
  {
    && p in st.versions[k].parents && p < |st.versions| && st.versions[p].languageId != lid
    && forall q | q in st.versions[k].parents && q < |st.versions| && st.versions[q].languageId != lid :: q <= p
  }

  /** The versions the loop can visit from `cur`, whatever it finds there:
      `cur`, then, while the number is above 1, the newest parent. */
  function NewestParentChain(st: Store, cur: nat): (r: seq<nat>)
    requires Valid(st) && cur < |st.versions|
    ensures r != [] && r[0] == cur
    ensures forall k | k in r :: k <= cur
    decreases cur
  {
    var v := st.versions[cur];
    assert VersionWellFormed(st, cur);
    if v.versionNumber > 1 then
      match MaxOf(v.parents)
      case Some(p) => [cur] + NewestParentChain(st, p)
      case None => [cur]
    else [cur]
  }

  /** No version of the chain from `cur` has a parent in another language. */
  predicate SourcelessChain(st: Store, lid: nat, cur: nat)
    requires Valid(st) && cur < |st.versions|
  {
    forall k | k in NewestParentChain(st, cur) :: !HasForeignParent(st, k, lid)
  }

  /** The loop of `get_translation_source_version` from version `cur`: the
      newest parent in another language; failing that, while the version
      number is above 1, continue from the newest parent. */
  function WalkToSource(st: Store, lid: nat, cur: nat): (r: Option<Version>)
    requires Valid(st) && cur < |st.versions|
    ensures r.Some? ==> r.value in st.versions && r.value.languageId != lid
    ensures r.Some? ==> r.value.pk < cur && Ancestor(st, r.value.pk, cur)
    ensures HasForeignParent(st, cur, lid) ==> r.Some? && NewestForeignParent(st, cur, lid, r.value.pk)
    ensures (!HasForeignParent(st, cur, lid)
             && (st.versions[cur].versionNumber <= 1 || st.versions[cur].parents == [])) ==> r.None?
    decreases cur
  {
    var v := st.versions[cur];
    assert VersionWellFormed(st, cur);
    assert forall i | 0 <= i < |v.parents| :: v.parents[i] in v.parents;
    match MaxOf(ForeignParents(st, v.parents, lid))
    case Some(p) =>
      assert VersionWellFormed(st, p);
      assert p in v.parents;
      Some(st.versions[p])
    case None =>
      if v.versionNumber > 1 then
        match MaxOf(v.parents)
        case Some(p) =>
          var r := WalkToSource(st, lid, p);
          assert r.Some? ==> Ancestor(st, r.value.pk, p);
          r
        case None => None
      else None
  }

  /** The loop finds nothing exactly when no version of the newest-parent chain
      has a parent in another language. */
  lemma {:induction false} WalkNoneIffSourcelessChain(st: Store, lid: nat, cur: nat)
    requires Valid(st) && cur < |st.versions|
    ensures WalkToSource(st, lid, cur).None? <==> SourcelessChain(st, lid, cur)
    decreases cur
  {
    var v := st.versions[cur];
    assert VersionWellFormed(st, cur);
    var chain := NewestParentChain(st, cur);
    if HasForeignParent(st, cur, lid) {
      assert !HasForeignParent(st, chain[0], lid) ==> false;
    } else if v.versionNumber <= 1 || v.parents == [] {
      assert chain == [cur];
    } else {
      var p := MaxOf(v.parents).value;
      ForeignParentsAbsent(st, cur, lid);
      assert WalkToSource(st, lid, cur) == WalkToSource(st, lid, p);
      WalkNoneIffSourcelessChain(st, lid, p);
      var rest := NewestParentChain(st, p);
      assert chain == [cur] + rest;
      assert forall k :: k in chain <==> k == cur || k in rest;
    }
  }

  /** Without a foreign parent the loop's `other_languages` is empty. */
  lemma ForeignParentsAbsent(st: Store, cur: nat, lid: nat)
    requires Valid(st) && cur < |st.versions| && !HasForeignParent(st, cur, lid)
    ensures VersionWellFormed(st, cur) && ForeignParents(st, st.versions[cur].parents, lid) == []
  {
    assert VersionWellFormed(st, cur);
    var ps := st.versions[cur].parents;
    assert forall i | 0 <= i < |ps| :: ps[i] in ps;
  }

  /** Versions whose only parents share their language and whose number is 1
      (a root of the language) have no source. */
  lemma RootHasNoSource(st: Store, lid: nat, cur: nat)
    requires Valid(st) && cur < |st.versions| && st.versions[cur].versionNumber == 1
    requires forall p | p in st.versions[cur].parents && p < |st.versions| :: st.versions[p].languageId == lid
    ensures WalkToSource(st, lid, cur).None?
  {
    assert VersionWellFormed(st, cur);
    var ps := st.versions[cur].parents;
    assert forall i | 0 <= i < |ps| :: ps[i] in ps;
  }

  /** `get_translation_source_version(ignore_forking)`: None for a forked
      language unless forking is ignored, None without an extant tip, else the
      walk from the extant tip. The source is an ancestor of the tip in another
      language: the tip's newest foreign parent when it has one, and there is
      none exactly when no version of the tip's newest-parent chain has one. */
  function TranslationSourceVersion(st: Store, lid: nat, ignoreForking: bool): (r: Option<Version>)
    requires Valid(st) && lid < |st.languages|
    ensures !ignoreForking && st.languages[lid].isForked ==> r.None?
    ensures TipOf(st, lid, Extant).None? ==> r.None?
    ensures r.Some? ==> && TipOf(st, lid, Extant).Some?
                        && var t := TipOf(st, lid, Extant).value;
                           t.pk < |st.versions| && Ancestor(st, r.value.pk, t.pk)
    ensures r.Some? ==> r.value in st.versions && r.value.languageId != lid
    ensures (ignoreForking || !st.languages[lid].isForked) && TipOf(st, lid, Extant).Some? ==>
              var t := TipOf(st, lid, Extant).value;
              && t.pk < |st.versions|
              && (r.None? <==> SourcelessChain(st, lid, t.pk))
              && (HasForeignParent(st, t.pk, lid) ==> r.Some? && NewestForeignParent(st, t.pk, lid, r.value.pk))
  {
    if !ignoreForking && st.languages[lid].isForked then None
    else
      match TipOf(st, lid, Extant)
      case None => None
      case Some(t) =>
        var k :| 0 <= k < |st.versions| && st.versions[k] == t;
        assert VersionWellFormed(st, k);
        WalkNoneIffSourcelessChain(st, lid, t.pk);
        WalkToSource(st, lid, t.pk)
  }

  /** `get_translation_source_language_code`: the code of the source's language. */
  function TranslationSourceLanguageCode(st: Store, lid: nat, ignoreForking: bool): (r: Option<string>)
    requires Valid(st) && lid < |st.languages|
    ensures r.Some? <==> TranslationSourceVersion(st, lid, ignoreForking).Some?
    ensures r.Some? ==> r.value == TranslationSourceVersion(st, lid, ignoreForking).value.languageCode
  {
    match TranslationSourceVersion(st, lid, ignoreForking)
    case None => None
    case Some(src) =>
      var k :| 0 <= k < |st.versions| && st.versions[k] == src;
      assert VersionWellFormed(st, k);
      Some(st.languages[src.languageId].languageCode)
  }

  /** The translation source of a language is in its tip's lineage: a language
      is always a dependent of the language it was translated from. */
  lemma SourceInTipLineage(st: Store, lid: nat, ignoreForking: bool)
    requires Valid(st) && LineageComplete(st) && lid < |st.languages|
    requires TranslationSourceVersion(st, lid, ignoreForking).Some?
    ensures var src := TranslationSourceVersion(st, lid, ignoreForking).value;
            var t := TipOf(st, lid, Extant).value;
            src.languageCode in t.lineage && src.versionNumber <= t.lineage[src.languageCode]
  {
    var src := TranslationSourceVersion(st, lid, ignoreForking).value;
    var t := TipOf(st, lid, Extant).value;
    var k :| 0 <= k < |st.versions| && st.versions[k] == t;
    assert VersionWellFormed(st, k);
    var s :| 0 <= s < |st.versions| && st.versions[s] == src;
    assert VersionWellFormed(st, s);
    assert Ancestor(st, s, k);
  }

  // ---------------------------------------------------------------------------
  // get_dependent_subtitle_languages

  /** Candidate `l` is a dependent of `lid`: another, unforked language of the
      same video whose extant tip's lineage names `lid`'s language code. */
  predicate IsDependent(st: Store, lid: nat, l: nat)
    requires lid < |st.languages| && l < |st.languages|
  {
    && l != lid
    && st.languages[l].videoId == st.languages[lid].videoId
    && !st.languages[l].isForked
    && match TipOf(st, l, Extant)
       case Some(t) => st.languages[lid].languageCode in t.lineage
       case None => false
  }

  /** A direct dependent was translated from `lid`'s language code itself. */
  predicate IsDirectDependent(st: Store, lid: nat, l: nat)
    requires Valid(st) && lid < |st.languages| && l < |st.languages|
  {
    IsDependent(st, lid, l) && TranslationSourceLanguageCode(st, l, false) == Some(st.languages[lid].languageCode)
  }

  /** The filter `get_dependent_subtitle_languages` applies to each candidate. */
  predicate Selected(st: Store, lid: nat, direct: bool, l: nat)
    requires Valid(st) && lid < |st.languages| && l < |st.languages|
  {
    if direct then IsDirectDependent(st, lid, l) else IsDependent(st, lid, l)
  }

  /** The ids below `n` that pass `keep`, in increasing order. */
  function IdsBelow(n: nat, keep: nat -> bool): (r: seq<nat>)
    ensures forall l: nat :: l in r <==> l < n && keep(l)
    ensures forall i, j | 0 <= i < j < |r| :: r[i] < r[j]
    ensures forall i | 0 <= i < |r| :: r[i] < n
  {
    if n == 0 then []
    else IdsBelow(n - 1, keep) + (if keep(n - 1) then [n - 1] else [])
  }

  /** `get_dependent_subtitle_languages(direct)`, in id order. */
  function DependentLanguages(st: Store, lid: nat, direct: bool): (r: seq<nat>)
    requires Valid(st) && lid < |st.languages|
    ensures lid !in r
    ensures forall l | l in r :: l < |st.languages| && st.languages[l].videoId == st.languages[lid].videoId
    ensures forall l | l in r :: !st.languages[l].isForked
    ensures forall l: nat | l < |st.languages| :: l in r <==> Selected(st, lid, direct, l)
  {
    IdsBelow(|st.languages|, (l: nat) => l < |st.languages| && Selected(st, lid, direct, l))
  }

  /** Under the lineage invariants, `l` is a dependent of `lid` exactly when
      `l` is another unforked language of the same video whose extant tip
      descends from some version in `lid`'s language code. */
  lemma DependentsDescend(st: Store, lid: nat, l: nat)
    requires Valid(st) && LineageSound(st) && LineageComplete(st)
    requires lid < |st.languages| && l < |st.languages|
    ensures l in DependentLanguages(st, lid, false) <==>
              && l != lid
              && st.languages[l].videoId == st.languages[lid].videoId
              && !st.languages[l].isForked
              && TipOf(st, l, Extant).Some?
              && var t := TipOf(st, l, Extant).value;
                 t.pk < |st.versions|
                 && exists x | 0 <= x < |st.versions| ::
                      Ancestor(st, x, t.pk) && st.versions[x].languageCode == st.languages[lid].languageCode
  {
    if TipOf(st, l, Extant).Some? {
      var t := TipOf(st, l, Extant).value;
      var k :| 0 <= k < |st.versions| && st.versions[k] == t;
      assert VersionWellFormed(st, k);
      LineageIsAncestorMaximum(st, k, st.languages[lid].languageCode);
    }
  }

  // ---------------------------------------------------------------------------
  // in_progress

  /** What `Video.is_moderated` returns as written: the name of its cache
      attribute, whatever the team says. */
  const IS_MODERATED_AS_WRITTEN: string := "_cache_is_moderated"

  /** Python truthiness of a string. */
  predicate Truthy(s: string) { s != "" }

  /** `in_progress` given the value of `is_moderated`: moderated videos are in
      progress when the extant tip is private; others when the language is not
      marked complete and the tip has subtitles. Calling a method on a missing
      tip is an AttributeError; `not subtitles_complete` short-circuits it. */
  function InProgress(st: Store, lid: nat, moderated: bool): (r: Result<bool>)
    requires lid < |st.languages|
    ensures r.Err? <==> (moderated || !st.languages[lid].subtitlesComplete) && TipOf(st, lid, Extant).None?
    ensures r.Err? ==> r.error == AttributeError
    ensures r.Ok? && moderated ==> (r.value <==> IsPrivate(TipOf(st, lid, Extant).value))
    ensures r.Ok? && !moderated ==>
              (r.value <==> !st.languages[lid].subtitlesComplete && TipOf(st, lid, Extant).value.subtitleCount > 0)
  {
    var tip := TipOf(st, lid, Extant);
    if moderated then
      if tip.None? then Err(AttributeError) else Ok(IsPrivate(tip.value))
    else if st.languages[lid].subtitlesComplete then Ok(false)
    else if tip.None? then Err(AttributeError)
    else Ok(tip.value.subtitleCount > 0)
  }

  /** `in_progress` as written: the truthiness of the attribute name decides the branch. */
  function InProgressAsWritten(st: Store, lid: nat): (r: Result<bool>)
    requires lid < |st.languages|
    ensures r == InProgress(st, lid, true)
  {
    InProgress(st, lid, Truthy(IS_MODERATED_AS_WRITTEN))
  }

  /** An unmoderated language with subtitles that is not complete: as written it
      is reported as not in progress because its public tip is not private. */
  lemma InProgressAsWrittenMissesUnmoderated()
    ensures var v := Version(0, 0, 0, "en", 1, PUBLIC, NO_OVERRIDE, 0, "", "", "", "", None, 3, false, map[], []);
            var lang := SubtitleLanguage(0, 0, "en", false, false,
                                         Writelock.Released, [], Signoff.ZeroCounts);
            var st := Store([lang], [v]);
            InProgressAsWritten(st, 0) == Ok(false) && InProgress(st, 0, false) == Ok(true)
  {
    var v := Version(0, 0, 0, "en", 1, PUBLIC, NO_OVERRIDE, 0, "", "", "", "", None, 3, false, map[], []);
    var lang := SubtitleLanguage(0, 0, "en", false, false, Writelock.Released, [], Signoff.ZeroCounts);
    var st := Store([lang], [v]);
    assert [v][..0] == [];
    assert View(st, 0, Extant) == [v];
    assert TipOf(st, 0, Extant) == Some(v);
  }
}

=== FILE: editor_views.dfy ===
/** The lock gating and task selection of the subtitle editor views:
    `regain_lock`, `release_lock`, `assign_task_for_editor`,
    `get_task_for_editor`, the check order of `subtitle_editor` and the
    version-selection rule of `_language_data`. Team membership, task
    permissions and `can_add_version` live in the teams app and arrive here as
    parameters. */
module EditorViews {
  import opened Wrappers
  import opened Writelock
  import opened Versions
  import opened Store

  // ---------------------------------------------------------------------------
  // regain_lock / release_lock

  /** `regain_lock`: refuse (ok = false, nothing written) when the browser may
      not writelock, else take the lock for it (ok = true). */
  function RegainLock(lang: SubtitleLanguage, user: User, browserId: string, now: int): (r: (SubtitleLanguage, bool))
    ensures !r.1 <==> !CanWritelock(lang.lock, browserId, now)
    ensures !r.1 ==> r.0 == lang
    ensures r.1 ==> r.0 == lang.(lock := Acquire(user, browserId, now))
  {
    if !CanWritelock(lang.lock, browserId, now) then (lang, false)
    else (lang.(lock := Acquire(user, browserId, now)), true)
  }

  /** `release_lock`: release only when the caller's browser may writelock. */
  function ReleaseLock(lang: SubtitleLanguage, browserId: string, now: int): (r: SubtitleLanguage)
    ensures CanWritelock(lang.lock, browserId, now) ==> r == lang.(lock := Released)
    ensures !CanWritelock(lang.lock, browserId, now) ==> r == lang
  {
    if CanWritelock(lang.lock, browserId, now) then lang.(lock := Release(lang.lock)) else lang
  }

  /** Within 30 seconds of a successful `regain_lock`, another browser can
      neither regain nor release the lock, and the holder can do both. */
  lemma RegainThenExclusive(lang: SubtitleLanguage, user: User, key: string, t0: int, other: string, now: int)
    requires CanWritelock(lang.lock, key, t0)
    requires t0 <= now < t0 + WRITELOCK_EXPIRATION * MICROS_PER_SECOND && other != key
    ensures var held := RegainLock(lang, user, key, t0).0;
            && RegainLock(held, Anonymous, other, now) == (held, false)
            && ReleaseLock(held, other, now) == held
            && RegainLock(held, user, key, now).1
            && ReleaseLock(held, key, now).lock == Released
  {
  }

  // ---------------------------------------------------------------------------
  // Tasks

  datatype TaskType = Subtitle | Translate | Review | Approve

  datatype Task = Task(id: nat, language: string, taskType: TaskType, completed: bool, assignee: Option<nat>)

  /** A task of `task_set.incomplete().filter(language=code)`. */
  predicate OpenFor(t: Task, code: string) {
    !t.completed && t.language == code
  }

  /** The position of the first task satisfying `p`, the `[:1]` of a queryset. */
  function FirstWhere(tasks: seq<Task>, p: Task -> bool): (r: Option<nat>)
    ensures r.None? <==> forall i | 0 <= i < |tasks| :: !p(tasks[i])
    ensures r.Some? ==> r.value < |tasks| && p(tasks[r.value])
    ensures r.Some? ==> forall i | 0 <= i < r.value :: !p(tasks[i])
  {
    if tasks == [] then None
    else if p(tasks[0]) then Some(0)
    else match FirstWhere(tasks[1..], p)
      case None => None
      case Some(i) => Some(i + 1)
  }

  /** `assign_task_for_editor(video, code, user)`: without a team video, or
      without an open task for the language, nothing happens. Otherwise the
      first open task is given to the user when it is unassigned and
      `can_assign_task` allows it; the result is an error message exactly when
      that task's assignee is then not the user. */
  function AssignTaskForEditor(hasTeamVideo: bool, tasks: seq<Task>, code: string, user: nat,
                               canAssign: Task -> bool): (r: (seq<Task>, bool))
    ensures !hasTeamVideo ==> r == (tasks, false)
    ensures |r.0| == |tasks|
    ensures var f := FirstWhere(tasks, t => OpenFor(t, code));
            && (f.None? ==> r == (tasks, false))
            && (hasTeamVideo && f.Some? ==>
                  && (forall j | 0 <= j < |tasks| && j != f.value :: r.0[j] == tasks[j])
                  && r.0[f.value] == (if tasks[f.value].assignee.None? && canAssign(tasks[f.value])
                                      then tasks[f.value].(assignee := Some(user)) else tasks[f.value])
                  && (r.1 <==> r.0[f.value].assignee != Some(user)))
  {
    if !hasTeamVideo then (tasks, false)
    else
      match FirstWhere(tasks, t => OpenFor(t, code))
      case None => (tasks, false)
      case Some(i) =>
        var task := tasks[i];
        var task' := if task.assignee.None? && canAssign(task) then task.(assignee := Some(user)) else task;
        (tasks[i := task'], task'.assignee != Some(user))
  }

  /** A task already held by another user is never taken over: the view
      reports it and leaves the task list as it was. A task held by the user, or
      one the user may take, is theirs afterwards and no error is reported. */
  lemma AssignRespectsHolder(tasks: seq<Task>, code: string, user: nat, canAssign: Task -> bool, i: nat)
    requires i < |tasks| && OpenFor(tasks[i], code)
    requires forall j | 0 <= j < i :: !OpenFor(tasks[j], code)
    ensures tasks[i].assignee.Some? && tasks[i].assignee != Some(user) ==>
              AssignTaskForEditor(true, tasks, code, user, canAssign) == (tasks, true)
    ensures (tasks[i].assignee == Some(user) || (tasks[i].assignee.None? && canAssign(tasks[i]))) ==>
              && !AssignTaskForEditor(true, tasks, code, user, canAssign).1
              && AssignTaskForEditor(true, tasks, code, user, canAssign).0[i].assignee == Some(user)
  {
    var f := FirstWhere(tasks, t => OpenFor(t, code));
    assert f == Some(i);
    if tasks[i].assignee.Some? && tasks[i].assignee != Some(user) {
      assert tasks[i := tasks[i]] == tasks;
    }
  }

  /** A review-stage task: `type__in=(Review, Approve)`. */
  predicate ReviewStage(t: Task) {
    t.taskType == Review || t.taskType == Approve
  }

  /** `get_task_for_editor(video, code)`: the first open Review or Approve task
      for the language, or None (always None without a team video). */
  function GetTaskForEditor(hasTeamVideo: bool, tasks: seq<Task>, code: string): (r: Option<Task>)
    ensures !hasTeamVideo ==> r.None?
    ensures r.Some? ==> r.value in tasks && OpenFor(r.value, code) && ReviewStage(r.value)
    ensures hasTeamVideo && r.None? ==> forall t | t in tasks :: !(OpenFor(t, code) && ReviewStage(t))
    ensures r.Some? ==> exists i | 0 <= i < |tasks| :: tasks[i] == r.value
                          && forall j | 0 <= j < i :: !(OpenFor(tasks[j], code) && ReviewStage(tasks[j]))
  {
    if !hasTeamVideo then None
    else
      match FirstWhere(tasks, t => OpenFor(t, code) && ReviewStage(t))
      case None => None
      case Some(i) => Some(tasks[i])
  }

  // ---------------------------------------------------------------------------
  // subtitle_editor

  datatype Refusal = Locked | TaskHeldByOther | CannotAddVersion

  /** What `subtitle_editor` does: redirect with a message, or render the
      editor holding the lock. Either way the task list may have been saved. */
  datatype EditorOutcome =
    | Redirect(reason: Refusal, language: SubtitleLanguage, tasks: seq<Task>)
    | Render(language: SubtitleLanguage, tasks: seq<Task>, task: Option<Task>)

  /** `subtitle_editor`: check `can_writelock`, then the task assignment, then
      `can_add_version`; only when all three pass is the lock taken. */
  function SubtitleEditor(lang: SubtitleLanguage, user: nat, browserId: string, now: int,
                          hasTeamVideo: bool, tasks: seq<Task>, canAssign: Task -> bool,
                          canAddVersion: bool): (r: EditorOutcome)
    ensures r.Render? <==>
              && CanWritelock(lang.lock, browserId, now)
              && !AssignTaskForEditor(hasTeamVideo, tasks, lang.languageCode, user, canAssign).1
              && canAddVersion
    ensures r.Redirect? ==> r.language == lang
    ensures r.Redirect? && r.reason == Locked <==> r.Redirect? && !CanWritelock(lang.lock, browserId, now)
    ensures !CanWritelock(lang.lock, browserId, now) ==> r == Redirect(Locked, lang, tasks)
    ensures r.Render? ==> r.language == lang.(lock := Acquire(Authenticated(user), browserId, now))
    ensures r.Render? ==> r.task == GetTaskForEditor(hasTeamVideo, r.tasks, lang.languageCode)
    ensures CanWritelock(lang.lock, browserId, now) ==>
              r.tasks == AssignTaskForEditor(hasTeamVideo, tasks, lang.languageCode, user, canAssign).0
    ensures (r.Redirect? && r.reason == TaskHeldByOther) <==>
              CanWritelock(lang.lock, browserId, now)
              && AssignTaskForEditor(hasTeamVideo, tasks, lang.languageCode, user, canAssign).1
    ensures (r.Redirect? && r.reason == CannotAddVersion) <==>
              && CanWritelock(lang.lock, browserId, now)
              && !AssignTaskForEditor(hasTeamVideo, tasks, lang.languageCode, user, canAssign).1
              && !canAddVersion
  {
    if !CanWritelock(lang.lock, browserId, now) then Redirect(Locked, lang, tasks)
    else
      var (tasks', refused) := AssignTaskForEditor(hasTeamVideo, tasks, lang.languageCode, user, canAssign);
      if refused then Redirect(TaskHeldByOther, lang, tasks')
      else
        var task := GetTaskForEditor(hasTeamVideo, tasks', lang.languageCode);
        if !canAddVersion then Redirect(CannotAddVersion, lang, tasks')
        else Render(lang.(lock := Acquire(Authenticated(user), browserId, now)), tasks', task)
  }

  /** Rendering the editor leaves the lock held by that browser for the next 30
      seconds: no other browser gets in. */
  lemma EditorHoldsLock(lang: SubtitleLanguage, user: nat, browserId: string, now: int,
                        hasTeamVideo: bool, tasks: seq<Task>, canAssign: Task -> bool,
                        canAddVersion: bool, other: string, later: int)
    requires SubtitleEditor(lang, user, browserId, now, hasTeamVideo, tasks, canAssign, canAddVersion).Render?
    requires now <= later < now + WRITELOCK_EXPIRATION * MICROS_PER_SECOND && other != browserId
    ensures var held := SubtitleEditor(lang, user, browserId, now, hasTeamVideo, tasks, canAssign, canAddVersion).language;
            !CanWritelock(held.lock, other, later) && held.lock.owner == Some(user)
  {
  }

  // ---------------------------------------------------------------------------
  // _language_data

  /** One entry of the `versions` list the editor is bootstrapped with. */
  datatype VersionEntry = VersionEntry(versionNo: nat, visibility: string, visibilityOverride: string, withContent: bool)

  /** Django model equality: the same row. */
  predicate SameRow(a: Option<Version>, v: Version) {
    a.Some? && a.value.pk == v.pk
  }

  /** The rule deciding whether entry `i` of `vs` carries the version's content. */
  predicate ShipsContent(vs: seq<Version>, i: nat, code: string, editing: Option<Version>,
                         translatedFrom: Option<Version>, baseLanguage: Option<string>)
    requires i < |vs|
  {
    || SameRow(editing, vs[i])
    || SameRow(translatedFrom, vs[i])
    || (baseLanguage == Some(code) && i == |vs| - 1)
  }

  function Entries(vs: seq<Version>, code: string, editing: Option<Version>,
                   translatedFrom: Option<Version>, baseLanguage: Option<string>): (r: seq<VersionEntry>)
    ensures |r| == |vs|
    ensures forall i | 0 <= i < |vs| ::
              && r[i].versionNo == vs[i].versionNumber
              && r[i].visibility == vs[i].visibility
              && r[i].visibilityOverride == vs[i].visibilityOverride
              && (r[i].withContent <==> ShipsContent(vs, i, code, editing, translatedFrom, baseLanguage))
  {
    seq(|vs|, i requires 0 <= i < |vs| =>
      VersionEntry(vs[i].versionNumber, vs[i].visibility, vs[i].visibilityOverride,
                   ShipsContent(vs, i, code, editing, translatedFrom, baseLanguage)))
  }

  /** `_language_data`: one entry per full-view version, in order. */
  function LanguageData(st: Store, lid: nat, editing: Option<Version>, translatedFrom: Option<Version>,
                        baseLanguage: Option<string>): (r: seq<VersionEntry>)
    requires lid < |st.languages|
    ensures |r| == |View(st, lid, Full)|
  {
    Entries(View(st, lid, Full), st.languages[lid].languageCode, editing, translatedFrom, baseLanguage)
  }

  /** The editor always ships the content of the version being edited and of
      the translation source, in the language they belong to; and in a base
      language the newest version. */
  lemma LanguageDataShipsWhatIsEdited(st: Store, lid: nat, editing: Option<Version>,
                                     translatedFrom: Option<Version>, baseLanguage: Option<string>, v: Version)
    requires lid < |st.languages| && v in View(st, lid, Full)
    requires SameRow(editing, v) || SameRow(translatedFrom, v)
    ensures exists i | 0 <= i < |LanguageData(st, lid, editing, translatedFrom, baseLanguage)| ::
              && LanguageData(st, lid, editing, translatedFrom, baseLanguage)[i].withContent
              && LanguageData(st, lid, editing, translatedFrom, baseLanguage)[i].versionNo == v.versionNumber
    ensures baseLanguage == Some(st.languages[lid].languageCode) && View(st, lid, Full) != [] ==>
              LanguageData(st, lid, editing, translatedFrom, baseLanguage)[|View(st, lid, Full)| - 1].withContent
  {
    var vs := View(st, lid, Full);
    var r := LanguageData(st, lid, editing, translatedFrom, baseLanguage);
    var i :| 0 <= i < |vs| && vs[i] == v;
    assert ShipsContent(vs, i, st.languages[lid].languageCode, editing, translatedFrom, baseLanguage);
    assert r[i].withContent && r[i].versionNo == v.versionNumber;
  }

  /** Outside a base language, only the edited version and the source carry content. */
  lemma LanguageDataShipsNothingElse(st: Store, lid: nat, editing: Option<Version>,
                                    translatedFrom: Option<Version>, baseLanguage: Option<string>, i: nat)
    requires lid < |st.languages| && i < |View(st, lid, Full)|
    requires baseLanguage != Some(st.languages[lid].languageCode)
    requires !SameRow(editing, View(st, lid, Full)[i]) && !SameRow(translatedFrom, View(st, lid, Full)[i])
    ensures !LanguageData(st, lid, editing, translatedFrom, baseLanguage)[i].withContent
  {
  }
}

=== FILE: gateway.dfy ===
/** The write gateway `SubtitleLanguage.add_version`: number the new version from
    the full-view tip, add that tip as an implicit parent, merge the lineage,
    check the title and description, the parents, `full_clean` and the `save`
    assertions, then append the version and its parent edges. */
module Gateway {
  import opened Wrappers
  import opened Versions
  import opened Lineage
  import opened Store

  /** `ensure_stringy`: `None` and strings pass; anything else is a ValidationError. */
  function EnsureStringy(f: Field): (r: Outcome)
    ensures r.Pass? <==> !f.NonString?
    ensures r.Fail? ==> r.error == ValidationError(NotAString)
  {
    if f.NonString? then Fail(ValidationError(NotAString)) else Pass
  }

  /** The text a CharField stores: blank when the value was not given. */
  function FieldText(f: Field): string {
    match f
    case Text(s) => s
    case _ => ""
  }

  // ---------------------------------------------------------------------------
  // Parent sanity

  /** No two parents share a language code. */
  predicate DistinctCodes(ps: seq<Version>) {
    forall i, j | 0 <= i < j < |ps| :: ps[i].languageCode != ps[j].languageCode
  }

  /** `set([v.language_code for v in parents])`. */
  function CodeSet(ps: seq<Version>): set<string> {
    set i | 0 <= i < |ps| :: ps[i].languageCode
  }

  /** The codes of a list are those of all but its last element, plus the last one's. */
  lemma CodeSetSnoc(ps: seq<Version>)
    requires ps != []
    ensures CodeSet(ps) == CodeSet(ps[..|ps| - 1]) + {ps[|ps| - 1].languageCode}
  {
    var init := ps[..|ps| - 1];
    forall c | c in CodeSet(ps) ensures c in CodeSet(init) + {ps[|ps| - 1].languageCode} {
      var i :| 0 <= i < |ps| && ps[i].languageCode == c;
      if i < |ps| - 1 { assert init[i] == ps[i]; }
    }
    forall c | c in CodeSet(init) ensures c in CodeSet(ps) {
      var i :| 0 <= i < |init| && init[i].languageCode == c;
      assert ps[i] == init[i];
    }
  }

  /** The length test of `_sanity_check_parents` is exactly "codes are distinct". */
  lemma {:induction false} CodeSetSize(ps: seq<Version>)
    ensures |CodeSet(ps)| <= |ps|
    ensures |CodeSet(ps)| == |ps| <==> DistinctCodes(ps)
  {
    if ps != [] {
      var init := ps[..|ps| - 1];
      var last := ps[|ps| - 1];
      CodeSetSize(init);
      CodeSetSnoc(ps);
      if last.languageCode in CodeSet(init) {
        var i :| 0 <= i < |init| && init[i].languageCode == last.languageCode;
        assert ps[i].languageCode == ps[|ps| - 1].languageCode;
        assert !DistinctCodes(ps);
      } else if DistinctCodes(init) {
        assert DistinctCodes(ps) by {
          forall i, j | 0 <= i < j < |ps| ensures ps[i].languageCode != ps[j].languageCode {
            if j < |ps| - 1 {
              assert init[i] == ps[i] && init[j] == ps[j];
            } else {
              assert ps[i].languageCode in CodeSet(init) by { assert init[i] == ps[i]; }
            }
          }
        }
      } else {
        var i, j :| 0 <= i < j < |init| && init[i].languageCode == init[j].languageCode;
        assert ps[i].languageCode == ps[j].languageCode;
      }
    }
  }

  /** No parent precedes what the lineage already records for its language. */
  predicate NoRegression(lineage: LineageMap, ps: seq<Version>) {
    forall p | p in ps :: p.languageCode in lineage ==> lineage[p.languageCode] <= p.versionNumber
  }

  /** `_sanity_check_parents(version, parents)`. */
  function SanityCheckParents(lineage: LineageMap, parents: seq<Version>): (r: Outcome)
    ensures r.Pass? <==> DistinctCodes(parents) && NoRegression(lineage, parents)
    ensures r.Fail? && !DistinctCodes(parents) ==> r.error == ValidationError(TwoParentsSameLanguage)
    ensures r.Fail? && DistinctCodes(parents) ==> r.error == ValidationError(LineageRegression)
  {
    CodeSetSize(parents);
    if |parents| != |CodeSet(parents)| then Fail(ValidationError(TwoParentsSameLanguage))
    else if exists p | p in parents :: p.languageCode in lineage && p.versionNumber < lineage[p.languageCode]
    then Fail(ValidationError(LineageRegression))
    else Pass
  }

  /** When the lineage is the one merged from the parents and the check passes,
      every parent sits exactly at its lineage entry. */
  lemma SanityPassPinsParents(parents: seq<Version>)
    requires SanityCheckParents(GetLineage(parents), parents).Pass?
    ensures forall p | p in parents ::
              p.languageCode in GetLineage(parents) && GetLineage(parents)[p.languageCode] == p.versionNumber
  {
    LineageDominatesParents(parents);
  }

  // ---------------------------------------------------------------------------
  // save() assertions

  /** The assertions of `SubtitleVersion.save`: language code and video agree
      with the owning language, and the visibility is a valid choice. */
  function SaveChecks(st: Store, v: Version): (r: Outcome)
    requires v.languageId < |st.languages|
    ensures r.Pass? <==> v.languageCode == st.languages[v.languageId].languageCode
                         && v.videoId == st.languages[v.languageId].videoId
                         && ValidVisibility(v.visibility)
    ensures r.Fail? ==> r.error.AssertionFailure?
  {
    var lang := st.languages[v.languageId];
    if v.languageCode != lang.languageCode then Fail(AssertionFailure(LanguageCodeMismatch))
    else if v.videoId != lang.videoId then Fail(AssertionFailure(VideoMismatch))
    else if !ValidVisibility(v.visibility) then Fail(AssertionFailure(BadVisibility))
    else Pass
  }

  // ---------------------------------------------------------------------------
  // add_version

  /** The keyword arguments `add_version` passes through to the version. */
  datatype VersionArgs = VersionArgs(
    title: Field,
    description: Field,
    note: string,
    authorId: nat,
    origin: string,
    visibility: string,
    visibilityOverride: string,
    rollbackOf: Option<nat>,
    subtitleCount: nat,
    fullySynced: bool)

  /** The defaults of the model fields: public, no override, not a rollback, no subtitles. */
  function DefaultArgs(authorId: nat): VersionArgs {
    VersionArgs(Absent, Absent, "", authorId, "", PUBLIC, NO_OVERRIDE, None, 0, false)
  }

  datatype Added = Added(store: Store, version: Version)

  predicate PksExist(st: Store, pks: seq<nat>) {
    forall i | 0 <= i < |pks| :: pks[i] < |st.versions|
  }

  function Lookup(st: Store, pks: seq<nat>): (r: seq<Version>)
    requires PksExist(st, pks)
    ensures |r| == |pks| && forall i | 0 <= i < |r| :: r[i] == st.versions[pks[i]]
  {
    if pks == [] then [] else Lookup(st, pks[..|pks| - 1]) + [st.versions[pks[|pks| - 1]]]
  }

  /** The number the next version of `lid` receives: one past the full-view tip. */
  function NextNumber(st: Store, lid: nat): (n: nat)
    ensures n >= 1
    ensures forall w | w in View(st, lid, Full) :: w.versionNumber < n
    ensures View(st, lid, Full) == [] ==> n == 1
    ensures View(st, lid, Full) != [] ==> exists w | w in View(st, lid, Full) :: w.versionNumber + 1 == n
  {
    match TipOf(st, lid, Full)
    case Some(t) => t.versionNumber + 1
    case None => 1
  }

  /** The parents of the new version: the explicit ones, then the full-view tip. */
  function ParentsWithTip(st: Store, lid: nat, explicit: seq<nat>): (r: seq<Version>)
    requires PksExist(st, explicit)
    ensures |r| == |explicit| + (if View(st, lid, Full) == [] then 0 else 1)
    ensures forall i | 0 <= i < |explicit| :: r[i] == st.versions[explicit[i]]
    ensures View(st, lid, Full) != [] ==> r[|explicit|] == TipOf(st, lid, Full).value
  {
    Lookup(st, explicit) + (match TipOf(st, lid, Full) case Some(t) => [t] case None => [])
  }

  /** The stored parent edges: the explicit pks, then the pk of the full-view tip. */
  function ParentPks(st: Store, lid: nat, explicit: seq<nat>): (r: seq<nat>)
    ensures explicit <= r
    ensures View(st, lid, Full) == [] ==> r == explicit
    ensures View(st, lid, Full) != [] ==> r == explicit + [TipOf(st, lid, Full).value.pk]
  {
    explicit + (match TipOf(st, lid, Full) case Some(t) => [t.pk] case None => [])
  }

  /** The version `add_version` builds before validating it. */
  function NewVersion(st: Store, lid: nat, explicit: seq<nat>, args: VersionArgs): Version
    requires lid < |st.languages| && PksExist(st, explicit)
  {
    var lang := st.languages[lid];
    Version(
      |st.versions|, lid, lang.videoId, lang.languageCode,
      NextNumber(st, lid), args.visibility, args.visibilityOverride, args.authorId,
      FieldText(args.title), FieldText(args.description), args.note, args.origin,
      args.rollbackOf, args.subtitleCount, args.fullySynced,
      GetLineage(ParentsWithTip(st, lid, explicit)), ParentPks(st, lid, explicit))
  }

  /** Everything `add_version` validates, in the order it is validated. */
  predicate AddVersionAccepts(st: Store, lid: nat, explicit: seq<nat>, args: VersionArgs)
    requires lid < |st.languages| && PksExist(st, explicit)
  {
    var v := NewVersion(st, lid, explicit, args);
    var parents := ParentsWithTip(st, lid, explicit);
    && !args.title.NonString?
    && !args.description.NonString?
    && DistinctCodes(parents)
    && NoRegression(v.lineage, parents)
    && |st.languages[lid].languageCode| <= LANGUAGE_CODE_MAX_LENGTH
    && |FieldText(args.title)| <= TITLE_MAX_LENGTH
    && |args.note| <= NOTE_MAX_LENGTH
    && ValidVisibility(args.visibility)
    && ValidOverride(args.visibilityOverride)
    && ValidOrigin(args.origin)
    && (args.rollbackOf.Some? ==> args.rollbackOf.value < v.versionNumber)
  }

  /** `add_version(parents, **kwargs)`. On success the store gains exactly one
      version at the end; on failure nothing is written and the error is a
      ValidationError. The assertions of `save` are not evaluated as a step:
      the contract shows they always hold once `full_clean` has passed. */
  function AddVersion(st: Store, lid: nat, explicit: seq<nat>, args: VersionArgs): (r: Result<Added>)
    requires lid < |st.languages| && PksExist(st, explicit)
    ensures r.Ok? <==> AddVersionAccepts(st, lid, explicit, args)
    ensures r.Err? ==> r.error.ValidationError?
    ensures r.Ok? ==> r.value.store == Store(st.languages, st.versions + [r.value.version])
    ensures r.Ok? ==> var v := r.value.version;
      && v.pk == |st.versions| && v.languageId == lid
      && v.languageCode == st.languages[lid].languageCode
      && v.videoId == st.languages[lid].videoId
      && (forall w | w in View(st, lid, Full) :: w.versionNumber < v.versionNumber)
      && (View(st, lid, Full) == [] ==> v.versionNumber == 1)
      && v.parents == ParentPks(st, lid, explicit)
      && v.lineage == GetLineage(ParentsWithTip(st, lid, explicit))
      && v.visibility == args.visibility && v.visibilityOverride == args.visibilityOverride
      && v.rollbackOf == args.rollbackOf && v.subtitleCount == args.subtitleCount
      && v.title == FieldText(args.title) && v.description == FieldText(args.description)
      && v.note == args.note && v.authorId == args.authorId
      && v.origin == args.origin && v.fullySynced == args.fullySynced
    ensures r.Ok? ==> SaveChecks(st, r.value.version).Pass?
  {
    var v := NewVersion(st, lid, explicit, args);
    var parents := ParentsWithTip(st, lid, explicit);
    if EnsureStringy(args.title).Fail? then Err(EnsureStringy(args.title).error)
    else if EnsureStringy(args.description).Fail? then Err(EnsureStringy(args.description).error)
    else
      var sanity := SanityCheckParents(v.lineage, parents);
      if sanity.Fail? then Err(sanity.error)
      else
        var clean := FullClean(v);
        if clean.Fail? then Err(clean.error)
        else Ok(Added(Store(st.languages, st.versions + [v]), v))
  }

  /** Every parent of a new version, explicit or the implicit tip, is recorded in
      its lineage at exactly its own number, and the lineage dominates the
      parents' lineages. */
  lemma AddVersionLineage(st: Store, lid: nat, explicit: seq<nat>, args: VersionArgs)
    requires lid < |st.languages| && PksExist(st, explicit)
    requires AddVersion(st, lid, explicit, args).Ok?
    ensures var v := AddVersion(st, lid, explicit, args).value.version;
            forall p | p in ParentsWithTip(st, lid, explicit) ::
              p.languageCode in v.lineage && v.lineage[p.languageCode] == p.versionNumber
    ensures var v := AddVersion(st, lid, explicit, args).value.version;
            DominatesParents(ParentsWithTip(st, lid, explicit), v.lineage)
  {
    var parents := ParentsWithTip(st, lid, explicit);
    SanityPassPinsParents(parents);
    LineageDominatesParents(parents);
  }

  /** Two explicit parents in one language are always refused with a ValidationError. */
  lemma SameLanguageParentsRejected(st: Store, lid: nat, explicit: seq<nat>, args: VersionArgs, i: nat, j: nat)
    requires lid < |st.languages| && PksExist(st, explicit)
    requires 0 <= i < j < |explicit|
    requires st.versions[explicit[i]].languageCode == st.versions[explicit[j]].languageCode
    ensures AddVersion(st, lid, explicit, args).Err?
    ensures !args.title.NonString? && !args.description.NonString? ==>
              AddVersion(st, lid, explicit, args).error == ValidationError(TwoParentsSameLanguage)
  {
    var parents := ParentsWithTip(st, lid, explicit);
    assert parents[i] == st.versions[explicit[i]] && parents[j] == st.versions[explicit[j]];
    assert !DistinctCodes(parents);
  }

  /** A rollback whose source is not earlier than the new version is refused. */
  lemma LateRollbackSourceRejected(st: Store, lid: nat, explicit: seq<nat>, args: VersionArgs)
    requires lid < |st.languages| && PksExist(st, explicit)
    requires args.rollbackOf.Some? && args.rollbackOf.value >= NextNumber(st, lid)
    ensures AddVersion(st, lid, explicit, args).Err?
  {
  }

  // ---------------------------------------------------------------------------
  // Store invariants

  /** A row that may be appended: it takes the next pk, belongs to an existing
      language whose code and video it repeats, passed `full_clean`, names only
      saved parents and is numbered above every version of its language. */
  predicate Appendable(st: Store, v: Version) {
    && v.pk == |st.versions|
    && v.languageId < |st.languages|
    && v.languageCode == st.languages[v.languageId].languageCode
    && v.videoId == st.languages[v.languageId].videoId
    && v.versionNumber >= 1
    && ValidVisibility(v.visibility)
    && ValidOverride(v.visibilityOverride)
    && (IsRollback(v) ==> v.rollbackOf.value < v.versionNumber)
    && (forall k | 0 <= k < |v.parents| :: v.parents[k] < |st.versions|)
    && (forall w | w in View(st, v.languageId, Full) :: w.versionNumber < v.versionNumber)
  }

  lemma AppendKeepsValid(st: Store, v: Version)
    requires Valid(st) && Appendable(st, v)
    ensures Valid(Store(st.languages, st.versions + [v]))
  {
    var st' := Store(st.languages, st.versions + [v]);
    var n := |st.versions|;
    forall j | 0 <= j < |st'.versions|
      ensures VersionWellFormed(st', j)
    {
      if j < n {
        assert st'.versions[j] == st.versions[j];
        assert VersionWellFormed(st, j);
      }
    }
    forall i, j | 0 <= i < j < |st'.versions| && st'.versions[i].languageId == st'.versions[j].languageId
      ensures st'.versions[i].versionNumber != st'.versions[j].versionNumber
    {
      if j == n {
        assert st.versions[i] in View(st, v.languageId, Full);
      } else {
        assert st'.versions[i] == st.versions[i] && st'.versions[j] == st.versions[j];
      }
    }
  }

  /** The version `add_version` saves may be appended to a valid store. */
  lemma AcceptedIsAppendable(st: Store, lid: nat, explicit: seq<nat>, args: VersionArgs)
    requires Valid(st) && lid < |st.languages| && PksExist(st, explicit)
    requires AddVersion(st, lid, explicit, args).Ok?
    ensures Appendable(st, AddVersion(st, lid, explicit, args).value.version)
  {
    var v := AddVersion(st, lid, explicit, args).value.version;
    assert ValidVisibility(v.visibility) && ValidOverride(v.visibilityOverride) by {
      assert AddVersionAccepts(st, lid, explicit, args);
    }
    var tip := TipOf(st, lid, Full);
    if tip.Some? {
      var k :| 0 <= k < |st.versions| && st.versions[k] == tip.value;
      assert VersionWellFormed(st, k);
    }
    forall k | 0 <= k < |v.parents| ensures v.parents[k] < |st.versions| {
      if k < |explicit| {
        assert v.parents[k] == explicit[k];
      }
    }
  }

  /** `add_version` keeps the store valid. */
  lemma AddVersionKeepsValid(st: Store, lid: nat, explicit: seq<nat>, args: VersionArgs)
    requires Valid(st) && lid < |st.languages| && PksExist(st, explicit)
    requires AddVersion(st, lid, explicit, args).Ok?
    ensures Valid(AddVersion(st, lid, explicit, args).value.store)
  {
    AcceptedIsAppendable(st, lid, explicit, args);
    AppendKeepsValid(st, AddVersion(st, lid, explicit, args).value.version);
  }

  /** Numbering is dense: the full view of every language, in pk order, is
      numbered 1, 2, ..., n. */
  ghost predicate Dense(st: Store) {
    forall lid, i | 0 <= i < |View(st, lid, Full)| :: View(st, lid, Full)[i].versionNumber == i + 1
  }

  /** A store without versions is dense. */
  lemma EmptyStoreIsDense(languages: seq<SubtitleLanguage>)
    ensures Dense(Store(languages, []))
  {
  }

  /** Appending one version extends exactly its own language's view. */
  lemma SelectAppend(vs: seq<Version>, v: Version, lid: nat, kind: ViewKind)
    ensures Select(vs + [v], lid, kind) ==
              Select(vs, lid, kind) + (if v.languageId == lid && InView(v, kind) then [v] else [])
  {
    assert (vs + [v])[..|vs|] == vs;
  }

  /** In a dense store the full tip is numbered by the length of the full view. */
  lemma DenseTip(st: Store, lid: nat)
    requires Dense(st)
    ensures TipOf(st, lid, Full).Some? ==> TipOf(st, lid, Full).value.versionNumber == |View(st, lid, Full)|
  {
    var view := View(st, lid, Full);
    if view != [] {
      var t := TipOf(st, lid, Full).value;
      var i :| 0 <= i < |view| && view[i] == t;
      assert view[|view| - 1].versionNumber == |view|;
      assert view[|view| - 1] in view;
    }
  }

  /** Appending the next number of a language keeps the store dense. */
  lemma AppendKeepsDense(st: Store, v: Version)
    requires Dense(st)
    requires v.versionNumber == |View(st, v.languageId, Full)| + 1
    ensures Dense(Store(st.languages, st.versions + [v]))
  {
    var st' := Store(st.languages, st.versions + [v]);
    forall l, i | 0 <= i < |View(st', l, Full)|
      ensures View(st', l, Full)[i].versionNumber == i + 1
    {
      SelectAppend(st.versions, v, l, Full);
      if i < |View(st, l, Full)| {
        assert View(st', l, Full)[i] == View(st, l, Full)[i];
      }
    }
  }

  /** Monotonic numbering: in a dense store the k-th version added to a language
      is numbered k, whatever has been deleted, and the store stays dense. */
  lemma AddVersionKeepsDense(st: Store, lid: nat, explicit: seq<nat>, args: VersionArgs)
    requires lid < |st.languages| && PksExist(st, explicit)
    requires Dense(st)
    requires AddVersion(st, lid, explicit, args).Ok?
    ensures AddVersion(st, lid, explicit, args).value.version.versionNumber == |View(st, lid, Full)| + 1
    ensures Dense(AddVersion(st, lid, explicit, args).value.store)
  {
    var v := AddVersion(st, lid, explicit, args).value.version;
    DenseTip(st, lid);
    assert v.versionNumber == NextNumber(st, lid);
    AppendKeepsDense(st, v);
  }
}

=== FILE: lineage.dfy ===
/** The lineage engine: `get_lineage` merges, for every parent, the parent's own
    (language code, version number) and every entry of the parent's lineage,
    keeping the larger number whenever a language code is seen twice. */
module Lineage {
  import opened Wrappers
  import opened Versions

  /** Raise `m[code]` to at least `n`, adding the key when missing. */
  function Bump(m: LineageMap, code: string, n: nat): (r: LineageMap)
    ensures r.Keys == m.Keys + {code}
    ensures r[code] == if code in m then Max(m[code], n) else n
    ensures forall k | k in m && k != code :: r[k] == m[k]
  {
    if code !in m || m[code] < n then m[code := n] else m
  }

  /** Bump every entry of `other` into `acc` (the inner loop over `parent.lineage.items()`). */
  function MergeMax(acc: LineageMap, other: LineageMap): (r: LineageMap)
    ensures r.Keys == acc.Keys + other.Keys
    ensures forall k | k in acc :: acc[k] <= r[k]
    ensures forall k | k in other :: other[k] <= r[k]
    ensures forall k | k in r :: (k in acc && r[k] == acc[k]) || (k in other && r[k] == other[k])
  {
    map k | k in acc.Keys + other.Keys ::
      if k in acc && k in other then Max(acc[k], other[k])
      else if k in acc then acc[k]
      else other[k]
  }

  /** One iteration of the outer loop: the parent itself, then its lineage. */
  function Absorb(acc: LineageMap, p: Version): LineageMap {
    MergeMax(Bump(acc, p.languageCode, p.versionNumber), p.lineage)
  }

  /** `get_lineage(parents)`, folding the parents left to right. */
  function GetLineage(parents: seq<Version>): LineageMap {
    if parents == [] then map[]
    else Absorb(GetLineage(parents[..|parents| - 1]), parents[|parents| - 1])
  }

  // ---------------------------------------------------------------------------
  // An order-free reference definition

  /** Parent `p` says something about language `k`. */
  predicate Contributes(p: Version, k: string) {
    k == p.languageCode || k in p.lineage
  }

  /** What parent `p` says about language `k`: the larger of its own number (when
      it is in `k`) and its lineage entry for `k`. */
  function Contribution(p: Version, k: string): nat
    requires Contributes(p, k)
  {
    if k == p.languageCode && k in p.lineage then Max(p.versionNumber, p.lineage[k])
    else if k == p.languageCode then p.versionNumber
    else p.lineage[k]
  }

  /** One parent's step, stated pointwise: after absorbing `p`, a language is
      present iff it was already or `p` contributes it, and holds the larger value. */
  lemma AbsorbPointwise(acc: LineageMap, p: Version, k: string)
    ensures k in Absorb(acc, p) <==> k in acc || Contributes(p, k)
    ensures k in Absorb(acc, p) ==>
              Absorb(acc, p)[k] == (if k in acc && Contributes(p, k) then Max(acc[k], Contribution(p, k))
                                    else if k in acc then acc[k]
                                    else Contribution(p, k))
  {
  }

  /** The languages of `r` are exactly those some parent in `s` contributes. */
  ghost predicate KeysContributed(s: set<Version>, r: LineageMap) {
    forall k :: k in r <==> exists p :: p in s && Contributes(p, k)
  }

  /** `r` bounds every contribution of every parent in `s`. */
  ghost predicate BoundsContributions(s: set<Version>, r: LineageMap) {
    forall p, k :: p in s && Contributes(p, k) ==> k in r && Contribution(p, k) <= r[k]
  }

  /** Every value of `r` is the contribution of some parent in `s`. */
  ghost predicate ValuesAttained(s: set<Version>, r: LineageMap) {
    forall k :: k in r ==> exists p :: p in s && Contributes(p, k) && Contribution(p, k) == r[k]
  }

  /** `r` is the pointwise maximum of everything the parents in `s` contribute.
      Only the SET of parents matters in this definition. */
  ghost predicate IsMaxMerge(s: set<Version>, r: LineageMap) {
    KeysContributed(s, r) && BoundsContributions(s, r) && ValuesAttained(s, r)
  }

  function ParentSet(parents: seq<Version>): (s: set<Version>)
    ensures forall p :: p in s <==> p in parents
  {
    set p | p in parents
  }

  lemma AbsorbKeys(s: set<Version>, acc: LineageMap, p: Version)
    requires KeysContributed(s, acc)
    ensures KeysContributed(s + {p}, Absorb(acc, p))
  {
    forall k
      ensures k in Absorb(acc, p) <==> exists q :: q in s + {p} && Contributes(q, k)
    {
      AbsorbPointwise(acc, p, k);
      if Contributes(p, k) {
        assert p in s + {p};
      }
      if k in acc {
        var q :| q in s && Contributes(q, k);
        assert q in s + {p};
      }
    }
  }

  lemma AbsorbBounds(s: set<Version>, acc: LineageMap, p: Version)
    requires BoundsContributions(s, acc)
    ensures BoundsContributions(s + {p}, Absorb(acc, p))
  {
    forall q, k | q in s + {p} && Contributes(q, k)
      ensures k in Absorb(acc, p) && Contribution(q, k) <= Absorb(acc, p)[k]
    {
      AbsorbPointwise(acc, p, k);
    }
  }

  lemma AbsorbAttained(s: set<Version>, acc: LineageMap, p: Version)
    requires ValuesAttained(s, acc)
    ensures ValuesAttained(s + {p}, Absorb(acc, p))
  {
    var r := Absorb(acc, p);
    forall k | k in r
      ensures exists q :: q in s + {p} && Contributes(q, k) && Contribution(q, k) == r[k]
    {
      AbsorbPointwise(acc, p, k);
      if k in acc && r[k] == acc[k] {
        var q :| q in s && Contributes(q, k) && Contribution(q, k) == acc[k];
        assert q in s + {p};
      } else {
        assert p in s + {p};
      }
    }
  }

  /** The parents of a list are those of all but its last element, plus the last one. */
  lemma ParentSetSnoc(parents: seq<Version>)
    requires parents != []
    ensures ParentSet(parents) == ParentSet(parents[..|parents| - 1]) + {parents[|parents| - 1]}
  {
    assert parents == parents[..|parents| - 1] + [parents[|parents| - 1]];
  }

  /** The fold computes the order-free maximum. */
  lemma {:induction false} GetLineageIsMaxMerge(parents: seq<Version>)
    ensures IsMaxMerge(ParentSet(parents), GetLineage(parents))
  {
    if parents != [] {
      var init := parents[..|parents| - 1];
      var p := parents[|parents| - 1];
      GetLineageIsMaxMerge(init);
      var s := ParentSet(init);
      ParentSetSnoc(parents);
      AbsorbKeys(s, GetLineage(init), p);
      AbsorbBounds(s, GetLineage(init), p);
      AbsorbAttained(s, GetLineage(init), p);
    }
  }

  /** Two maps that are the max-merge of the same set of parents are equal. */
  lemma MaxMergeUnique(s: set<Version>, r1: LineageMap, r2: LineageMap)
    requires IsMaxMerge(s, r1) && IsMaxMerge(s, r2)
    ensures r1 == r2
  {
    assert r1.Keys == r2.Keys;
    forall k | k in r1
      ensures r1[k] == r2[k]
    {
      var p1 :| p1 in s && Contributes(p1, k) && Contribution(p1, k) == r1[k];
      var p2 :| p2 in s && Contributes(p2, k) && Contribution(p2, k) == r2[k];
      assert Contribution(p1, k) <= r2[k];
      assert Contribution(p2, k) <= r1[k];
    }
  }

  /** The merge does not depend on the order (or repetition) of the parents. */
  lemma LineageOrderIndependent(ps: seq<Version>, qs: seq<Version>)
    requires forall p :: p in ps <==> p in qs
    ensures GetLineage(ps) == GetLineage(qs)
  {
    GetLineageIsMaxMerge(ps);
    GetLineageIsMaxMerge(qs);
    assert ParentSet(ps) == ParentSet(qs);
    MaxMergeUnique(ParentSet(ps), GetLineage(ps), GetLineage(qs));
  }

  /** `r` records each parent at least at its own number and dominates each
      parent's lineage pointwise. */
  ghost predicate DominatesParents(parents: seq<Version>, r: LineageMap) {
    && (forall p | p in parents :: p.languageCode in r && p.versionNumber <= r[p.languageCode])
    && (forall p, k | p in parents && k in p.lineage :: k in r && p.lineage[k] <= r[k])
  }

  lemma BoundsDominate(s: set<Version>, parents: seq<Version>, r: LineageMap)
    requires forall p :: p in parents ==> p in s
    requires BoundsContributions(s, r)
    ensures DominatesParents(parents, r)
  {
    forall p | p in parents
      ensures p.languageCode in r && p.versionNumber <= r[p.languageCode]
    {
      assert Contributes(p, p.languageCode);
    }
    forall p, k | p in parents && k in p.lineage
      ensures k in r && p.lineage[k] <= r[k]
    {
      assert Contributes(p, k);
    }
  }

  /** The merged lineage records every parent at least at its own number and
      dominates every parent's lineage pointwise. */
  lemma LineageDominatesParents(parents: seq<Version>)
    ensures DominatesParents(parents, GetLineage(parents))
  {
    GetLineageIsMaxMerge(parents);
    BoundsDominate(ParentSet(parents), parents, GetLineage(parents));
  }

  /** The merged lineage names no language that no parent contributes. */
  lemma LineageNamesOnlyParentLanguages(parents: seq<Version>, k: string)
    requires k in GetLineage(parents)
    ensures exists p :: p in parents && Contributes(p, k)
  {
    GetLineageIsMaxMerge(parents);
    assert KeysContributed(ParentSet(parents), GetLineage(parents));
    var p :| p in ParentSet(parents) && Contributes(p, k);
  }
}

=== FILE: moderation.dfy ===
/** Moderation writes: `publish`, `unpublish` and `nuke_language`. They only
    ever rewrite the two visibility fields of existing rows, so every store
    invariant survives them. */
module Moderation {
  import opened Wrappers
  import opened Versions
  import opened Store
  import opened Gateway
  import opened Ancestry

  // ---------------------------------------------------------------------------
  // Visibility-only edits

  /** `st'` is `st` with at most the visibility fields of some rows rewritten,
      to values that are still Django choices. */
  predicate VisibilityEdit(st: Store, st': Store) {
    && st'.languages == st.languages
    && |st'.versions| == |st.versions|
    && forall j | 0 <= j < |st.versions| ::
         && st'.versions[j] == st.versions[j].(visibility := st'.versions[j].visibility,
                                                visibilityOverride := st'.versions[j].visibilityOverride)
         && ValidVisibility(st'.versions[j].visibility)
         && ValidOverride(st'.versions[j].visibilityOverride)
  }

  /** The full views of two visibility-edited tables line up number for number. */
  lemma {:induction false} FullViewsAlign(vs: seq<Version>, ws: seq<Version>, lid: nat)
    requires |vs| == |ws|
    requires forall j | 0 <= j < |vs| :: ws[j].languageId == vs[j].languageId && ws[j].versionNumber == vs[j].versionNumber
    ensures |Select(ws, lid, Full)| == |Select(vs, lid, Full)|
    ensures forall i | 0 <= i < |Select(vs, lid, Full)| ::
              Select(ws, lid, Full)[i].versionNumber == Select(vs, lid, Full)[i].versionNumber
  {
    if vs != [] {
      var n := |vs| - 1;
      assert forall j | 0 <= j < n :: vs[..n][j] == vs[j] && ws[..n][j] == ws[j];
      FullViewsAlign(vs[..n], ws[..n], lid);
      NumbersAlignSnoc(Select(vs[..n], lid, Full), Select(ws[..n], lid, Full), vs[n], ws[n], lid);
    }
  }

  /** Extending two aligned views by rows that agree on language and number keeps them aligned. */
  lemma NumbersAlignSnoc(a: seq<Version>, b: seq<Version>, v: Version, w: Version, lid: nat)
    requires |a| == |b| && forall i | 0 <= i < |a| :: b[i].versionNumber == a[i].versionNumber
    requires w.languageId == v.languageId && w.versionNumber == v.versionNumber
    ensures var sa := a + (if v.languageId == lid then [v] else []);
            var sb := b + (if w.languageId == lid then [w] else []);
            |sb| == |sa| && forall i | 0 <= i < |sa| :: sb[i].versionNumber == sa[i].versionNumber
  {
    if v.languageId == lid {
      forall i | 0 <= i < |a| + 1 ensures (b + [w])[i].versionNumber == (a + [v])[i].versionNumber {
        if i < |a| {
          assert (a + [v])[i] == a[i] && (b + [w])[i] == b[i];
        }
      }
    } else {
      assert a + [] == a && b + [] == b;
    }
  }

  /** Ancestry only reads parent edges, which visibility edits leave alone. */
  lemma {:induction false} EditKeepsAncestor(st: Store, st': Store, a: nat, d: nat)
    requires Valid(st) && Valid(st') && VisibilityEdit(st, st') && d < |st.versions|
    ensures Ancestor(st, a, d) <==> Ancestor(st', a, d)
    decreases d
  {
    assert VersionWellFormed(st, d);
    var ps := st.versions[d].parents;
    assert st'.versions[d].parents == ps;
    forall k | 0 <= k < |ps|
      ensures Ancestor(st, a, ps[k]) <==> Ancestor(st', a, ps[k])
    {
      EditKeepsAncestor(st, st', a, ps[k]);
    }
    if Ancestor(st, a, d) {
      var k :| 0 <= k < |ps| && (ps[k] == a || Ancestor(st, a, ps[k]));
      assert ps[k] == a || Ancestor(st', a, ps[k]);
    }
    if Ancestor(st', a, d) {
      var k :| 0 <= k < |ps| && (ps[k] == a || Ancestor(st', a, ps[k]));
      assert ps[k] == a || Ancestor(st, a, ps[k]);
    }
  }

  lemma EditKeepsValid(st: Store, st': Store)
    requires Valid(st) && VisibilityEdit(st, st')
    ensures Valid(st')
  {
    forall j | 0 <= j < |st'.versions|
      ensures VersionWellFormed(st', j)
    {
      assert VersionWellFormed(st, j);
    }
  }

  /** A visibility edit keeps the store valid, dense and its lineages meaningful. */
  lemma EditKeepsInvariants(st: Store, st': Store)
    requires Valid(st) && VisibilityEdit(st, st')
    ensures Valid(st')
    ensures Dense(st) ==> Dense(st')
    ensures LineageSound(st) ==> LineageSound(st')
    ensures LineageComplete(st) ==> LineageComplete(st')
  {
    EditKeepsValid(st, st');
    forall l
      ensures |View(st', l, Full)| == |View(st, l, Full)|
      ensures forall i | 0 <= i < |View(st, l, Full)| ::
                View(st', l, Full)[i].versionNumber == View(st, l, Full)[i].versionNumber
    {
      FullViewsAlign(st.versions, st'.versions, l);
    }
    forall a: nat, d: nat | d < |st.versions|
      ensures Ancestor(st, a, d) <==> Ancestor(st', a, d)
    {
      EditKeepsAncestor(st, st', a, d);
    }
  }

  /** Leaving everything as it is, is a visibility edit. */
  lemma EditRefl(st: Store)
    requires Valid(st)
    ensures VisibilityEdit(st, st)
  {
    forall j | 0 <= j < |st.versions|
      ensures ValidVisibility(st.versions[j].visibility) && ValidOverride(st.versions[j].visibilityOverride)
    {
      assert VersionWellFormed(st, j);
    }
  }

  /** Rewriting the visibility fields of one row, to valid choices, is a visibility edit. */
  lemma EditOne(st: Store, pk: nat, v: Version)
    requires Valid(st) && pk < |st.versions|
    requires v == st.versions[pk].(visibility := v.visibility, visibilityOverride := v.visibilityOverride)
    requires ValidVisibility(v.visibility) && ValidOverride(v.visibilityOverride)
    ensures VisibilityEdit(st, Store(st.languages, st.versions[pk := v]))
  {
    EditRefl(st);
  }

  // ---------------------------------------------------------------------------
  // publish / unpublish

  /** `publish()`: assert the video belongs to a team, then set `visibility` to
      'public'. The override is left as it is. */
  function Publish(st: Store, pk: nat, hasTeamVideo: bool): (r: Result<Store>)
    requires Valid(st) && pk < |st.versions|
    ensures r.Err? <==> !hasTeamVideo
    ensures r.Err? ==> r.error == AssertionFailure(NoTeamVideo)
    ensures r.Ok? ==> VisibilityEdit(st, r.value)
    ensures r.Ok? ==> r.value.versions[pk].visibility == PUBLIC
    ensures r.Ok? ==> r.value.versions[pk].visibilityOverride == st.versions[pk].visibilityOverride
    ensures r.Ok? ==> forall j | 0 <= j < |st.versions| && j != pk :: r.value.versions[j] == st.versions[j]
  {
    if !hasTeamVideo then Err(AssertionFailure(NoTeamVideo))
    else
      var v := st.versions[pk].(visibility := PUBLIC);
      assert VersionWellFormed(st, pk);
      EditOne(st, pk, v);
      Ok(Store(st.languages, st.versions[pk := v]))
  }

  /** `unpublish(delete)`: set only the override, to 'deleted' or 'private'. The
      `save` assertions hold on a valid store, so it cannot fail there. */
  function Unpublish(st: Store, pk: nat, delete: bool): (r: Store)
    requires Valid(st) && pk < |st.versions|
    ensures VisibilityEdit(st, r)
    ensures r.versions[pk].visibilityOverride == if delete then DELETED else PRIVATE
    ensures r.versions[pk].visibility == st.versions[pk].visibility
    ensures forall j | 0 <= j < |st.versions| && j != pk :: r.versions[j] == st.versions[j]
  {
    var v := st.versions[pk].(visibilityOverride := if delete then DELETED else PRIVATE);
    assert VersionWellFormed(st, pk);
    EditOne(st, pk, v);
    Store(st.languages, st.versions[pk := v])
  }

  /** `publish()` cannot undo an override: a private or deleted override keeps
      the version out of the public view, and a deleted one keeps it deleted. */
  lemma PublishKeepsOverride(st: Store, pk: nat)
    requires Valid(st) && pk < |st.versions|
    requires st.versions[pk].visibilityOverride == PRIVATE || st.versions[pk].visibilityOverride == DELETED
    ensures var r := Publish(st, pk, true).value;
            && !IsPublic(r.versions[pk])
            && IsDeleted(r.versions[pk]) == IsDeleted(st.versions[pk])
            && r.versions[pk] !in View(r, r.versions[pk].languageId, Public)
  {
    var r := Publish(st, pk, true).value;
    EditKeepsValid(st, r);
    ViewsMatchVisibility(r, r.versions[pk].languageId, r.versions[pk]);
  }

  /** Without an override, `publish()` makes the version public. */
  lemma PublishWithoutOverride(st: Store, pk: nat)
    requires Valid(st) && pk < |st.versions|
    requires st.versions[pk].visibilityOverride == NO_OVERRIDE
    ensures var r := Publish(st, pk, true).value;
            IsPublic(r.versions[pk]) && r.versions[pk] in View(r, r.versions[pk].languageId, Public)
  {
    var r := Publish(st, pk, true).value;
    EditKeepsValid(st, r);
    ViewsMatchVisibility(r, r.versions[pk].languageId, r.versions[pk]);
  }

  /** After `unpublish` the version is out of the public view; after
      `unpublish(delete=True)` it is out of the extant view too, but it stays in
      the full view, so its number is never reused. */
  lemma UnpublishHides(st: Store, pk: nat, delete: bool)
    requires Valid(st) && pk < |st.versions|
    ensures var r := Unpublish(st, pk, delete);
            var v := r.versions[pk];
            && !IsPublic(v) && v !in View(r, v.languageId, Public)
            && (delete ==> IsDeleted(v) && v !in View(r, v.languageId, Extant))
            && (!delete ==> IsPrivate(v) && v in View(r, v.languageId, Extant))
            && v in View(r, v.languageId, Full)
  {
    var r := Unpublish(st, pk, delete);
    EditKeepsValid(st, r);
    ViewsMatchVisibility(r, r.versions[pk].languageId, r.versions[pk]);
  }

  // ---------------------------------------------------------------------------
  // nuke_language

  /** The languages `nuke_language` clears: this one, then its dependents. */
  function NukeTargets(st: Store, lid: nat): (r: seq<nat>)
    requires Valid(st) && lid < |st.languages|
    ensures |r| >= 1 && r[0] == lid
    ensures forall l | l in r :: l < |st.languages|
    ensures forall l: nat | l < |st.languages| :: l in r <==> l == lid || IsDependent(st, lid, l)
  {
    [lid] + DependentLanguages(st, lid, false)
  }

  /** `nuke_language`: for this language and each dependent (computed once, up
      front), `unpublish(delete=True)` every extant version, in pk order. */
  method NukeLanguage(st: Store, lid: nat) returns (r: Store)
    requires Valid(st) && lid < |st.languages|
    ensures VisibilityEdit(st, r)
    ensures forall j | 0 <= j < |st.versions| && st.versions[j].languageId in NukeTargets(st, lid) ::
              IsDeleted(r.versions[j]) && r.versions[j].visibility == st.versions[j].visibility
    ensures forall j | 0 <= j < |st.versions| && st.versions[j].languageId !in NukeTargets(st, lid) ::
              r.versions[j] == st.versions[j]
    ensures Valid(r)
    ensures forall l | l in NukeTargets(st, lid) :: TipOf(r, l, Extant).None?
  {
    var targets := NukeTargets(st, lid);
    r := st;
    EditRefl(st);
    var t := 0;
    while t < |targets|
      invariant 0 <= t <= |targets|
      invariant Valid(r) && VisibilityEdit(st, r)
      invariant forall j | 0 <= j < |st.versions| && st.versions[j].languageId in targets[..t] ::
                  IsDeleted(r.versions[j]) && r.versions[j].visibility == st.versions[j].visibility
      invariant forall j | 0 <= j < |st.versions| && st.versions[j].languageId !in targets[..t] ::
                  r.versions[j] == st.versions[j]
    {
      var l := targets[t];
      var next := DeleteLanguage(r, l);
      EditTrans(st, r, next);
      assert targets[..t + 1] == targets[..t] + [l];
      r := next;
      t := t + 1;
    }
    assert targets[..t] == targets;
    NukeLanguageClears(st, targets, r);
  }

  /** Two visibility edits in a row are one visibility edit. */
  lemma EditTrans(a: Store, b: Store, c: Store)
    requires VisibilityEdit(a, b) && VisibilityEdit(b, c)
    ensures VisibilityEdit(a, c)
  {
    forall j | 0 <= j < |a.versions|
      ensures c.versions[j] == a.versions[j].(visibility := c.versions[j].visibility,
                                               visibilityOverride := c.versions[j].visibilityOverride)
    {
      assert b.versions[j] == a.versions[j].(visibility := b.versions[j].visibility,
                                             visibilityOverride := b.versions[j].visibilityOverride);
    }
  }

  /** One round of `nuke_language`: `unpublish(delete=True)` on every extant
      version of language `l`, in pk order. Only that language's rows change,
      each to 'deleted' with its `visibility` kept. */
  method DeleteLanguage(s: Store, l: nat) returns (r: Store)
    requires Valid(s)
    ensures Valid(r) && VisibilityEdit(s, r)
    ensures forall k | 0 <= k < |s.versions| && s.versions[k].languageId == l ::
              IsDeleted(r.versions[k]) && r.versions[k].visibility == s.versions[k].visibility
    ensures forall k | 0 <= k < |s.versions| && s.versions[k].languageId != l :: r.versions[k] == s.versions[k]
  {
    r := s;
    EditRefl(s);
    var j := 0;
    while j < |r.versions|
      invariant 0 <= j <= |r.versions| == |s.versions|
      invariant Valid(r) && VisibilityEdit(s, r)
      invariant forall k | 0 <= k < j && s.versions[k].languageId == l ::
                  IsDeleted(r.versions[k]) && r.versions[k].visibility == s.versions[k].visibility
      invariant forall k | 0 <= k < |s.versions| && (s.versions[k].languageId != l || k >= j) ::
                  r.versions[k] == s.versions[k]
    {
      if r.versions[j].languageId == l && !IsDeleted(r.versions[j]) {
        var next := Unpublish(r, j, true);
        EditKeepsValid(r, next);
        EditTrans(s, r, next);
        r := next;
      }
      j := j + 1;
    }
  }

  /** A language all of whose rows carry the 'deleted' override has an empty extant view. */
  lemma NoExtantLeft(st: Store, r: Store, l: nat)
    requires VisibilityEdit(st, r)
    requires forall j | 0 <= j < |st.versions| && st.versions[j].languageId == l :: IsDeleted(r.versions[j])
    ensures View(r, l, Extant) == [] && TipOf(r, l, Extant).None?
  {
    SelectNone(r.versions, l, Extant);
  }

  /** A view is empty when no row of the language is in it. */
  lemma {:induction false} SelectNone(vs: seq<Version>, l: nat, kind: ViewKind)
    requires forall j | 0 <= j < |vs| && vs[j].languageId == l :: !InView(vs[j], kind)
    ensures Select(vs, l, kind) == []
  {
    if vs != [] {
      SelectNone(vs[..|vs| - 1], l, kind);
    }
  }

  /** After `nuke_language` neither the language nor any dependent has an
      extant version left, yet their full views keep every number; the store
      invariants hold. */
  lemma NukeLanguageClears(st: Store, targets: seq<nat>, r: Store)
    requires Valid(st) && VisibilityEdit(st, r)
    requires forall j | 0 <= j < |st.versions| && st.versions[j].languageId in targets :: IsDeleted(r.versions[j])
    ensures Valid(r) && (Dense(st) ==> Dense(r))
    ensures LineageSound(st) ==> LineageSound(r)
    ensures LineageComplete(st) ==> LineageComplete(r)
    ensures forall l | l in targets :: View(r, l, Extant) == [] && TipOf(r, l, Extant).None?
    ensures forall l | l in targets :: |View(r, l, Full)| == |View(st, l, Full)|
  {
    EditKeepsInvariants(st, r);
    forall l | l in targets
      ensures View(r, l, Extant) == [] && TipOf(r, l, Extant).None?
      ensures |View(r, l, Full)| == |View(st, l, Full)|
    {
      FullViewsAlign(st.versions, r.versions, l);
      NoExtantLeft(st, r, l);
    }
  }
}

=== FILE: scenarios.dfy ===
/** Lineage of the common single-parent cases of `add_version`: a language's
    next version, and the first version of a translation. Both record the
    parent's own language, which is where the code departs from a reading in
    which a same-language predecessor leaves no lineage entry. */
module Scenarios {
  import opened Wrappers
  import opened Versions
  import opened Lineage
  import opened Store
  import opened Gateway

  /** With one parent, the lineage is the parent's lineage raised by the
      parent's own (language, number). */
  lemma {:induction false} SingleParentLineage(p: Version)
    ensures GetLineage([p]) == Bump(p.lineage, p.languageCode, p.versionNumber)
  {
    var none: LineageMap := map[];
    assert [p][..0] == [];
    assert GetLineage([p][..0]) == none;
    var a := GetLineage([p]);
    var b := Bump(p.lineage, p.languageCode, p.versionNumber);
    assert a == Absorb(none, p);
    forall k ensures (k in a <==> k in b) && (k in a ==> a[k] == b[k]) {
      AbsorbPointwise(none, p, k);
    }
  }

  /** A language's second version, added without explicit parents, remembers
      the first: its lineage maps the language's own code to the first
      version's number (`{'en': 1}` for the second English version). */
  lemma SecondVersionRemembersFirst(st: Store, lid: nat, args: VersionArgs)
    requires Valid(st) && lid < |st.languages|
    requires |View(st, lid, Full)| == 1 && View(st, lid, Full)[0].lineage == map[]
    requires AddVersion(st, lid, [], args).Ok?
    ensures var first := View(st, lid, Full)[0];
            AddVersion(st, lid, [], args).value.version.lineage
              == map[st.languages[lid].languageCode := first.versionNumber]
  {
    var first := View(st, lid, Full)[0];
    assert first in View(st, lid, Full);
    var j :| 0 <= j < |st.versions| && st.versions[j] == first;
    assert VersionWellFormed(st, j);
    assert TipOf(st, lid, Full) == Some(first);
    assert ParentsWithTip(st, lid, []) == [first];
    SingleParentLineage(first);
  }

  /** The first version of a translation, added with one explicit parent in
      another language, inherits that parent's lineage and adds the parent
      itself: translating English version 2 whose lineage is `{'en': 1}` gives
      `{'en': 2}`. */
  lemma FirstTranslationInheritsSource(st: Store, lid: nat, source: nat, args: VersionArgs)
    requires lid < |st.languages| && source < |st.versions|
    requires View(st, lid, Full) == []
    requires AddVersion(st, lid, [source], args).Ok?
    ensures var p := st.versions[source];
            AddVersion(st, lid, [source], args).value.version.lineage
              == Bump(p.lineage, p.languageCode, p.versionNumber)
    ensures var p := st.versions[source];
            AddVersion(st, lid, [source], args).value.version.lineage[p.languageCode] >= p.versionNumber
  {
    var p := st.versions[source];
    assert ParentsWithTip(st, lid, [source]) == [p];
    SingleParentLineage(p);
  }
}

=== FILE: signoff.dfy ===
/** Collaborators of a subtitle language and the five denormalised signoff
    counters that `update_signoff_counts` recomputes from the full roster. */
module Signoff {
  import opened Wrappers

  datatype Collaborator = Collaborator(userId: nat, signoff: bool, official: bool, expired: bool)

  datatype SignoffCounts = SignoffCounts(
    official: nat,
    unofficial: nat,
    pending: nat,
    pendingExpired: nat,
    pendingUnexpired: nat)

  const ZeroCounts: SignoffCounts := SignoffCounts(0, 0, 0, 0, 0)

  predicate IsOfficial(c: Collaborator) { c.signoff && c.official }
  predicate IsUnofficial(c: Collaborator) { c.signoff && !c.official }
  predicate IsPending(c: Collaborator) { !c.signoff }
  predicate IsPendingExpired(c: Collaborator) { !c.signoff && c.expired }
  predicate IsPendingUnexpired(c: Collaborator) { !c.signoff && !c.expired }

  /** Number of roster entries satisfying `p`, the `len([c for c in cs if ...])` idiom. */
  function CountWhere(cs: seq<Collaborator>, p: Collaborator -> bool): (n: nat)
    ensures n <= |cs|
    ensures n == 0 <==> forall i | 0 <= i < |cs| :: !p(cs[i])
    ensures n == |cs| <==> forall i | 0 <= i < |cs| :: p(cs[i])
  {
    if cs == [] then 0
    else CountWhere(cs[..|cs| - 1], p) + (if p(cs[|cs| - 1]) then 1 else 0)
  }

  /** `update_signoff_counts`: a full recount over the roster, not an increment. */
  function UpdateSignoffCounts(cs: seq<Collaborator>): (r: SignoffCounts)
    ensures r.official + r.unofficial + r.pending == |cs|
    ensures r.pending == r.pendingExpired + r.pendingUnexpired
    ensures r.pending == 0 <==> forall i | 0 <= i < |cs| :: cs[i].signoff
  {
    CountsPartitionRoster(cs);
    SignoffCounts(
      CountWhere(cs, IsOfficial),
      CountWhere(cs, IsUnofficial),
      CountWhere(cs, IsPending),
      CountWhere(cs, IsPendingExpired),
      CountWhere(cs, IsPendingUnexpired))
  }

  /** The signoff states split the roster: official, unofficial and pending add
      up to the roster size, and pending splits into expired and unexpired. */
  lemma {:induction false} CountsPartitionRoster(cs: seq<Collaborator>)
    ensures CountWhere(cs, IsOfficial) + CountWhere(cs, IsUnofficial) + CountWhere(cs, IsPending) == |cs|
    ensures CountWhere(cs, IsPending) == CountWhere(cs, IsPendingExpired) + CountWhere(cs, IsPendingUnexpired)
  {
    if cs != [] {
      CountsPartitionRoster(cs[..|cs| - 1]);
    }
  }

  /** Recounting is independent of roster order: any permutation gives the same counts. */
  lemma {:induction false} CountWherePermutation(cs: seq<Collaborator>, ds: seq<Collaborator>, p: Collaborator -> bool)
    requires multiset(cs) == multiset(ds)
    ensures CountWhere(cs, p) == CountWhere(ds, p)
    decreases |cs|
  {
    if cs != [] {
      var last := cs[|cs| - 1];
      assert last in multiset(ds);
      var j :| 0 <= j < |ds| && ds[j] == last;
      var ds' := RemoveAt(ds, j);
      assert cs == cs[..|cs| - 1] + [last];
      assert multiset(cs[..|cs| - 1]) == multiset(ds');
      CountWherePermutation(cs[..|cs| - 1], ds', p);
      CountWhereInsert(ds', j, last, p);
    } else {
      assert ds == [];
    }
  }

  /** The roster without its `j`-th entry; putting the entry back restores it. */
  function RemoveAt(ds: seq<Collaborator>, j: nat): (r: seq<Collaborator>)
    requires j < |ds|
    ensures |r| == |ds| - 1
    ensures r[..j] + [ds[j]] + r[j..] == ds
    ensures multiset(r) == multiset(ds) - multiset{ds[j]}
  {
    var r := ds[..j] + ds[j + 1..];
    assert r[..j] == ds[..j] && r[j..] == ds[j + 1..];
    assert ds == ds[..j] + [ds[j]] + ds[j + 1..];
    r
  }

  /** Inserting one entry anywhere adds its own contribution to a count. */
  lemma CountWhereInsert(s: seq<Collaborator>, j: nat, x: Collaborator, p: Collaborator -> bool)
    requires j <= |s|
    ensures CountWhere(s[..j] + [x] + s[j..], p) == CountWhere(s, p) + (if p(x) then 1 else 0)
  {
    var a, b := s[..j], s[j..];
    assert s == a + b;
    CountWhereAppend(a, b, p);
    CountWhereAppend(a + [x], b, p);
    CountWhereAppend(a, [x], p);
    assert [x][..0] == [];
  }

  /** Counting over a concatenation adds the counts of the parts. */
  lemma {:induction false} CountWhereAppend(a: seq<Collaborator>, b: seq<Collaborator>, p: Collaborator -> bool)
    ensures CountWhere(a + b, p) == CountWhere(a, p) + CountWhere(b, p)
    decreases |b|
  {
    if b == [] {
      assert a + b == a;
    } else {
      var b' := b[..|b| - 1];
      assert (a + b)[..|a + b| - 1] == a + b';
      assert (a + b)[|a + b| - 1] == b[|b| - 1];
      CountWhereAppend(a, b', p);
    }
  }

  /** The `unique_together = (user, subtitle_language)` constraint on one roster. */
  predicate UniqueUsers(cs: seq<Collaborator>) {
    forall i, j | 0 <= i < j < |cs| :: cs[i].userId != cs[j].userId
  }

  predicate OnRoster(cs: seq<Collaborator>, userId: nat) {
    exists i | 0 <= i < |cs| :: cs[i].userId == userId
  }

  /** `Collaborator.save` on a roster: write the row (unique per user and
      language), then recount from the whole new roster. `creating` is
      `not self.pk`: a row not yet in the database. */
  function SaveCollaborator(cs: seq<Collaborator>, c: Collaborator, creating: bool)
    : (r: Result<(seq<Collaborator>, SignoffCounts)>)
    ensures r.Err? <==> creating && OnRoster(cs, c.userId)
    ensures r.Err? ==> r.error == IntegrityError
    ensures r.Ok? ==> c in r.value.0
    ensures r.Ok? ==> forall i | 0 <= i < |r.value.0| :: r.value.0[i].userId == c.userId ==> r.value.0[i] == c
    ensures r.Ok? ==> forall d | d in cs && d.userId != c.userId :: d in r.value.0
    ensures r.Ok? ==> forall d | d in r.value.0 && d.userId != c.userId :: d in cs
    ensures r.Ok? && UniqueUsers(cs) ==> UniqueUsers(r.value.0)
    ensures r.Ok? ==> r.value.1.official + r.value.1.unofficial + r.value.1.pending == |r.value.0|
    ensures r.Ok? ==> r.value.1.pending == r.value.1.pendingExpired + r.value.1.pendingUnexpired
  {
    match Upsert(cs, c, creating)
    case Err(e) => Err(e)
    case Ok(roster) => Ok((roster, UpdateSignoffCounts(roster)))
  }

  /** Write the row of `c`. Inserting a row for a user who already has one
      breaks the uniqueness constraint; an existing row is updated in place;
      a row the roster does not hold yet is added at the end. */
  function Upsert(cs: seq<Collaborator>, c: Collaborator, creating: bool): (r: Result<seq<Collaborator>>)
    ensures r.Err? <==> creating && OnRoster(cs, c.userId)
    ensures r.Err? ==> r.error == IntegrityError
    ensures r.Ok? ==> c in r.value
    ensures r.Ok? ==> forall i | 0 <= i < |r.value| :: r.value[i].userId == c.userId ==> r.value[i] == c
    ensures r.Ok? ==> forall d | d in cs && d.userId != c.userId :: d in r.value
    ensures r.Ok? ==> forall d | d in r.value && d.userId != c.userId :: d in cs
    ensures r.Ok? && UniqueUsers(cs) ==> UniqueUsers(r.value)
    ensures r.Ok? ==> |r.value| == |cs| + (if OnRoster(cs, c.userId) then 0 else 1)
  {
    if OnRoster(cs, c.userId) then
      if creating then Err(IntegrityError) else Ok(Replace(cs, c))
    else
      Ok(cs + [c])
  }

  function Replace(cs: seq<Collaborator>, c: Collaborator): (r: seq<Collaborator>)
    ensures |r| == |cs|
    ensures forall i | 0 <= i < |r| :: r[i] == if cs[i].userId == c.userId then c else cs[i]
  {
    if cs == [] then []
    else Replace(cs[..|cs| - 1], c) + [if cs[|cs| - 1].userId == c.userId then c else cs[|cs| - 1]]
  }
}

=== FILE: store.dfy ===
/** The per-video subtitle store: `SubtitleLanguage` branches and the table of
    `SubtitleVersion` changesets, with the three filtered views, tip resolution,
    sibling navigation, rollback sources and the language-level existence filters. */
module Store {
  import opened Wrappers
  import opened Versions
  import opened Writelock
  import opened Signoff

  /** A `SubtitleLanguage`: one branch per (video, language code). */
  datatype SubtitleLanguage = SubtitleLanguage(
    id: nat,
    videoId: nat,
    languageCode: string,
    subtitlesComplete: bool,
    isForked: bool,
    lock: Lock,
    collaborators: seq<Collaborator>,
    counts: SignoffCounts)

  /** Languages are indexed by id and versions by pk. */
  datatype Store = Store(languages: seq<SubtitleLanguage>, versions: seq<Version>)

  /** The integrity a version row keeps: its pk is its position, it belongs to an
      existing language whose code and video it repeats, its number is positive,
      its visibility fields hold Django choices, it passed `clean`, and its
      parents were saved before it. */
  predicate VersionWellFormed(st: Store, j: nat)
    requires j < |st.versions|
  {
    var v := st.versions[j];
    && v.pk == j
    && v.languageId < |st.languages|
    && v.languageCode == st.languages[v.languageId].languageCode
    && v.videoId == st.languages[v.languageId].videoId
    && v.versionNumber >= 1
    && ValidVisibility(v.visibility)
    && ValidOverride(v.visibilityOverride)
    && (IsRollback(v) ==> v.rollbackOf.value < v.versionNumber)
    && (forall k | 0 <= k < |v.parents| :: v.parents[k] < j)
  }

  /** `unique_together = (subtitle_language, version_number)`. */
  predicate UniqueNumbers(st: Store) {
    forall i, j | 0 <= i < j < |st.versions| ::
      st.versions[i].languageId == st.versions[j].languageId ==>
        st.versions[i].versionNumber != st.versions[j].versionNumber
  }

  predicate Valid(st: Store) {
    && (forall i | 0 <= i < |st.languages| :: st.languages[i].id == i)
    && (forall j | 0 <= j < |st.versions| :: VersionWellFormed(st, j))
    && UniqueNumbers(st)
  }

  // ---------------------------------------------------------------------------
  // Views

  /** The versions of language `lid` in the view `kind`, in pk order. */
  function Select(vs: seq<Version>, lid: nat, kind: ViewKind): (r: seq<Version>)
    ensures forall v :: v in r <==> v in vs && v.languageId == lid && InView(v, kind)
    ensures |r| <= |vs|
  {
    if vs == [] then []
    else
      var last := vs[|vs| - 1];
      Select(vs[..|vs| - 1], lid, kind) + (if last.languageId == lid && InView(last, kind) then [last] else [])
  }

  /** `language.subtitleversion_set.full()` / `.extant()` / `.public()`. */
  function View(st: Store, lid: nat, kind: ViewKind): seq<Version> {
    Select(st.versions, lid, kind)
  }

  /** The views nest: public within extant within full. */
  lemma ViewsNest(st: Store, lid: nat)
    ensures forall v | v in View(st, lid, Public) :: v in View(st, lid, Extant)
    ensures forall v | v in View(st, lid, Extant) :: v in View(st, lid, Full)
    ensures forall v | v in View(st, lid, Full) :: v in st.versions && v.languageId == lid
  {
  }

  /** In a valid store the public view holds exactly the public versions and the
      extant view exactly the versions that are not deleted. */
  lemma ViewsMatchVisibility(st: Store, lid: nat, v: Version)
    requires Valid(st) && v in st.versions && v.languageId == lid
    ensures v in View(st, lid, Public) <==> IsPublic(v)
    ensures v in View(st, lid, Extant) <==> !IsDeleted(v)
    ensures v in View(st, lid, Full)
  {
    var j :| 0 <= j < |st.versions| && st.versions[j] == v;
    assert VersionWellFormed(st, j);
    ViewsMatchPredicates(v);
  }

  /** The manager entry points; `AllQuery` is the disabled `all()`. */
  datatype Query = FullQuery | ExtantQuery | PublicQuery | AllQuery

  /** A versions queryset of language `lid`: every caller must name a view. */
  function VersionSet(st: Store, lid: nat, q: Query): (r: Result<seq<Version>>)
    ensures r.Err? <==> q == AllQuery
    ensures r.Err? ==> r.error == AssertionFailure(AllDisabled)
    ensures r.Ok? ==> forall v | v in r.value :: v in st.versions && v.languageId == lid
    ensures r.Ok? && q != FullQuery ==> forall v | v in r.value :: !IsDeleted(v)
    ensures r.Ok? && q == FullQuery ==> forall v | v in st.versions && v.languageId == lid :: v in r.value
  {
    match q
    case FullQuery => Ok(View(st, lid, Full))
    case ExtantQuery => Ok(View(st, lid, Extant))
    case PublicQuery => Ok(View(st, lid, Public))
    case AllQuery => Err(AssertionFailure(AllDisabled))
  }

  // ---------------------------------------------------------------------------
  // Tips

  /** The highest-numbered version of `vs` (the earliest one on a tie). */
  function HighestNumbered(vs: seq<Version>): (r: Option<Version>)
    ensures r.None? <==> vs == []
    ensures r.Some? ==> r.value in vs
    ensures r.Some? ==> forall v | v in vs :: v.versionNumber <= r.value.versionNumber
  {
    if vs == [] then None
    else
      var best := HighestNumbered(vs[..|vs| - 1]);
      var last := vs[|vs| - 1];
      assert forall v | v in vs :: v in vs[..|vs| - 1] || v == last;
      if best.None? || best.value.versionNumber < last.versionNumber then Some(last) else best
  }

  /** The tip of one view. */
  function TipOf(st: Store, lid: nat, kind: ViewKind): Option<Version> {
    HighestNumbered(View(st, lid, kind))
  }

  /** `get_tip(public, full)`: the highest-numbered version of the public, full or
      (by default) extant view, or None; asking for both public and full fails. */
  function GetTip(st: Store, lid: nat, public: bool, full: bool): (r: Result<Option<Version>>)
    ensures r.Err? <==> public && full
    ensures r.Err? ==> r.error == AssertionFailure(PublicAndFull)
    ensures r.Ok? ==>
      var kind := if public then Public else if full then Full else Extant;
      && (r.value.None? <==> View(st, lid, kind) == [])
      && (r.value.Some? ==> r.value.value in View(st, lid, kind))
      && (r.value.Some? ==> forall v | v in View(st, lid, kind) :: v.versionNumber <= r.value.value.versionNumber)
  {
    if public && full then Err(AssertionFailure(PublicAndFull))
    else if public then Ok(TipOf(st, lid, Public))
    else if full then Ok(TipOf(st, lid, Full))
    else Ok(TipOf(st, lid, Extant))
  }

  /** Public tip <= extant tip <= full tip, and a view with a tip makes every wider view have one. */
  lemma TipsNest(st: Store, lid: nat)
    ensures TipOf(st, lid, Public).Some? ==> TipOf(st, lid, Extant).Some?
    ensures TipOf(st, lid, Extant).Some? ==> TipOf(st, lid, Full).Some?
    ensures TipOf(st, lid, Public).Some? ==>
              TipOf(st, lid, Public).value.versionNumber <= TipOf(st, lid, Extant).value.versionNumber
    ensures TipOf(st, lid, Extant).Some? ==>
              TipOf(st, lid, Extant).value.versionNumber <= TipOf(st, lid, Full).value.versionNumber
  {
    ViewsNest(st, lid);
  }

  // ---------------------------------------------------------------------------
  // Siblings

  /** The view `next_version`/`previous_version`/`get_rollback_source` search:
      the siblings of `v` (same language), full or extant. */
  function Siblings(st: Store, v: Version, full: bool): seq<Version> {
    View(st, v.languageId, if full then Full else Extant)
  }

  /** The lowest-numbered version of `vs` numbered above `n`. */
  function LowestAbove(vs: seq<Version>, n: nat): (r: Option<Version>)
    ensures r.None? <==> forall v | v in vs :: v.versionNumber <= n
    ensures r.Some? ==> r.value in vs && r.value.versionNumber > n
    ensures r.Some? ==> forall v | v in vs && v.versionNumber > n :: r.value.versionNumber <= v.versionNumber
  {
    if vs == [] then None
    else
      var best := LowestAbove(vs[..|vs| - 1], n);
      var last := vs[|vs| - 1];
      assert forall v | v in vs :: v in vs[..|vs| - 1] || v == last;
      if last.versionNumber > n && (best.None? || last.versionNumber < best.value.versionNumber)
      then Some(last) else best
  }

  /** The highest-numbered version of `vs` numbered below `n`. */
  function HighestBelow(vs: seq<Version>, n: nat): (r: Option<Version>)
    ensures r.None? <==> forall v | v in vs :: v.versionNumber >= n
    ensures r.Some? ==> r.value in vs && r.value.versionNumber < n
    ensures r.Some? ==> forall v | v in vs && v.versionNumber < n :: v.versionNumber <= r.value.versionNumber
  {
    if vs == [] then None
    else
      var best := HighestBelow(vs[..|vs| - 1], n);
      var last := vs[|vs| - 1];
      assert forall v | v in vs :: v in vs[..|vs| - 1] || v == last;
      if last.versionNumber < n && (best.None? || last.versionNumber > best.value.versionNumber)
      then Some(last) else best
  }

  /** `next_version(full)`: the closest later sibling. */
  function NextVersion(st: Store, v: Version, full: bool): Option<Version> {
    LowestAbove(Siblings(st, v, full), v.versionNumber)
  }

  /** `previous_version(full)`: the closest earlier sibling. */
  function PreviousVersion(st: Store, v: Version, full: bool): Option<Version> {
    HighestBelow(Siblings(st, v, full), v.versionNumber)
  }

  /** Next and previous are inverse neighbours: `w` is the next version of `v`
      exactly when `v` is the previous version of `w`, both searched in the same
      view of a store with unique numbers. */
  lemma NextPreviousInverse(st: Store, v: Version, w: Version, full: bool)
    requires UniqueNumbers(st)
    requires v in Siblings(st, v, full) && w.languageId == v.languageId
    ensures NextVersion(st, v, full) == Some(w) <==> w in Siblings(st, v, full) && PreviousVersion(st, w, full) == Some(v)
  {
    var sibs := Siblings(st, v, full);
    assert Siblings(st, w, full) == sibs;
    if NextVersion(st, v, full) == Some(w) {
      var p := PreviousVersion(st, w, full);
      assert p.Some?;
      SameNumberSameVersion(st, v, p.value, sibs);
    }
    if w in sibs && PreviousVersion(st, w, full) == Some(v) {
      var n := NextVersion(st, v, full);
      assert n.Some?;
      SameNumberSameVersion(st, w, n.value, sibs);
    }
  }

  /** Within one language's view, a version number identifies the version. */
  lemma SameNumberSameVersion(st: Store, a: Version, b: Version, vs: seq<Version>)
    requires UniqueNumbers(st)
    requires vs == Select(st.versions, a.languageId, Full) || vs == Select(st.versions, a.languageId, Extant)
          || vs == Select(st.versions, a.languageId, Public)
    requires a in vs && b in vs && a.versionNumber == b.versionNumber
    ensures a == b
  {
    var i :| 0 <= i < |st.versions| && st.versions[i] == a;
    var j :| 0 <= j < |st.versions| && st.versions[j] == b;
    assert st.versions[i].languageId == st.versions[j].languageId;
  }

  /** The version of `vs` numbered `n`, if any. */
  function FindNumber(vs: seq<Version>, n: nat): (r: Option<Version>)
    ensures r.None? <==> forall v | v in vs :: v.versionNumber != n
    ensures r.Some? ==> r.value in vs && r.value.versionNumber == n
  {
    if vs == [] then None
    else if vs[|vs| - 1].versionNumber == n then Some(vs[|vs| - 1])
    else
      assert forall v | v in vs :: v in vs[..|vs| - 1] || v == vs[|vs| - 1];
      FindNumber(vs[..|vs| - 1], n)
  }

  /** `get_rollback_source(full)`: no source for non-rollbacks and legacy (0)
      rollbacks; otherwise the sibling numbered `rollback_of_version_number`,
      which is None when it was deleted and `full` is false. */
  function GetRollbackSource(st: Store, v: Version, full: bool): (r: Option<Version>)
    ensures r.Some? ==> IsRollback(v) && v.rollbackOf.value > 0
    ensures r.Some? ==> r.value in Siblings(st, v, full) && r.value.versionNumber == v.rollbackOf.value
    ensures IsRollback(v) && v.rollbackOf.value > 0 && r.None? ==>
              forall w | w in Siblings(st, v, full) :: w.versionNumber != v.rollbackOf.value
  {
    match v.rollbackOf
    case None => None
    case Some(n) => if n == 0 then None else FindNumber(Siblings(st, v, full), n)
  }

  /** In a valid store a rollback source is always an earlier version of the same language. */
  lemma RollbackSourcePrecedes(st: Store, v: Version, full: bool)
    requires Valid(st) && v in st.versions
    requires GetRollbackSource(st, v, full).Some?
    ensures GetRollbackSource(st, v, full).value.versionNumber < v.versionNumber
    ensures GetRollbackSource(st, v, full).value.languageId == v.languageId
  {
    var j :| 0 <= j < |st.versions| && st.versions[j] == v;
    assert VersionWellFormed(st, j);
  }

  // ---------------------------------------------------------------------------
  // Language-level existence filters (the manager's SQL, as predicates)

  /** `having_versions`: some version of the language is not deleted. */
  function HavingVersions(st: Store, lid: nat): (r: bool)
    ensures r <==> View(st, lid, Extant) != []
  {
    var r := exists j | 0 <= j < |st.versions| ::
      st.versions[j].languageId == lid && st.versions[j].visibilityOverride != DELETED;
    assert r <==> View(st, lid, Extant) != [] by {
      if r {
        var j :| 0 <= j < |st.versions| && st.versions[j].languageId == lid && st.versions[j].visibilityOverride != DELETED;
        assert st.versions[j] in View(st, lid, Extant);
      }
      if View(st, lid, Extant) != [] {
        var v := View(st, lid, Extant)[0];
        assert v in View(st, lid, Extant);
        var j :| 0 <= j < |st.versions| && st.versions[j] == v;
      }
    }
    r
  }

  /** `having_nonempty_versions`: some non-deleted version has subtitles. */
  function HavingNonemptyVersions(st: Store, lid: nat): (r: bool)
    ensures r <==> exists v | v in View(st, lid, Extant) :: v.subtitleCount > 0
  {
    var r := exists j | 0 <= j < |st.versions| ::
      && st.versions[j].languageId == lid
      && st.versions[j].visibilityOverride != DELETED
      && st.versions[j].subtitleCount > 0;
    assert r <==> exists v | v in View(st, lid, Extant) :: v.subtitleCount > 0 by {
      if r {
        var j :| 0 <= j < |st.versions| && st.versions[j].languageId == lid
                 && st.versions[j].visibilityOverride != DELETED && st.versions[j].subtitleCount > 0;
        assert st.versions[j] in View(st, lid, Extant);
      }
      if exists v | v in View(st, lid, Extant) :: v.subtitleCount > 0 {
        var v :| v in View(st, lid, Extant) && v.subtitleCount > 0;
        var j :| 0 <= j < |st.versions| && st.versions[j] == v;
      }
    }
    r
  }

  /** `having_nonempty_tip`: some version of the language carries the highest
      non-deleted number and has subtitles. */
  function HavingNonemptyTip(st: Store, lid: nat): bool {
    var tip := TipOf(st, lid, Extant);
    tip.Some? && exists j | 0 <= j < |st.versions| ::
      && st.versions[j].languageId == lid
      && st.versions[j].versionNumber == tip.value.versionNumber
      && st.versions[j].subtitleCount > 0
  }

  /** With unique numbers the nonempty-tip filter is "the extant tip has subtitles". */
  lemma HavingNonemptyTipMeansTipHasSubtitles(st: Store, lid: nat)
    requires UniqueNumbers(st)
    ensures HavingNonemptyTip(st, lid) <==> TipOf(st, lid, Extant).Some? && TipOf(st, lid, Extant).value.subtitleCount > 0
  {
    var tip := TipOf(st, lid, Extant);
    if tip.Some? {
      var t := tip.value;
      assert t in st.versions;
      var i :| 0 <= i < |st.versions| && st.versions[i] == t;
      if HavingNonemptyTip(st, lid) {
        var j :| 0 <= j < |st.versions| && st.versions[j].languageId == lid
                 && st.versions[j].versionNumber == t.versionNumber && st.versions[j].subtitleCount > 0;
        assert i == j;
      }
    }
  }

  /** `having_public_versions` / `has_public_version`: the public view is not empty. */
  function HavingPublicVersions(st: Store, lid: nat): (r: bool)
    ensures r <==> View(st, lid, Public) != []
  {
    var r := exists j | 0 <= j < |st.versions| ::
      st.versions[j].languageId == lid && InView(st.versions[j], Public);
    assert r <==> View(st, lid, Public) != [] by {
      if r {
        var j :| 0 <= j < |st.versions| && st.versions[j].languageId == lid && InView(st.versions[j], Public);
        assert st.versions[j] in View(st, lid, Public);
      }
      if View(st, lid, Public) != [] {
        var v := View(st, lid, Public)[0];
        assert v in View(st, lid, Public);
        var j :| 0 <= j < |st.versions| && st.versions[j] == v;
      }
    }
    r
  }

  /** In a valid store the public filter is "some version `is_public`". */
  lemma HavingPublicVersionsMeansSomePublic(st: Store, lid: nat)
    requires Valid(st)
    ensures HavingPublicVersions(st, lid) <==> exists v | v in st.versions && v.languageId == lid :: IsPublic(v)
  {
    if exists v | v in st.versions && v.languageId == lid :: IsPublic(v) {
      var v :| v in st.versions && v.languageId == lid && IsPublic(v);
      ViewsMatchVisibility(st, lid, v);
    }
    if HavingPublicVersions(st, lid) {
      var v := View(st, lid, Public)[0];
      ViewsMatchVisibility(st, lid, v);
    }
  }

  // ---------------------------------------------------------------------------
  // Language updates

  /** Replace language `lid`, keeping its identity fields. */
  function WithLanguage(st: Store, lid: nat, lang: SubtitleLanguage): (r: Store)
    requires lid < |st.languages|
    ensures r.versions == st.versions && |r.languages| == |st.languages|
    ensures r.languages[lid] == lang
    ensures forall i | 0 <= i < |st.languages| && i != lid :: r.languages[i] == st.languages[i]
  {
    st.(languages := st.languages[lid := lang])
  }

  /** `Collaborator.save` followed by the `update_signoff_counts` it triggers:
      the counters of the language are recomputed from the whole new roster.
      Creating a second row for a user of the roster is an IntegrityError. */
  function CollaboratorSave(st: Store, lid: nat, c: Collaborator, creating: bool): (r: Result<Store>)
    requires lid < |st.languages|
    ensures r.Err? <==> creating && OnRoster(st.languages[lid].collaborators, c.userId)
    ensures r.Err? ==> r.error == IntegrityError
    ensures r.Ok? ==> r.value.versions == st.versions && |r.value.languages| == |st.languages|
    ensures r.Ok? ==> c in r.value.languages[lid].collaborators
    ensures r.Ok? ==> r.value.languages[lid].counts == UpdateSignoffCounts(r.value.languages[lid].collaborators)
    ensures r.Ok? ==> var n := r.value.languages[lid].counts;
            n.official + n.unofficial + n.pending == |r.value.languages[lid].collaborators|
    ensures r.Ok? && UniqueUsers(st.languages[lid].collaborators) ==>
              UniqueUsers(r.value.languages[lid].collaborators)
    ensures r.Ok? ==> forall i | 0 <= i < |st.languages| && i != lid :: r.value.languages[i] == st.languages[i]
  {
    var lang := st.languages[lid];
    match SaveCollaborator(lang.collaborators, c, creating)
    case Err(e) => Err(e)
    case Ok((roster, counts)) => Ok(WithLanguage(st, lid, lang.(collaborators := roster, counts := counts)))
  }

  /** Language updates keep the store valid when they keep ids, codes and videos. */
  lemma WithLanguageKeepsValid(st: Store, lid: nat, lang: SubtitleLanguage)
    requires Valid(st) && lid < |st.languages|
    requires lang.id == lid
    requires lang.languageCode == st.languages[lid].languageCode && lang.videoId == st.languages[lid].videoId
    ensures Valid(WithLanguage(st, lid, lang))
  {
    var r := WithLanguage(st, lid, lang);
    forall j | 0 <= j < |r.versions|
      ensures VersionWellFormed(r, j)
    {
      assert VersionWellFormed(st, j);
    }
  }
}

=== FILE: versions.dfy ===
/** The immutable `SubtitleVersion` record (a changeset of one language branch)
    and the per-version visibility rules. Visibility fields stay strings, as in
    the database, so that values outside the Django choices can be talked about. */
module Versions {
  import opened Wrappers

  const PUBLIC: string := "public"
  const PRIVATE: string := "private"
  const DELETED: string := "deleted"
  const NO_OVERRIDE: string := ""

  /** The `max_length` of the CharFields `clean_fields` measures. */
  const LANGUAGE_CODE_MAX_LENGTH: nat := 16
  const TITLE_MAX_LENGTH: nat := 2048
  const NOTE_MAX_LENGTH: nat := 512
  const ORIGIN_MAX_LENGTH: nat := 255

  /** `SUBTITLE_VERSION_ORIGINS`: where a version may come from. */
  const ORIGINS: set<string> :=
    {"api", "web-legacy-editor", "imported", "rollback", "scripted", "tern", "upload", "web-editor"}

  /** Lineage: language code to the highest ancestor version number in that language. */
  type LineageMap = map<string, nat>

  /** A value handed to a CharField: not given (or `None`), a string, or anything else. */
  datatype Field = Absent | Text(s: string) | NonString

  datatype Version = Version(
    pk: nat,
    languageId: nat,            // the owning SubtitleLanguage
    videoId: nat,
    languageCode: string,       // denormalised from the language
    versionNumber: nat,
    visibility: string,
    visibilityOverride: string,
    authorId: nat,
    title: string,
    description: string,
    note: string,
    origin: string,
    rollbackOf: Option<nat>,    // None: not a rollback, 0: legacy rollback, n: rollback of n
    subtitleCount: nat,         // len(items) of the stored subtitle set
    fullySynced: bool,          // the subtitle set's `fully_synced`, opaque here
    lineage: LineageMap,
    parents: seq<nat>)          // pks of the parent versions, in the order they were added

  /** The Django choices of `visibility`. */
  predicate ValidVisibility(s: string) { s == PUBLIC || s == PRIVATE }

  /** The Django choices of `visibility_override` (blank allowed). */
  predicate ValidOverride(s: string) { s == NO_OVERRIDE || s == PUBLIC || s == PRIVATE || s == DELETED }

  /** `is_public`: an override decides; without one the visibility does. */
  predicate IsPublic(v: Version) {
    if v.visibilityOverride == PUBLIC then true
    else if v.visibilityOverride == PRIVATE || v.visibilityOverride == DELETED then false
    else v.visibility == PUBLIC
  }

  /** `is_private`: an override decides; without one the visibility does. */
  predicate IsPrivate(v: Version) {
    if v.visibilityOverride == PUBLIC || v.visibilityOverride == DELETED then false
    else if v.visibilityOverride == PRIVATE then true
    else v.visibility == PRIVATE
  }

  /** `is_deleted`: only the override can delete. */
  predicate IsDeleted(v: Version) {
    v.visibilityOverride == DELETED
  }

  /** The decision table: for valid field values exactly one of the three holds,
      a non-empty override decides which, and an empty one leaves it to `visibility`. */
  lemma VisibilityPartition(v: Version)
    requires ValidVisibility(v.visibility) && ValidOverride(v.visibilityOverride)
    ensures (IsPublic(v) && !IsPrivate(v) && !IsDeleted(v))
         || (!IsPublic(v) && IsPrivate(v) && !IsDeleted(v))
         || (!IsPublic(v) && !IsPrivate(v) && IsDeleted(v))
    ensures v.visibilityOverride == PUBLIC ==> IsPublic(v)
    ensures v.visibilityOverride == PRIVATE ==> IsPrivate(v)
    ensures v.visibilityOverride == DELETED ==> IsDeleted(v)
    ensures v.visibilityOverride == NO_OVERRIDE ==>
              && (IsPublic(v) <==> v.visibility == PUBLIC)
              && (IsPrivate(v) <==> v.visibility == PRIVATE)
              && !IsDeleted(v)
  {
  }

  /** Outside the choices the table is not a partition: a blank override with an
      unknown visibility is neither public, private nor deleted. */
  lemma InvalidVisibilityIsNothing(v: Version)
    requires v.visibilityOverride == NO_OVERRIDE && !ValidVisibility(v.visibility)
    ensures !IsPublic(v) && !IsPrivate(v) && !IsDeleted(v)
  {
  }

  /** The three querysets of `SubtitleVersionManager`; `all()` is refused. */
  datatype ViewKind = Full | Extant | Public

  /** Membership in a view, written as the manager's exclusions:
      `extant` drops override 'deleted'; `public` also drops override 'private'
      and blank-override versions whose visibility is 'private'. */
  predicate InView(v: Version, kind: ViewKind) {
    match kind
    case Full => true
    case Extant => v.visibilityOverride != DELETED
    case Public =>
      && !(v.visibility == PRIVATE && v.visibilityOverride == NO_OVERRIDE)
      && v.visibilityOverride != PRIVATE
      && v.visibilityOverride != DELETED
  }

  /** The `public` queryset holds exactly the versions with `is_public` and the
      `extant` one exactly those without `is_deleted`; so public, extant and full nest. */
  lemma ViewsMatchPredicates(v: Version)
    requires ValidVisibility(v.visibility) && ValidOverride(v.visibilityOverride)
    ensures InView(v, Public) <==> IsPublic(v)
    ensures InView(v, Extant) <==> !IsDeleted(v)
    ensures InView(v, Public) ==> InView(v, Extant)
    ensures InView(v, Full)
  {
  }

  /** `is_rollback`: a rollback source is recorded (0 for legacy rollbacks). */
  predicate IsRollback(v: Version) {
    v.rollbackOf.Some?
  }

  /** `SubtitleVersion.clean`: a rollback's source must precede the rollback. */
  function Clean(v: Version): (r: Outcome)
    ensures r.Pass? <==> (IsRollback(v) ==> v.rollbackOf.value < v.versionNumber)
    ensures r.Fail? ==> r.error == ValidationError(RollbackSourceNotEarlier)
  {
    if v.rollbackOf.Some? && v.rollbackOf.value >= v.versionNumber
    then Fail(ValidationError(RollbackSourceNotEarlier))
    else Pass
  }

  /** The origin field is blank-allowed: blank, or one of its choices. */
  predicate ValidOrigin(s: string) { s == "" || s in ORIGINS }

  /** The `max_length` bounds `clean_fields` checks, language code, title and note. */
  predicate FieldsFit(v: Version) {
    && |v.languageCode| <= LANGUAGE_CODE_MAX_LENGTH
    && |v.title| <= TITLE_MAX_LENGTH
    && |v.note| <= NOTE_MAX_LENGTH
  }

  /** `clean_fields`. Django gathers every failing field into one
      ValidationError; the reason recorded here is a length failure when there
      is one, otherwise a choice failure. */
  function CleanFields(v: Version): (r: Outcome)
    ensures r.Pass? <==> FieldsFit(v) && ValidVisibility(v.visibility)
                         && ValidOverride(v.visibilityOverride) && ValidOrigin(v.origin)
    ensures r.Fail? ==> r.error == ValidationError(TooLong) || r.error == ValidationError(InvalidChoice)
    ensures !FieldsFit(v) ==> r == Fail(ValidationError(TooLong))
  {
    if !FieldsFit(v) then Fail(ValidationError(TooLong))
    else if !ValidVisibility(v.visibility) || !ValidOverride(v.visibilityOverride) || !ValidOrigin(v.origin)
    then Fail(ValidationError(InvalidChoice))
    else Pass
  }

  /** `full_clean`: `clean_fields`, then `clean`. The `validate_unique` step
      that follows is left to the numbering of `add_version`. */
  function FullClean(v: Version): (r: Outcome)
    ensures r.Pass? <==> FieldsFit(v) && ValidVisibility(v.visibility)
                         && ValidOverride(v.visibilityOverride) && ValidOrigin(v.origin)
                         && (IsRollback(v) ==> v.rollbackOf.value < v.versionNumber)
    ensures r.Fail? ==> r.error.ValidationError?
    ensures r.Pass? ==> |v.origin| <= ORIGIN_MAX_LENGTH
  {
    var fields := CleanFields(v);
    if fields.Fail? then fields else Clean(v)
  }
}

=== FILE: video_views.dfy ===
/** The decision logic of the video pages: the language list (which languages,
    in which order, with which status and tags), the precondition chain of the
    rollback view, the view the history page reads, the swap in the diff view
    and the widget parameters. Display names, team membership and permissions
    come from other apps and arrive as parameters. */
module VideoViews {
  import opened Wrappers
  import opened Writelock
  import opened Versions
  import opened Store
  import Ancestry
  import EditorViews

  // ---------------------------------------------------------------------------
  // Ordering by name

  /** Python's string comparison: lexicographic on code points. */
  predicate LexLe(a: string, b: string)
    decreases |a|
  {
    a == [] || (b != [] && (a[0] < b[0] || (a[0] == b[0] && LexLe(a[1..], b[1..]))))
  }

  lemma {:induction false} LexLeTotal(a: string, b: string)
    ensures LexLe(a, b) || LexLe(b, a)
    decreases |a|
  {
    if a != [] && b != [] && a[0] == b[0] {
      LexLeTotal(a[1..], b[1..]);
    }
  }

  lemma {:induction false} LexLeTrans(a: string, b: string, c: string)
    requires LexLe(a, b) && LexLe(b, c)
    ensures LexLe(a, c)
    decreases |a|
  {
    if a != [] && b != [] && c != [] && a[0] == b[0] && b[0] == c[0] {
      LexLeTrans(a[1..], b[1..], c[1..]);
    }
  }

  // ---------------------------------------------------------------------------
  // Status and tags

  datatype Status = Complete | NeedsReview | Incomplete | NeedsTiming

  datatype Tag = OriginalTag | IncompleteTag | NeedsReviewTag | NeedsApprovalTag | NeedsEditingTag

  /** `_calc_status`: complete languages are 'complete' once something is
      public and 'needs-review' before; incomplete ones are 'incomplete' when
      the newest non-deleted version is synced and 'needs-timing' otherwise.
      With no non-deleted version, `is_synced` dereferences None. */
  function CalcStatus(st: Store, lid: nat): (r: Result<Status>)
    requires lid < |st.languages|
    ensures r.Err? <==> !st.languages[lid].subtitlesComplete && View(st, lid, Extant) == []
    ensures r.Err? ==> r.error == AttributeError
    ensures r == Ok(Complete) <==> st.languages[lid].subtitlesComplete && HavingPublicVersions(st, lid)
    ensures r == Ok(NeedsReview) <==> st.languages[lid].subtitlesComplete && View(st, lid, Public) == []
    ensures r == Ok(Incomplete) ==> TipOf(st, lid, Extant).Some? && TipOf(st, lid, Extant).value.fullySynced
    ensures r == Ok(NeedsTiming) ==> TipOf(st, lid, Extant).Some? && !TipOf(st, lid, Extant).value.fullySynced
  {
    if st.languages[lid].subtitlesComplete then
      if View(st, lid, Public) != [] then Ok(Complete) else Ok(NeedsReview)
    else
      match GetTip(st, lid, false, false)
      case Err(e) => Err(e)
      case Ok(tip) =>
        match tip
        case None => Err(AttributeError)
        case Some(v) => if v.fullySynced then Ok(Incomplete) else Ok(NeedsTiming)
  }

  /** Every language the list shows has a status: a language with a non-empty
      version has a newest non-deleted version to ask about syncing. */
  lemma ListedLanguagesHaveStatus(st: Store, lid: nat)
    requires lid < |st.languages| && HavingNonemptyVersions(st, lid)
    ensures CalcStatus(st, lid).Ok?
  {
    var v :| v in View(st, lid, Extant) && v.subtitleCount > 0;
  }

  /** The tag for a language whose open task is of type `t`. */
  function WorkflowTag(t: EditorViews.TaskType): (tag: Tag)
    ensures IsWorkflowTag(tag)
    ensures tag == NeedsReviewTag <==> t == EditorViews.Review
    ensures tag == NeedsApprovalTag <==> t == EditorViews.Approve
  {
    match t
    case Review => NeedsReviewTag
    case Approve => NeedsApprovalTag
    case _ => NeedsEditingTag
  }

  predicate IsWorkflowTag(t: Tag) {
    t == NeedsReviewTag || t == NeedsApprovalTag || t == NeedsEditingTag
  }

  /** `_calc_tags`: 'original' for the primary audio language; then either
      'incomplete', or, for complete subtitles of a team video, the tag the
      first open task for the language calls for. */
  function CalcTags(code: string, primary: string, complete: bool, hasTeamVideo: bool,
                    tasks: seq<EditorViews.Task>): (r: seq<Tag>)
    ensures |r| <= 2
    ensures OriginalTag in r <==> code == primary
    ensures OriginalTag in r ==> r[0] == OriginalTag
    ensures IncompleteTag in r <==> !complete
    ensures IncompleteTag in r ==> forall t | t in r :: !IsWorkflowTag(t)
    ensures forall i, j | 0 <= i < j < |r| :: !(IsWorkflowTag(r[i]) && IsWorkflowTag(r[j]))
    ensures var first := EditorViews.FirstWhere(tasks, t => EditorViews.OpenFor(t, code));
            && ((exists t | t in r :: IsWorkflowTag(t)) <==> complete && hasTeamVideo && first.Some?)
            && (complete && hasTeamVideo && first.Some? ==> r[|r| - 1] == WorkflowTag(tasks[first.value].taskType))
  {
    var original := if code == primary then [OriginalTag] else [];
    var first := EditorViews.FirstWhere(tasks, t => EditorViews.OpenFor(t, code));
    var progress :=
      if !complete then [IncompleteTag]
      else if !hasTeamVideo || first.None? then []
      else [WorkflowTag(tasks[first.value].taskType)];
    var r := original + progress;
    assert forall t | t in r :: t in original || t in progress;
    assert progress != [] ==> r[|r| - 1] == progress[0];
    r
  }

  // ---------------------------------------------------------------------------
  // LanguageList

  /** A `LanguageListItem`; the language id stands in for its URL. */
  datatype ListItem = ListItem(languageId: nat, languageCode: string, name: string, status: Status, tags: seq<Tag>)

  /** `video.newsubtitlelanguage_set.having_nonempty_versions()`. */
  predicate Shown(st: Store, videoId: nat, lid: nat) {
    lid < |st.languages| && st.languages[lid].videoId == videoId && HavingNonemptyVersions(st, lid)
  }

  /** The item of a shown language. */
  function MakeItem(st: Store, lid: nat, primary: string, displayName: string -> string,
                    hasTeamVideo: bool, tasks: seq<EditorViews.Task>): ListItem
    requires lid < |st.languages| && HavingNonemptyVersions(st, lid)
  {
    ListedLanguagesHaveStatus(st, lid);
    var lang := st.languages[lid];
    ListItem(lid, lang.languageCode, displayName(lang.languageCode), CalcStatus(st, lid).value,
             CalcTags(lang.languageCode, primary, lang.subtitlesComplete, hasTeamVideo, tasks))
  }

  predicate SortedByName(s: seq<ListItem>) {
    forall i, j | 0 <= i < j < |s| :: LexLe(s[i].name, s[j].name)
  }

  /** Insert `x` after every item whose name is not greater. */
  function Insert(x: ListItem, s: seq<ListItem>): (r: seq<ListItem>)
    ensures multiset(r) == multiset(s) + multiset{x}
  {
    if s == [] then [x]
    else if LexLe(s[0].name, x.name) then
      assert s == [s[0]] + s[1..];
      [s[0]] + Insert(x, s[1..])
    else [x] + s
  }

  /** Putting an item in front of a sorted list whose names it does not exceed
      keeps it sorted. */
  lemma SortedCons(a: ListItem, s: seq<ListItem>)
    requires SortedByName(s)
    requires forall y | y in s :: LexLe(a.name, y.name)
    ensures SortedByName([a] + s)
  {
    var r := [a] + s;
    forall i, j | 0 <= i < j < |r|
      ensures LexLe(r[i].name, r[j].name)
    {
      assert r[j] == s[j - 1];
      if i > 0 {
        assert r[i] == s[i - 1];
      }
    }
  }

  /** A lower bound of a list and of `x` bounds the list with `x` inserted. */
  lemma InsertKeepsLowerBound(x: ListItem, s: seq<ListItem>, b: string)
    requires LexLe(b, x.name)
    requires forall y | y in s :: LexLe(b, y.name)
    ensures forall y | y in Insert(x, s) :: LexLe(b, y.name)
  {
    forall y | y in Insert(x, s)
      ensures LexLe(b, y.name)
    {
      assert y in multiset(Insert(x, s));
      assert y == x || y in multiset(s);
    }
  }

  lemma {:induction false} InsertSorted(x: ListItem, s: seq<ListItem>)
    requires SortedByName(s)
    ensures SortedByName(Insert(x, s))
  {
    if s == [] {
    } else if LexLe(s[0].name, x.name) {
      var tail := s[1..];
      assert SortedByName(tail) by {
        forall i, j | 0 <= i < j < |tail| ensures LexLe(tail[i].name, tail[j].name) {
          assert tail[i] == s[i + 1] && tail[j] == s[j + 1];
        }
      }
      InsertSorted(x, tail);
      assert forall y | y in tail :: LexLe(s[0].name, y.name) by {
        forall y | y in tail ensures LexLe(s[0].name, y.name) {
          var k :| 0 <= k < |tail| && tail[k] == y;
          assert s[k + 1] == y;
        }
      }
      InsertKeepsLowerBound(x, tail, s[0].name);
      SortedCons(s[0], Insert(x, tail));
    } else {
      LexLeTotal(s[0].name, x.name);
      forall y | y in s ensures LexLe(x.name, y.name) {
        var k :| 0 <= k < |s| && s[k] == y;
        if k > 0 {
          LexLeTrans(x.name, s[0].name, y.name);
        }
      }
      SortedCons(x, s);
    }
  }

  /** `list.sort(key=lambda li: li.name)`: an ordering of the same items by name. */
  function SortByName(s: seq<ListItem>): (r: seq<ListItem>)
    ensures multiset(r) == multiset(s)
    ensures SortedByName(r)
  {
    if s == [] then []
    else
      var init := s[..|s| - 1];
      assert s == init + [s[|s| - 1]];
      var sorted := SortByName(init);
      InsertSorted(s[|s| - 1], sorted);
      Insert(s[|s| - 1], sorted)
  }

  /** The items of `ids`, in order. */
  function Items(st: Store, ids: seq<nat>, primary: string, displayName: string -> string,
                 hasTeamVideo: bool, tasks: seq<EditorViews.Task>): (r: seq<ListItem>)
    requires forall i | 0 <= i < |ids| :: ids[i] < |st.languages| && HavingNonemptyVersions(st, ids[i])
    ensures |r| == |ids|
    ensures forall i | 0 <= i < |ids| :: r[i] == MakeItem(st, ids[i], primary, displayName, hasTeamVideo, tasks)
  {
    seq(|ids|, i requires 0 <= i < |ids| => MakeItem(st, ids[i], primary, displayName, hasTeamVideo, tasks))
  }

  /** The items that are (`original`) or are not primary-audio languages. */
  function Partition(items: seq<ListItem>, primary: string, original: bool): (r: seq<ListItem>)
    ensures forall x :: x in r <==> x in items && (x.languageCode == primary) == original
  {
    if items == [] then []
    else
      var last := items[|items| - 1];
      var init := items[..|items| - 1];
      assert items == init + [last];
      Partition(init, primary, original) + (if (last.languageCode == primary) == original then [last] else [])
  }

  /** The two groups together hold every item exactly as often as the list does. */
  lemma {:induction false} PartitionSplits(items: seq<ListItem>, primary: string)
    ensures multiset(Partition(items, primary, true)) + multiset(Partition(items, primary, false)) == multiset(items)
    decreases |items|
  {
    if items != [] {
      var init := items[..|items| - 1];
      assert items == init + [items[|items| - 1]];
      PartitionSplits(init, primary);
    }
  }

  /** No language is listed twice. */
  predicate UniqueIds(s: seq<ListItem>) {
    forall i, j | 0 <= i < j < |s| :: s[i].languageId != s[j].languageId
  }

  /** An item found at two positions occurs at least twice. */
  lemma TwoPositions(s: seq<ListItem>, i: nat, j: nat)
    requires i < j < |s| && s[i] == s[j]
    ensures multiset(s)[s[i]] >= 2
  {
    assert s == s[..j] + [s[j]] + s[j + 1..];
    assert s[..j][i] == s[i];
  }

  /** In a list without repeated languages every item occurs once. */
  lemma UniqueOnce(s: seq<ListItem>, i: nat)
    requires UniqueIds(s) && i < |s|
    ensures multiset(s)[s[i]] == 1
  {
    assert s == s[..i] + [s[i]] + s[i + 1..];
    assert s[i] !in s[..i] by {
      forall k | 0 <= k < i ensures s[..i][k] != s[i] {
        assert s[k].languageId != s[i].languageId;
      }
    }
    var after := s[i + 1..];
    assert s[i] !in after by {
      forall k | 0 <= k < |after| ensures after[k] != s[i] {
        assert after[k] == s[i + 1 + k];
      }
    }
  }

  /** Reordering keeps a list free of repeated languages. */
  lemma UniqueIdsPermutation(a: seq<ListItem>, b: seq<ListItem>)
    requires multiset(a) == multiset(b) && UniqueIds(a)
    ensures UniqueIds(b)
  {
    forall i, j | 0 <= i < j < |b| ensures b[i].languageId != b[j].languageId {
      assert b[i] in multiset(a) && b[j] in multiset(a);
      var p :| 0 <= p < |a| && a[p] == b[i];
      if b[i] == b[j] {
        TwoPositions(b, i, j);
        UniqueOnce(a, p);
      } else {
        var q :| 0 <= q < |a| && a[q] == b[j];
        assert p != q;
        if p < q {
          assert a[p].languageId != a[q].languageId;
        } else {
          assert a[q].languageId != a[p].languageId;
        }
      }
    }
  }

  /** Items of the list are items of shown languages. */
  predicate ItemOfShown(st: Store, videoId: nat, primary: string, displayName: string -> string,
                        hasTeamVideo: bool, tasks: seq<EditorViews.Task>, x: ListItem)
  {
    Shown(st, videoId, x.languageId) && x == MakeItem(st, x.languageId, primary, displayName, hasTeamVideo, tasks)
  }

  /** `having_nonempty_versions()` on the video's language set: the shown
      languages, each once, in id order. */
  function ShownIds(st: Store, videoId: nat): (ids: seq<nat>)
    ensures forall l: nat :: l in ids <==> Shown(st, videoId, l)
    ensures forall i, j | 0 <= i < j < |ids| :: ids[i] < ids[j]
    ensures forall i | 0 <= i < |ids| :: ids[i] < |st.languages| && HavingNonemptyVersions(st, ids[i])
  {
    var ids := Ancestry.IdsBelow(|st.languages|, (l: nat) => Shown(st, videoId, l));
    forall i | 0 <= i < |ids| ensures ids[i] < |st.languages| && HavingNonemptyVersions(st, ids[i]) {
      assert ids[i] in ids;
    }
    ids
  }

  /** `LanguageList(video)`: the shown languages, primary-audio ones first,
      each group sorted by name. */
  function LanguageList(st: Store, videoId: nat, primary: string, displayName: string -> string,
                        hasTeamVideo: bool, tasks: seq<EditorViews.Task>): (r: seq<ListItem>)
    ensures forall x | x in r :: ItemOfShown(st, videoId, primary, displayName, hasTeamVideo, tasks, x)
    ensures forall l: nat | Shown(st, videoId, l) :: MakeItem(st, l, primary, displayName, hasTeamVideo, tasks) in r
    ensures forall i, j | 0 <= i < j < |r| :: r[j].languageCode == primary ==> r[i].languageCode == primary
    ensures forall i, j | 0 <= i < j < |r| && (r[i].languageCode == primary <==> r[j].languageCode == primary) ::
              LexLe(r[i].name, r[j].name)
    ensures UniqueIds(r) && |r| == |ShownIds(st, videoId)|
  {
    var ids := ShownIds(st, videoId);
    var items := Items(st, ids, primary, displayName, hasTeamVideo, tasks);
    var originals := SortByName(Partition(items, primary, true));
    var others := SortByName(Partition(items, primary, false));
    LanguageListContents(st, videoId, primary, displayName, hasTeamVideo, tasks, ids, items, originals, others);
    LanguageListOnce(st, primary, displayName, hasTeamVideo, tasks, ids, items, originals, others);
    originals + others
  }

  /** The list is a reordering of the items of the shown ids, so it names each
      shown language once. */
  lemma LanguageListOnce(st: Store, primary: string, displayName: string -> string,
                         hasTeamVideo: bool, tasks: seq<EditorViews.Task>, ids: seq<nat>,
                         items: seq<ListItem>, originals: seq<ListItem>, others: seq<ListItem>)
    requires forall i, j | 0 <= i < j < |ids| :: ids[i] < ids[j]
    requires forall i | 0 <= i < |ids| :: ids[i] < |st.languages| && HavingNonemptyVersions(st, ids[i])
    requires items == Items(st, ids, primary, displayName, hasTeamVideo, tasks)
    requires originals == SortByName(Partition(items, primary, true))
    requires others == SortByName(Partition(items, primary, false))
    ensures UniqueIds(originals + others) && |originals + others| == |ids|
  {
    forall i | 0 <= i < |items| ensures items[i].languageId == ids[i] {
      assert items[i] == MakeItem(st, ids[i], primary, displayName, hasTeamVideo, tasks);
    }
    PartitionSplits(items, primary);
    assert multiset(originals + others) == multiset(items);
    UniqueIdsPermutation(items, originals + others);
    assert |multiset(originals + others)| == |multiset(items)|;
  }

  lemma LanguageListContents(st: Store, videoId: nat, primary: string, displayName: string -> string,
                             hasTeamVideo: bool, tasks: seq<EditorViews.Task>, ids: seq<nat>,
                             items: seq<ListItem>, originals: seq<ListItem>, others: seq<ListItem>)
    requires forall l: nat :: l in ids <==> Shown(st, videoId, l)
    requires forall i | 0 <= i < |ids| :: ids[i] < |st.languages| && HavingNonemptyVersions(st, ids[i])
    requires items == Items(st, ids, primary, displayName, hasTeamVideo, tasks)
    requires originals == SortByName(Partition(items, primary, true))
    requires others == SortByName(Partition(items, primary, false))
    ensures forall x | x in originals + others :: ItemOfShown(st, videoId, primary, displayName, hasTeamVideo, tasks, x)
    ensures forall l: nat | Shown(st, videoId, l) :: MakeItem(st, l, primary, displayName, hasTeamVideo, tasks) in originals + others
    ensures forall i, j | 0 <= i < j < |originals + others| ::
              (originals + others)[j].languageCode == primary ==> (originals + others)[i].languageCode == primary
    ensures forall i, j | 0 <= i < j < |originals + others|
                          && ((originals + others)[i].languageCode == primary <==> (originals + others)[j].languageCode == primary) ::
              LexLe((originals + others)[i].name, (originals + others)[j].name)
  {
    forall x | x in originals ensures x in items && x.languageCode == primary {
      assert x in multiset(Partition(items, primary, true));
    }
    forall x | x in others ensures x in items && x.languageCode != primary {
      assert x in multiset(Partition(items, primary, false));
    }
    ItemsAreShown(st, videoId, primary, displayName, hasTeamVideo, tasks, ids, items, originals + others);
    forall l: nat | Shown(st, videoId, l)
      ensures MakeItem(st, l, primary, displayName, hasTeamVideo, tasks) in originals + others
    {
      var k :| 0 <= k < |ids| && ids[k] == l;
      var x := items[k];
      assert x in items;
      if x.languageCode == primary {
        assert x in multiset(Partition(items, primary, true));
      } else {
        assert x in multiset(Partition(items, primary, false));
      }
    }
    GroupsInOrder(originals, others, primary);
  }

  lemma ItemsAreShown(st: Store, videoId: nat, primary: string, displayName: string -> string,
                      hasTeamVideo: bool, tasks: seq<EditorViews.Task>, ids: seq<nat>,
                      items: seq<ListItem>, r: seq<ListItem>)
    requires forall l: nat :: l in ids <==> Shown(st, videoId, l)
    requires forall i | 0 <= i < |ids| :: ids[i] < |st.languages| && HavingNonemptyVersions(st, ids[i])
    requires items == Items(st, ids, primary, displayName, hasTeamVideo, tasks)
    requires forall x | x in r :: x in items
    ensures forall x | x in r :: ItemOfShown(st, videoId, primary, displayName, hasTeamVideo, tasks, x)
  {
    forall x | x in r
      ensures ItemOfShown(st, videoId, primary, displayName, hasTeamVideo, tasks, x)
    {
      var k :| 0 <= k < |items| && items[k] == x;
      assert ids[k] in ids;
    }
  }

  /** Two name-sorted groups, the first all primary and the second none, put
      one after the other. */
  lemma GroupsInOrder(originals: seq<ListItem>, others: seq<ListItem>, primary: string)
    requires SortedByName(originals) && SortedByName(others)
    requires forall x | x in originals :: x.languageCode == primary
    requires forall x | x in others :: x.languageCode != primary
    ensures forall i, j | 0 <= i < j < |originals + others| ::
              (originals + others)[j].languageCode == primary ==> (originals + others)[i].languageCode == primary
    ensures forall i, j | 0 <= i < j < |originals + others|
                          && ((originals + others)[i].languageCode == primary <==> (originals + others)[j].languageCode == primary) ::
              LexLe((originals + others)[i].name, (originals + others)[j].name)
  {
    var r := originals + others;
    forall i, j | 0 <= i < j < |r|
      ensures r[j].languageCode == primary ==> r[i].languageCode == primary
      ensures (r[i].languageCode == primary <==> r[j].languageCode == primary) ==> LexLe(r[i].name, r[j].name)
    {
      if j < |originals| {
        assert r[i] == originals[i] && r[j] == originals[j];
      } else if i >= |originals| {
        assert r[i] == others[i - |originals|] && r[j] == others[j - |originals|];
        assert r[i] in others && r[j] in others;
      } else {
        assert r[i] == originals[i] && r[j] == others[j - |originals|];
        assert r[i] in originals && r[j] in others;
      }
    }
  }

  // ---------------------------------------------------------------------------
  // rollback

  datatype RollbackOutcome = PermissionDenied | SomeoneEditing | LastVersion | RolledBack

  /** `rollback`: permission (for team videos) first, then the writelock, then
      "there is a later non-deleted version"; `rollback_to` runs only when all
      three pass. */
  function RollbackView(st: Store, v: Version, hasTeamVideo: bool, canRollback: bool, now: int): (r: RollbackOutcome)
    requires v.languageId < |st.languages|
    ensures r == PermissionDenied <==> hasTeamVideo && !canRollback
    ensures r == SomeoneEditing <==>
              (!hasTeamVideo || canRollback) && IsWritelocked(st.languages[v.languageId].lock, now)
    ensures r == LastVersion <==>
              && (!hasTeamVideo || canRollback)
              && !IsWritelocked(st.languages[v.languageId].lock, now)
              && forall w | w in View(st, v.languageId, Extant) :: w.versionNumber <= v.versionNumber
    ensures r == RolledBack <==>
              && (!hasTeamVideo || canRollback)
              && !IsWritelocked(st.languages[v.languageId].lock, now)
              && NextVersion(st, v, false).Some?
  {
    if hasTeamVideo && !canRollback then PermissionDenied
    else if IsWritelocked(st.languages[v.languageId].lock, now) then SomeoneEditing
    else if NextVersion(st, v, false).None? then LastVersion
    else RolledBack
  }

  /** A rollback never runs while anybody holds the language's lock, and only
      rolls back to a version that a later non-deleted version follows. */
  lemma RollbackRespectsEditor(st: Store, v: Version, hasTeamVideo: bool, canRollback: bool,
                               user: User, key: string, t0: int, now: int)
    requires v.languageId < |st.languages|
    requires st.languages[v.languageId].lock == Acquire(user, key, t0)
    requires t0 <= now < t0 + WRITELOCK_EXPIRATION * MICROS_PER_SECOND
    ensures RollbackView(st, v, hasTeamVideo, canRollback, now) != RolledBack
  {
  }

  lemma RolledBackHasLaterVersion(st: Store, v: Version, hasTeamVideo: bool, canRollback: bool, now: int)
    requires v.languageId < |st.languages|
    requires RollbackView(st, v, hasTeamVideo, canRollback, now) == RolledBack
    ensures exists w | w in View(st, v.languageId, Extant) :: w.versionNumber > v.versionNumber
  {
    var w := NextVersion(st, v, false).value;
    assert w in View(st, v.languageId, Extant);
  }

  // ---------------------------------------------------------------------------
  // history

  /** Non-members of a team video's team read the public view; everyone else the extant one. */
  function HistoryKind(hasTeamVideo: bool, isMember: bool): (k: ViewKind)
    ensures k == Public <==> hasTeamVideo && !isMember
    ensures k == Public || k == Extant
  {
    if hasTeamVideo && !isMember then Public else Extant
  }

  function Reverse<T>(s: seq<T>): (r: seq<T>)
    ensures multiset(r) == multiset(s)
  {
    if s == [] then []
    else
      assert s == s[..|s| - 1] + [s[|s| - 1]];
      [s[|s| - 1]] + Reverse(s[..|s| - 1])
  }

  /** The revision list of `history`, newest first. */
  function HistoryRevisions(st: Store, lid: nat, hasTeamVideo: bool, isMember: bool): (r: seq<Version>)
    ensures forall v :: v in r <==> v in View(st, lid, HistoryKind(hasTeamVideo, isMember))
  {
    var vs := View(st, lid, HistoryKind(hasTeamVideo, isMember));
    var r := Reverse(vs);
    assert forall v :: v in r <==> v in multiset(vs);
    r
  }

  /** Outsiders never see a private or deleted version; insiders see every
      version of the language that is not deleted, and none that is. */
  lemma HistoryVisibility(st: Store, lid: nat, hasTeamVideo: bool, isMember: bool, v: Version)
    requires Valid(st) && v in st.versions && v.languageId == lid
    ensures hasTeamVideo && !isMember ==> (v in HistoryRevisions(st, lid, hasTeamVideo, isMember) <==> IsPublic(v))
    ensures !(hasTeamVideo && !isMember) ==> (v in HistoryRevisions(st, lid, hasTeamVideo, isMember) <==> !IsDeleted(v))
  {
    var j :| 0 <= j < |st.versions| && st.versions[j] == v;
    assert VersionWellFormed(st, j);
    ViewsMatchPredicates(v);
  }

  // ---------------------------------------------------------------------------
  // diffing

  /** `diffing(first_version, second_pk)`: the second version must be a
      non-deleted version of the first one's language; versions of different
      videos raise; the pair is returned larger pk first. */
  function Diffing(st: Store, first: Version, secondPk: nat): (r: Result<(Version, Version)>)
    ensures r == Err(NotFound) <==>
              secondPk >= |st.versions| || st.versions[secondPk] !in View(st, first.languageId, Extant)
    ensures r.Ok? ==> r.value.0.pk >= r.value.1.pk
    ensures r.Ok? ==> r.value == (first, st.versions[secondPk]) || r.value == (st.versions[secondPk], first)
  {
    if secondPk >= |st.versions| || st.versions[secondPk] !in View(st, first.languageId, Extant) then Err(NotFound)
    else
      var second := st.versions[secondPk];
      if first.videoId != second.videoId then Err(TypeError)
      else if first.pk < second.pk then Ok((second, first))
      else Ok((first, second))
  }

  /** In a valid store, diffing two non-deleted versions of one language gives
      the same pair whichever is named first. */
  lemma DiffingSymmetric(st: Store, a: Version, b: Version)
    requires Valid(st)
    requires a in View(st, a.languageId, Extant) && b in View(st, a.languageId, Extant)
    ensures Diffing(st, a, b.pk).Ok?
    ensures Diffing(st, a, b.pk) == Diffing(st, b, a.pk)
  {
    var i :| 0 <= i < |st.versions| && st.versions[i] == a;
    var j :| 0 <= j < |st.versions| && st.versions[j] == b;
    assert VersionWellFormed(st, i) && VersionWellFormed(st, j);
  }

  // ---------------------------------------------------------------------------
  // _widget_params

  datatype WidgetConfig = WidgetConfig(
    videoUrl: string,
    alternateUrls: seq<string>,
    revision: Option<nat>,
    languageCode: Option<string>,
    languagePk: Option<nat>,
    videoSize: Option<(int, int)>)

  /** The URLs of `urls` other than `u`, in order. */
  function Without(urls: seq<string>, u: string): (r: seq<string>)
    ensures forall x :: x in r <==> x in urls && x != u
    ensures |r| <= |urls|
  {
    if urls == [] then []
    else
      var init := urls[..|urls| - 1];
      assert urls == init + [urls[|urls| - 1]];
      Without(init, u) + (if urls[|urls| - 1] != u then [urls[|urls| - 1]] else [])
  }

  /** `_widget_params`: the given URL (or the video's own when none or empty),
      every other effective URL as an alternate, the revision only for a
      non-zero version number, the language's code and pk when a language is
      given, and the size when one is. */
  function WidgetParams(videoUrl: Option<string>, defaultUrl: string, effectiveUrls: seq<string>,
                        versionNo: Option<nat>, language: Option<SubtitleLanguage>,
                        size: Option<(int, int)>): (r: WidgetConfig)
    ensures r.videoUrl == (if videoUrl.Some? && videoUrl.value != "" then videoUrl.value else defaultUrl)
    ensures forall u :: u in r.alternateUrls <==> u in effectiveUrls && u != r.videoUrl
    ensures r.revision.Some? <==> versionNo.Some? && versionNo.value != 0
    ensures r.revision.Some? ==> r.revision == versionNo
    ensures r.languageCode.Some? <==> language.Some?
    ensures language.Some? ==> r.languageCode == Some(language.value.languageCode) && r.languagePk == Some(language.value.id)
    ensures r.videoSize == size
  {
    var primary := if videoUrl.Some? && videoUrl.value != "" then videoUrl.value else defaultUrl;
    WidgetConfig(
      primary,
      Without(effectiveUrls, primary),
      if versionNo.Some? && versionNo.value != 0 then versionNo else None,
      if language.Some? then Some(language.value.languageCode) else None,
      if language.Some? then Some(language.value.id) else None,
      size)
  }

  /** Every effective URL reaches the widget exactly once as a role: either it
      is the primary URL or it is an alternate, never both. */
  lemma WidgetUrlsPartition(videoUrl: Option<string>, defaultUrl: string, effectiveUrls: seq<string>,
                            versionNo: Option<nat>, language: Option<SubtitleLanguage>,
                            size: Option<(int, int)>, u: string)
    requires u in effectiveUrls
    ensures var r := WidgetParams(videoUrl, defaultUrl, effectiveUrls, versionNo, language, size);
            (u == r.videoUrl) != (u in r.alternateUrls)
  {
  }
}

=== FILE: videos.dfy ===
/** The `videos` app pieces around the store: the `Video` writelock, the
    metadata-type choice registry, the string logic of `title_display` and the
    action type `create_caption_handler` records for a saved version. */
module Videos {
  import opened Wrappers
  import opened Writelock
  import opened Versions
  import opened Store
  import opened Gateway

  // ---------------------------------------------------------------------------
  // Video writelock

  datatype Video = Video(id: nat, title: string, urls: seq<string>, lock: Lock)

  /** `Video.is_writelocked`. */
  function VideoIsWritelocked(v: Video, now: int): (r: bool)
    ensures r <==> v.lock.time.Some? && now - v.lock.time.value < WRITELOCK_EXPIRATION * MICROS_PER_SECOND
  {
    IsWritelocked(v.lock, now)
  }

  /** `Video.can_writelock(request)`: the request's browser id is the stored key, or the lock is free. */
  function VideoCanWritelock(v: Video, browserId: string, now: int): (r: bool)
    ensures r <==> v.lock.sessionKey == browserId || !VideoIsWritelocked(v, now)
  {
    CanWritelock(v.lock, browserId, now)
  }

  /** `Video.writelock(request)` through `_make_writelock`: the owner only for an
      authenticated user, the key and time always; the rest of the video is untouched. */
  function VideoWritelock(v: Video, user: User, browserId: string, now: int): (r: Video)
    ensures r.lock.owner == (if user.Authenticated? then Some(user.id) else None)
    ensures r.lock.sessionKey == browserId && r.lock.time == Some(now)
    ensures r.(lock := v.lock) == v
  {
    v.(lock := Acquire(user, browserId, now))
  }

  /** `Video.release_writelock`: owner, key and time reset. */
  function VideoReleaseWritelock(v: Video): (r: Video)
    ensures r.lock == Lock(None, "", None)
    ensures r.(lock := v.lock) == v
  {
    v.(lock := Release(v.lock))
  }

  /** Within 30 seconds of a video writelock, another browser is refused and
      the same browser is let back in; afterwards anyone may lock it. */
  lemma VideoLockExclusive(v: Video, user: User, key: string, t0: int, other: string, now: int)
    requires t0 <= now
    ensures var locked := VideoWritelock(v, user, key, t0);
            VideoCanWritelock(locked, other, now) <==> other == key || now >= t0 + WRITELOCK_EXPIRATION * MICROS_PER_SECOND
  {
  }

  /** After a release every browser may lock the video again. */
  lemma VideoReleaseFrees(v: Video, other: string, now: int)
    ensures VideoCanWritelock(VideoReleaseWritelock(v), other, now)
    ensures !VideoIsWritelocked(VideoReleaseWritelock(v), now)
  {
  }

  // ---------------------------------------------------------------------------
  // Metadata-type registry

  /** One `(num, readable_name)` choice of `VideoMetadata.key`. */
  datatype MetaChoice = MetaChoice(num: int, name: string)

  /** `VIDEO_META_CHOICES` and the three lookup tables rebuilt from it. */
  datatype Registry = Registry(
    choices: seq<MetaChoice>,
    names: map<int, string>,     // VIDEO_META_TYPE_NAMES
    vars: map<int, string>,      // VIDEO_META_TYPE_VARS
    ids: map<string, int>)       // VIDEO_META_TYPE_IDS

  const INITIAL_META_CHOICES: seq<MetaChoice> := [MetaChoice(1, "Author"), MetaChoice(2, "Creation Date")]

  /** ASCII `str.lower` of one character. */
  function LowerChar(c: char): char {
    if 'A' <= c <= 'Z' then (c as int + 32) as char else c
  }

  /** `name.lower().replace(' ', '_')`, ASCII case folding only. */
  function VarName(name: string): (r: string)
    ensures |r| == |name|
    ensures forall i | 0 <= i < |r| :: r[i] != ' ' && !('A' <= r[i] <= 'Z')
    ensures forall i | 0 <= i < |r| :: r[i] == if name[i] == ' ' then '_' else LowerChar(name[i])
  {
    if name == [] then []
    else VarName(name[..|name| - 1]) + [if name[|name| - 1] == ' ' then '_' else LowerChar(name[|name| - 1])]
  }

  /** `dict(pairs)`: later pairs overwrite earlier ones with the same key. */
  function NamesOf(cs: seq<MetaChoice>): (r: map<int, string>)
    ensures forall n :: n in r <==> exists i | 0 <= i < |cs| :: cs[i].num == n
    ensures |cs| > 0 ==> r[cs[|cs| - 1].num] == cs[|cs| - 1].name
  {
    if cs == [] then map[] else NamesOf(cs[..|cs| - 1])[cs[|cs| - 1].num := cs[|cs| - 1].name]
  }

  function VarsOf(cs: seq<MetaChoice>): (r: map<int, string>)
    ensures r.Keys == NamesOf(cs).Keys
    ensures forall n | n in r :: r[n] == VarName(NamesOf(cs)[n])
  {
    if cs == [] then map[] else VarsOf(cs[..|cs| - 1])[cs[|cs| - 1].num := VarName(cs[|cs| - 1].name)]
  }

  /** `dict([choice[::-1] for choice in choices])`: name to number, later wins. */
  function IdsOf(cs: seq<MetaChoice>): (r: map<string, int>)
    ensures forall s :: s in r <==> exists i | 0 <= i < |cs| :: cs[i].name == s
    ensures |cs| > 0 ==> r[cs[|cs| - 1].name] == cs[|cs| - 1].num
  {
    if cs == [] then map[] else IdsOf(cs[..|cs| - 1])[cs[|cs| - 1].name := cs[|cs| - 1].num]
  }

  /** `update_metadata_choices()`: rebuild the three tables from the choices. */
  function UpdateMetadataChoices(cs: seq<MetaChoice>): (r: Registry)
    ensures r.choices == cs
    ensures r.names.Keys == r.vars.Keys
    ensures forall n | n in r.vars :: r.vars[n] == VarName(r.names[n])
    ensures forall n :: n in r.names <==> exists i | 0 <= i < |cs| :: cs[i].num == n
  {
    Registry(cs, NamesOf(cs), VarsOf(cs), IdsOf(cs))
  }

  /** No number is bound to two different names. */
  predicate Functional(cs: seq<MetaChoice>) {
    forall i, j | 0 <= i < |cs| && 0 <= j < |cs| && cs[i].num == cs[j].num :: cs[i].name == cs[j].name
  }

  /** With a functional list, `NAMES[n]` is the name of every choice numbered `n`. */
  lemma {:induction false} NamesOfFunctional(cs: seq<MetaChoice>)
    requires Functional(cs)
    ensures forall i | 0 <= i < |cs| :: NamesOf(cs)[cs[i].num] == cs[i].name
  {
    if cs != [] {
      var init := cs[..|cs| - 1];
      assert Functional(init) by {
        forall i, j | 0 <= i < |init| && 0 <= j < |init| && init[i].num == init[j].num
          ensures init[i].name == init[j].name
        {
          assert cs[i] == init[i] && cs[j] == init[j];
        }
      }
      NamesOfFunctional(init);
      forall i | 0 <= i < |cs|
        ensures NamesOf(cs)[cs[i].num] == cs[i].name
      {
        if i < |cs| - 1 {
          assert cs[i] == init[i];
        }
      }
    }
  }

  /** The first choice numbered `num`, the one the loop of `add_metadata_type` stops at. */
  function FirstWithNum(cs: seq<MetaChoice>, num: int): (r: Option<nat>)
    ensures r.None? <==> forall i | 0 <= i < |cs| :: cs[i].num != num
    ensures r.Some? ==> r.value < |cs| && cs[r.value].num == num
    ensures r.Some? ==> forall i | 0 <= i < r.value :: cs[i].num != num
  {
    if cs == [] then None
    else if cs[0].num == num then Some(0)
    else match FirstWithNum(cs[1..], num)
      case None => None
      case Some(i) => Some(i + 1)
  }

  /** `VideoMetadata.add_metadata_type(num, readable_name)`: the first choice
      with the same number decides: another name is a ValueError, the same name
      returns with nothing changed; with no such choice the pair is appended and
      the tables rebuilt. */
  function AddMetadataType(reg: Registry, num: int, name: string): (r: Result<Registry>)
    ensures r.Err? ==> r.error == ValueError
    ensures r.Err? <==> exists i | 0 <= i < |reg.choices| ::
                          (reg.choices[i].num == num && reg.choices[i].name != name
                           && forall j | 0 <= j < i :: reg.choices[j].num != num)
    ensures r.Ok? && (exists i | 0 <= i < |reg.choices| :: reg.choices[i].num == num) ==> r.value == reg
    ensures r.Ok? && (forall i | 0 <= i < |reg.choices| :: reg.choices[i].num != num) ==>
              r.value == UpdateMetadataChoices(reg.choices + [MetaChoice(num, name)])
  {
    match FirstWithNum(reg.choices, num)
    case Some(i) => if reg.choices[i].name != name then Err(ValueError) else Ok(reg)
    case None => Ok(UpdateMetadataChoices(reg.choices + [MetaChoice(num, name)]))
  }

  /** On a functional list the clash test is "some choice has this number and
      another name"; a successful add keeps the list functional and afterwards
      the number maps to the name in NAMES and to its variable name in VARS. */
  lemma AddMetadataTypeFunctional(reg: Registry, num: int, name: string)
    requires Functional(reg.choices)
    ensures AddMetadataType(reg, num, name).Err? <==>
              exists i | 0 <= i < |reg.choices| :: reg.choices[i].num == num && reg.choices[i].name != name
    ensures var r := AddMetadataType(reg, num, name);
            r.Ok? ==> Functional(r.value.choices) && MetaChoice(num, name) in r.value.choices
    ensures var r := AddMetadataType(reg, num, name);
            r.Ok? && reg == UpdateMetadataChoices(reg.choices) ==>
              && num in r.value.names && r.value.names[num] == name
              && num in r.value.vars && r.value.vars[num] == VarName(name)
  {
    var r := AddMetadataType(reg, num, name);
    var fw := FirstWithNum(reg.choices, num);
    if fw.Some? && r.Ok? {
      assert reg.choices[fw.value] == MetaChoice(num, name);
      NamesOfFunctional(reg.choices);
    }
    if fw.None? {
      AppendFreshKeepsFunctional(reg.choices, MetaChoice(num, name));
      var cs := reg.choices + [MetaChoice(num, name)];
      assert cs[|cs| - 1] == MetaChoice(num, name);
    }
  }

  /** Appending a choice with an unused number keeps the list functional. */
  lemma AppendFreshKeepsFunctional(cs: seq<MetaChoice>, c: MetaChoice)
    requires Functional(cs)
    requires forall i | 0 <= i < |cs| :: cs[i].num != c.num
    ensures Functional(cs + [c])
  {
    var ds := cs + [c];
    forall i, j | 0 <= i < |ds| && 0 <= j < |ds| && ds[i].num == ds[j].num
      ensures ds[i].name == ds[j].name
    {
      if i < |cs| && j < |cs| {
        assert ds[i] == cs[i] && ds[j] == cs[j];
      }
    }
  }

  /** Re-adding a pair that is registered is a no-op; adding a pair twice is the same as adding it once. */
  lemma AddMetadataTypeIdempotent(reg: Registry, num: int, name: string)
    requires Functional(reg.choices)
    requires AddMetadataType(reg, num, name).Ok?
    ensures var once := AddMetadataType(reg, num, name).value;
            AddMetadataType(once, num, name) == Ok(once)
  {
    AddMetadataTypeFunctional(reg, num, name);
    var once := AddMetadataType(reg, num, name).value;
    var i :| 0 <= i < |once.choices| && once.choices[i] == MetaChoice(num, name);
    var fw := FirstWithNum(once.choices, num);
    assert once.choices[fw.value].name == name;
  }

  /** The module-level initial registry is functional and its variable names are
      'author' and 'creation_date'. */
  lemma InitialRegistry()
    ensures Functional(INITIAL_META_CHOICES)
    ensures var reg := UpdateMetadataChoices(INITIAL_META_CHOICES);
            reg.vars == map[1 := "author", 2 := "creation_date"] && reg.ids == map["Author" := 1, "Creation Date" := 2]
  {
    var reg := UpdateMetadataChoices(INITIAL_META_CHOICES);
    assert reg.vars == VarsOf(INITIAL_META_CHOICES) && reg.ids == IdsOf(INITIAL_META_CHOICES);
    InitialTables();
    InitialVarNames();
    InitialFunctional();
  }

  /** The two initial choices have different numbers. */
  lemma InitialFunctional()
    ensures Functional(INITIAL_META_CHOICES)
  {
    var cs := INITIAL_META_CHOICES;
    forall i, j | 0 <= i < |cs| && 0 <= j < |cs| && cs[i].num == cs[j].num
      ensures cs[i].name == cs[j].name
    {
      assert cs[0].num == 1 && cs[1].num == 2;
    }
  }

  /** The tables of the initial choices, before the variable names are spelled out. */
  lemma InitialTables()
    ensures VarsOf(INITIAL_META_CHOICES) == map[1 := VarName("Author"), 2 := VarName("Creation Date")]
    ensures IdsOf(INITIAL_META_CHOICES) == map["Author" := 1, "Creation Date" := 2]
  {
    var cs := INITIAL_META_CHOICES;
    assert cs[..1] == [MetaChoice(1, "Author")];
    assert cs[..1][..0] == [];
  }

  lemma InitialVarNames()
    ensures VarName("Author") == "author"
    ensures VarName("Creation Date") == "creation_date"
  {
    var a := VarName("Author");
    assert |a| == 6 && a[0] == 'a';
    var c := VarName("Creation Date");
    assert |c| == 13 && c[0] == 'c' && c[8] == '_' && c[9] == 'd';
  }

  // ---------------------------------------------------------------------------
  // title_display

  const NO_TITLE: string := "No title"
  const TITLE_LIMIT: nat := 35

  /** The ASCII whitespace `str.strip()` removes. */
  predicate IsSpace(c: char) {
    c == ' ' || c == '\t' || c == '\n' || c == '\r' || c == '\U{B}' || c == '\U{C}'
  }

  /** `not s.strip()`: empty or all whitespace. */
  predicate Blank(s: string) {
    forall i | 0 <= i < |s| :: IsSpace(s[i])
  }

  /** Drop leading copies of `c`. */
  function TrimStart(s: string, c: char): (r: string)
    ensures |r| <= |s| && r == s[|s| - |r|..]
    ensures forall i | 0 <= i < |s| - |r| :: s[i] == c
    ensures r == [] || r[0] != c
  {
    if s != [] && s[0] == c then TrimStart(s[1..], c) else s
  }

  /** Drop trailing copies of `c`. */
  function TrimEnd(s: string, c: char): (r: string)
    ensures |r| <= |s| && r == s[..|r|]
    ensures forall i | |r| <= i < |s| :: s[i] == c
    ensures r == [] || r[|r| - 1] != c
  {
    if s != [] && s[|s| - 1] == c then TrimEnd(s[..|s| - 1], c) else s
  }

  /** `s.strip(c)`: what remains is a slice of `s` with only `c` outside it and
      no `c` at either end. */
  function Strip(s: string, c: char): (r: string)
    ensures r == [] || (r[0] != c && r[|r| - 1] != c)
    ensures exists i, j | 0 <= i <= j <= |s| :: r == s[i..j]
                          && (forall k | 0 <= k < i :: s[k] == c) && (forall k | j <= k < |s| :: s[k] == c)
  {
    var t := TrimEnd(TrimStart(s, c), c);
    var i := |s| - |TrimStart(s, c)|;
    assert t == s[i..i + |t|];
    t
  }

  /** The position of the first `c`, if any. */
  function IndexOf(s: string, c: char): (r: Option<nat>)
    ensures r.None? <==> c !in s
    ensures r.Some? ==> r.value < |s| && s[r.value] == c && c !in s[..r.value]
  {
    if s == [] then None
    else if s[0] == c then Some(0)
    else match IndexOf(s[1..], c)
      case None => None
      case Some(i) =>
        assert s[1..][..i] == s[1..i + 1];
        Some(i + 1)
  }

  /** `s.split(c)`. */
  function Split(s: string, c: char): (r: seq<string>)
    ensures |r| >= 1
    ensures forall i | 0 <= i < |r| :: c !in r[i]
    ensures |r| > 1 <==> c in s
    decreases |s|
  {
    match IndexOf(s, c)
    case None => [s]
    case Some(i) => [s[..i]] + Split(s[i + 1..], c)
  }

  /** `c.join(parts)`. */
  function Join(parts: seq<string>, c: char): string
    requires |parts| >= 1
  {
    if |parts| == 1 then parts[0] else parts[0] + [c] + Join(parts[1..], c)
  }

  /** Splitting and joining on the same character gives the string back. */
  lemma {:induction false} SplitJoin(s: string, c: char)
    ensures Join(Split(s, c), c) == s
    decreases |s|
  {
    match IndexOf(s, c)
    case None =>
    case Some(i) =>
      SplitJoin(s[i + 1..], c);
      assert s == s[..i] + [c] + s[i + 1..];
  }

  /** The title shown for a URL: strip '/', drop a leading 'http://', and show a
      path as its first and last segments around '/.../'. */
  function UrlTitle(url: string): (r: string)
  {
    var stripped := Strip(url, '/');
    var rest := if |stripped| >= 7 && stripped[..7] == "http://" then stripped[7..] else stripped;
    var parts := Split(rest, '/');
    if |parts| > 1 then parts[0] + "/.../" + parts[|parts| - 1] else rest
  }

  /** `Video.title_display(truncate)`: the latest version's title when it is not
      blank, else the video's title when not blank, else a title derived from the
      first URL ('No title' without one or for an empty one); with truncation a
      title over 35 characters keeps its first 35 followed by '...'. */
  function TitleDisplay(latestTitle: Option<string>, videoTitle: string, firstUrl: Option<string>, truncate: bool): (r: string)
    ensures truncate ==> |r| <= TITLE_LIMIT + 3
    ensures latestTitle.Some? && !Blank(latestTitle.value) && !truncate ==> r == latestTitle.value
    ensures (latestTitle.None? || Blank(latestTitle.value)) && !Blank(videoTitle) && !truncate ==> r == videoTitle
    ensures ((latestTitle.None? || Blank(latestTitle.value)) && Blank(videoTitle)
             && (firstUrl.None? || firstUrl.value == [])) ==> r == NO_TITLE
    ensures ((latestTitle.None? || Blank(latestTitle.value)) && Blank(videoTitle)
             && firstUrl.Some? && firstUrl.value != [] && !truncate) ==> r == UrlTitle(firstUrl.value)
  {
    var title :=
      if latestTitle.Some? && !Blank(latestTitle.value) then latestTitle.value
      else if !Blank(videoTitle) then videoTitle
      else if firstUrl.None? || firstUrl.value == [] then NO_TITLE
      else UrlTitle(firstUrl.value);
    if truncate && |title| > TITLE_LIMIT then title[..TITLE_LIMIT] + "..." else title
  }

  /** Truncation only shortens: the truncated title is the full one when that
      fits in 35 characters, and otherwise its first 35 characters and '...'. */
  lemma TruncationKeepsPrefix(latestTitle: Option<string>, videoTitle: string, firstUrl: Option<string>)
    ensures var full := TitleDisplay(latestTitle, videoTitle, firstUrl, false);
            var short := TitleDisplay(latestTitle, videoTitle, firstUrl, true);
            && (|full| <= TITLE_LIMIT ==> short == full)
            && (|full| > TITLE_LIMIT ==> short == full[..TITLE_LIMIT] + "..." && |short| == TITLE_LIMIT + 3)
  {
  }

  /** A path-shaped URL shows its first and last segments: the title is the text
      before the first '/' and after the last '/' of the stripped URL. */
  lemma UrlTitleKeepsEnds(url: string)
    ensures var stripped := Strip(url, '/');
            var rest := if |stripped| >= 7 && stripped[..7] == "http://" then stripped[7..] else stripped;
            var parts := Split(rest, '/');
            && (|parts| > 1 ==> UrlTitle(url) == parts[0] + "/.../" + parts[|parts| - 1])
            && ('/' !in rest ==> UrlTitle(url) == rest)
            && Join(parts, '/') == rest
  {
    var stripped := Strip(url, '/');
    var rest := if |stripped| >= 7 && stripped[..7] == "http://" then stripped[7..] else stripped;
    SplitJoin(rest, '/');
  }

  // ---------------------------------------------------------------------------
  // create_caption_handler

  const ADD_VERSION: int := 4
  const ADD_TRANSLATION: int := 6

  /** The action type `Action.create_caption_handler` records for a saved version. */
  function CaptionActionType(versionNumber: nat): (t: int)
    ensures t == ADD_TRANSLATION <==> versionNumber == 0
    ensures t == ADD_VERSION <==> versionNumber != 0
  {
    if versionNumber == 0 then ADD_TRANSLATION else ADD_VERSION
  }

  /** Versions saved through `add_version` are numbered from 1, so the action
      recorded for them is always ADD_VERSION and never ADD_TRANSLATION. */
  lemma AddVersionRecordsAddVersion(st: Store, lid: nat, explicit: seq<nat>, args: VersionArgs)
    requires lid < |st.languages| && PksExist(st, explicit)
    requires AddVersion(st, lid, explicit, args).Ok?
    ensures CaptionActionType(AddVersion(st, lid, explicit, args).value.version.versionNumber) == ADD_VERSION
  {
  }
}

=== FILE: wrappers.dfy ===
/** Option and Result types, and the error taxonomy of the subtitle store.
    The Python code signals failures by raising; here each raise becomes an
    `Err` value carrying which exception would have been raised and why. */
module Wrappers {

  datatype Option<+T> = None | Some(value: T)

  /** Why a `ValidationError` was raised. */
  datatype ValidationReason =
    | NotAString               // ensure_stringy on title or description
    | TwoParentsSameLanguage   // _sanity_check_parents, first rule
    | LineageRegression        // _sanity_check_parents, second rule
    | RollbackSourceNotEarlier // SubtitleVersion.clean
    | InvalidChoice            // a choices field holding a value outside its choices
    | TooLong                  // a CharField longer than its max_length

  /** Why an `assert` in the Python code would fail. */
  datatype AssertionReason =
    | PublicAndFull            // get_tip(public=True, full=True)
    | AllDisabled              // SubtitleVersionManager.all()
    | LanguageCodeMismatch     // SubtitleVersion.save
    | VideoMismatch            // SubtitleVersion.save
    | BadVisibility            // SubtitleVersion.save
    | NoTeamVideo              // SubtitleVersion.publish

  datatype Error =
    | ValidationError(reason: ValidationReason)
    | AssertionFailure(assertion: AssertionReason)
    | ValueError               // VideoMetadata.add_metadata_type clash
    | AttributeError           // a method called on None
    | NotFound                 // get_object_or_404 / Http404
    | TypeError                // raising a plain string
    | IntegrityError           // a database uniqueness constraint broken on insert

  datatype Result<+T> = Ok(value: T) | Err(error: Error)

  /** A check that either passes or fails with an error. */
  datatype Outcome = Pass | Fail(error: Error)

  function Max(a: int, b: int): (m: int)
    ensures m >= a && m >= b
    ensures m == a || m == b
  {
    if a >= b then a else b
  }
}

=== FILE: writelock.dfy ===
/** The time-boxed writelock shared by `subtitles.SubtitleLanguage`, `videos.Video`
    and the legacy `videos.SubtitleLanguage`: an (owner, session key, timestamp)
    triple that counts as held for 30 whole seconds after it was taken.

    Timestamps are integer microseconds; the wall clock is the parameter `now`. */
module Writelock {
  import opened Wrappers

  /** Seconds a writelock stays held after it was taken or refreshed. */
  const WRITELOCK_EXPIRATION: int := 30
  const MICROS_PER_SECOND: int := 1_000_000

  /** The user behind a request: `request.user` is either anonymous or a saved user. */
  datatype User = Anonymous | Authenticated(id: nat)

  datatype Lock = Lock(owner: Option<nat>, sessionKey: string, time: Option<int>)

  /** The state of a lock that was never taken, or was released. */
  const Released: Lock := Lock(None, "", None)

  /** Whole seconds between `since` and `now`, truncated towards minus infinity as
      `delta.days * 86400 + delta.seconds` does on a Python timedelta. */
  function ElapsedSeconds(now: int, since: int): (s: int)
    ensures s * MICROS_PER_SECOND <= now - since < (s + 1) * MICROS_PER_SECOND
  {
    (now - since) / MICROS_PER_SECOND
  }

  /** `is_writelocked`: a timestamp is set and fewer than 30 whole seconds passed. */
  function IsWritelocked(lock: Lock, now: int): (r: bool)
    ensures r <==> lock.time.Some? && now - lock.time.value < WRITELOCK_EXPIRATION * MICROS_PER_SECOND
  {
    lock.time.Some? && ElapsedSeconds(now, lock.time.value) < WRITELOCK_EXPIRATION
  }

  /** `can_writelock(key)`: the caller holds the lock, or nobody does. */
  function CanWritelock(lock: Lock, key: string, now: int): (r: bool)
    ensures !r <==> lock.sessionKey != key && lock.time.Some?
                    && now - lock.time.value < WRITELOCK_EXPIRATION * MICROS_PER_SECOND
  {
    lock.sessionKey == key || !IsWritelocked(lock, now)
  }

  /** `writelock(user, key)` / `Video._make_writelock(user, key)`: overwrite all
      three fields, with no authorisation of its own. */
  function Acquire(user: User, key: string, now: int): (r: Lock)
    ensures r.owner == (if user.Authenticated? then Some(user.id) else None)
    ensures forall t :: now <= t < now + WRITELOCK_EXPIRATION * MICROS_PER_SECOND ==> IsWritelocked(r, t)
    ensures forall t :: now + WRITELOCK_EXPIRATION * MICROS_PER_SECOND <= t ==> !IsWritelocked(r, t)
  {
    Lock(if user.Authenticated? then Some(user.id) else None, key, Some(now))
  }

  /** `release_writelock`: clear owner, key and time. */
  function Release(lock: Lock): (r: Lock)
    ensures r.owner.None? && r.time.None?
    ensures forall now :: !IsWritelocked(r, now)
    ensures forall key, now :: CanWritelock(r, key, now)
  {
    Released
  }

  /** Mutual exclusion: within 30 seconds of `Acquire(u, k)` the only key that
      may take the lock is `k`. */
  lemma ExclusiveWithinExpiration(user: User, key: string, t0: int, other: string, now: int)
    requires t0 <= now < t0 + WRITELOCK_EXPIRATION * MICROS_PER_SECOND
    ensures CanWritelock(Acquire(user, key, t0), other, now) <==> other == key
  {
  }

  /** Expiry: once 30 whole seconds have passed since the lock was taken, any key may take it. */
  lemma ExpiresAfterThirtySeconds(user: User, key: string, t0: int, other: string, now: int)
    requires now >= t0 + WRITELOCK_EXPIRATION * MICROS_PER_SECOND
    ensures !IsWritelocked(Acquire(user, key, t0), now)
    ensures CanWritelock(Acquire(user, key, t0), other, now)
  {
  }

  /** The lock is measured in whole seconds: 29.999999 seconds after it was taken
      it is still held, exactly 30 seconds after it is not. */
  lemma TruncationBoundary(user: User, key: string, t0: int)
    ensures IsWritelocked(Acquire(user, key, t0), t0 + 30 * MICROS_PER_SECOND - 1)
    ensures !IsWritelocked(Acquire(user, key, t0), t0 + 30 * MICROS_PER_SECOND)
  {
  }

  // ---------------------------------------------------------------------------
  // The legacy `videos.models.SubtitleLanguage.writelock`

  /** `SubtitleLanguage.writelock(request)` of the legacy model AS WRITTEN: the
      session key and timestamp are assigned inside the `else` branch, so only an
      anonymous request records them; an authenticated request changes the owner
      and nothing else. */
  function LegacyWritelock(lock: Lock, user: User, key: string, now: int): (r: Lock)
    ensures user.Authenticated? ==> r == lock.(owner := Some(user.id))
    ensures user.Anonymous? ==> r.owner.None? && r.sessionKey == key && r.time == Some(now)
  {
    match user
    case Authenticated(id) => lock.(owner := Some(id))
    case Anonymous => Lock(None, key, Some(now))
  }

  /** The legacy lock as written does not hold against anyone after an authenticated
      user "takes" a released lock: a second session may take it at once. */
  lemma LegacyAuthenticatedLockIsNotHeld(id: nat, key: string, other: string, now: int)
    ensures !IsWritelocked(LegacyWritelock(Released, Authenticated(id), key, now), now)
    ensures CanWritelock(LegacyWritelock(Released, Authenticated(id), key, now), other, now)
  {
  }

  /** The legacy writelock as evidently intended (and as `Video._make_writelock`
      does it): the session key and timestamp are recorded for every user. */
  function LegacyWritelockIntended(lock: Lock, user: User, key: string, now: int): (r: Lock)
    ensures r.sessionKey == key && r.time == Some(now)
    ensures forall other :: other != key ==> !CanWritelock(r, other, now)
  {
    Acquire(user, key, now)
  }
}
